=== FILE: README.md ===
# sccache simulator core in Dafny

This project models the cooperation, assignment and serving engine of the sccache
edge-caching simulator (package `simulator`). Clients send file requests. Each client
is attached to a small cell, and small cells are grouped into cooperating cache
storages. The simulator:

- groups the cells by the similarity of their demand (`arrangeCooperation`);
- attaches each client to a cell (`assign`, `assignNewClient`, `leastClients`, the
  k-means placement of `clustering`);
- ranks popular files per period and per storage (`setPopularFiles`);
- serves every request of every period, splitting its bytes into bytes served from
  cache and bytes downloaded (`period.serve`, `endPeriod`, `calRate`).

How the Go program maps onto the model:

- **State.** The simulator keeps its state in process-wide variables (`smallCells`,
  `cacheStorages`, `periodNo`, `files`, `filesList`). The model threads that state
  as one `World` value through every operation.
  - Small cells and cache storages live in arenas (`cells`, `storages`). An arena
    index stands for a Go pointer.
  - `smallCells` is the global cell slice.
  - A file is named by a `FileId`, which stands for its `*file` pointer. The file map
    is keyed by that id, so listing its values is listing its keys.
  - The global `cacheStorages` slice is `storages[activeFrom..]`. Storages from before
    the last `arrangeCooperation` stay in the arena, so `assignTo` can still subtract
    from a cell's previous storage.
- **Panics.** Every Go panic becomes `Failure(e)` of `Results.Result`: an index out of
  range, a nil dereference, a failed prediction or a failed training.
- **Maps.** Reading a missing key of a `popularities` map gives 0 (`Popularity.Get`).
  Ranging over a map enumerates its keys in ascending order (`Collections.SortedKeys`).
  The source leaves that order unspecified, so no contract depends on it.
- **Sorting.** `sort.Sort` and `sort.Slice` are modelled as insertion sorts. Contracts
  promise only what Go promises: the result is ordered and is a permutation of the
  input. For `leastClients` they also promise that the head has the fewest clients.
- **Division.** A `float64` division of integers is a `Quotient`: `Real(r)`, the exact
  quotient and not the rounded `float64`, `NaN` (0/0) or an infinity (`Popularity.Div`).
- **Collaborators.** Some code the core only calls is taken as parameters:
  - the cache-content policy `cacheFile` and `smallCellsHasFile` (`State.Environment`).
    `smallCellsHasFile` is taken to return a fresh slice, so `Assignment.AssignNewClient`
    does not keep the reordering that `leastClients` makes to that list;
  - the trained model's `Predict`, and the training that yields the guesses of
    k-means;
  - the similarity formulas.
- **Pointers.** The elements of the period list and the file map are treated as
  pointers: the updates made by `period.serve`, `endPeriod` and `setPopularFiles`
  persist in the list.

## Model

| member | source | states |
|---|---|---|
| Files.IntersectContents | simulator/files.go:63-77 | a nil second list returns the first list unchanged; otherwise the result is a list holding exactly the files of the first list that occur in the second, in the first list's order and with their multiplicities |
| Files.KeepInContents | simulator/files.go:67-76 | the kept files are exactly those in both lists, a subsequence of the first, each with its multiplicity in the first list |
| Files.IntersectScan | simulator/files.go:63-77 | the nested search loops compute the reference intersection |
| Files.HasScan | simulator/files.go:79-89 | a nil list admits every file; otherwise the answer is true iff the file occurs at some position |
| Files.Swap | simulator/files.go:99-101 | exchanges positions i and j, leaves every other position alone, and is a permutation |
| Files.SortedByLessIsNonIncreasing | simulator/files.go:95-97 | a list no later entry of which is `Less` than an earlier one has non-increasing popularity, and conversely |
| Files.InsertPermutes | simulator/files.go:91-101 | one insertion step of the sort adds exactly the inserted entry |
| Files.InsertBelow | simulator/files.go:91-101 | an insertion step keeps every popularity under any bound that the entry and the list already satisfy |
| Files.InsertSorts | simulator/files.go:91-101 | inserting into a non-increasing list keeps it non-increasing, with the new entry or the old head first |
| Files.SortPopularitiesSorts | simulator/files.go:23-24 | `sort.Sort` on a popularity list yields a permutation of the input whose popularity never increases |
| Files.PopularityFileListEntries | simulator/files.go:47-53 | the file list holds the entries' files, position by position |
| Files.KeyList | simulator/files.go:39-61 | the file list of a popularity map, and of the file map (whose entries are keyed by their own file id), holds each key exactly once, and nothing else |
| Files.PairCounts | simulator/files.go:19-22 | each listed file is paired with its count at the period, in list order; reading a count outside a file's table fails |
| Files.RankFilesRanked | simulator/files.go:16-26 | ranking fails iff some file has no count at the position; otherwise every file appears exactly once, most popular first |
| PopularFiles.RankPeriod | simulator/files.go:16-26 | ranking one period position fails iff some file lacks a count at that position; on success both popular-file lists rank every file exactly once by non-increasing count (per period and accumulated), and nothing else about the period changes |
| PopularFiles.RankPeriodsFrom | simulator/files.go:15-28 | the loop keeps the list's length and ranks each period at its own position; it fails iff some position from `pn` on lacks a count for some file |
| PopularFiles.SetPeriodsPopularFiles | simulator/files.go:15-28 | period `pn` of the result is `pl[pn]` ranked at position `pn`; it fails iff some position of the list lacks a count for some file |
| PopularFiles.SetPeriodsPopularFilesRanks | simulator/files.go:15-28 | the operation fails iff some period position lacks a count for some file; otherwise every period lists every file once, by non-increasing count, per period and accumulated, and is otherwise unchanged |
| PopularFiles.DemandPairs | simulator/files.go:31-34 | each demanded file is paired with its count in the storage's table |
| PopularFiles.StoragePopularFiles | simulator/files.go:30-37 | fails iff the period is outside the storage's accumulated table; otherwise the period's entry lists each demanded file once, most demanded first, and no other field or period entry changes |
| PopularFiles.RankedPairsFacts | simulator/files.go:31-36 | sorting the demand pairs ranks every demanded file exactly once by non-increasing count |
| Popularity.Sum | simulator/similarity.go:66-71 | the sum of an empty map is 0, and the sum of a map with non-negative counts is non-negative |
| Popularity.SumInsert | simulator/similarity.go:66-71 | setting a new key to `v` raises the sum by `v` |
| Popularity.SumOverPermutation | simulator/similarity.go:66-71 | the sum does not depend on the order in which the map is ranged over |
| Popularity.CountBelowSum | simulator/similarity.go:66-71 | with non-negative counts, no single count exceeds the sum |
| Popularity.Div | simulator/similarity.go:77 | a non-zero divisor gives the real quotient; over a zero divisor the result is NaN iff the dividend is 0 too, and otherwise the infinity with the dividend's sign |
| Popularity.Normalize | simulator/similarity.go:73-80 | the normalized map has the same keys; each share is the count over the sum when the sum is non-zero, and when the sum is 0 a zero count gives NaN and any other count the infinity with its sign |
| Popularity.NormalizeIsDistribution | simulator/similarity.go:73-80 | with non-negative counts and a positive sum, every share lies in [0, 1] and the shares add up to 1 |
| Popularity.AddTable | simulator/simulator.go:298-307 | adding a cell's table grows the storage's table to the longer length, and every count becomes the sum of the two counts |
| Popularity.SubTable | simulator/simulator.go:303-305 | subtracting keeps the table's length and lowers every count within it by the cell's count |
| Similarity.SharedFileListContents | simulator/similarity.go:52-53 | the intersected file list holds exactly the files in both maps that the filter admits |
| Similarity.PairSimilarityMeaning | simulator/similarity.go:51-64 | the similarity is 0 when the maps share no admitted file; otherwise it is the formula applied to both maps restricted to the shared files and each normalized on its own |
| Similarity.PairSimilaritySymmetric | simulator/similarity.go:51-64 | for a symmetric formula, the similarity does not depend on the order of its arguments |
| Similarity.CellSimilarity | simulator/similarity.go:25-41 | the matrix is square and symmetric with a zero diagonal; entry (i, j) above the diagonal is the pair similarity of the two cells' tables at the period; the call fails iff some cell lacks the period and there are at least two cells |
| Similarity.ClientScores | simulator/similarity.go:43-49 | one score per current cache storage: the pair similarity of the client's and the storage's accumulated table at the current period; fails iff there is a current storage and the client's or some current storage's table lacks the current period |
| Grouping.ArrangePartitions | simulator/simulator.go:254-271 | the greedy grouping partitions the cell positions: every position is in exactly one group, each group led by its anchor |
| Grouping.ArrangeAnchorOnly | simulator/simulator.go:256-271 | each group is non-empty; every later member's similarity to its group's anchor reaches the threshold, and a position was taken by an earlier anchor only if their similarity reached it |
| Grouping.SingletonsPartition | simulator/simulator.go:249-252 | a negative threshold gives one singleton group per cell, in order |
| Grouping.AnchorOnlyExample | simulator/simulator.go:256-271 | membership is judged against the anchor only: cell 2 is close to member 1 but not to anchor 0, so it starts its own group |
| Cooperation.Groups | simulator/simulator.go:248-272 | the groups partition the cell positions; a negative threshold gives singletons; otherwise the grouping fails iff the similarity matrix does |
| Cooperation.GroupsAnchorOnly | simulator/simulator.go:253-272 | with a non-negative threshold, the groups follow the anchor-only rule on the similarity matrix |
| Cooperation.CellGroups | simulator/simulator.go:275-279 | each group position is read as the cell at that position of the global list |
| Cooperation.WithFreshStorages | simulator/simulator.go:274-276 | one empty storage per group is appended and becomes the current storage list; nothing else changes |
| Cooperation.ArrangeCooperation | simulator/simulator.go:247-283 | success needs a successful grouping; there is one new storage per group and it becomes current; the cell list, clients and files are kept |
| Cooperation.ArrangeCooperationValid | simulator/simulator.go:247-283 | the world stays well formed |
| Cooperation.ArrangeCooperationMembers | simulator/simulator.go:275-280 | the g-th new storage lists exactly the cells of group g, in group order |
| Cooperation.ArrangeCooperationCells | simulator/simulator.go:275-280 | every cell of the global list ends up attached to the new storage of its group |
| Cooperation.ArrangeCellJoin | simulator/simulator.go:275-280 | the cell at a position of group g ends up with the g-th new storage as its cache storage |
| Cooperation.ArrangeCooperationCounts | simulator/simulator.go:277-279 | each new storage's demand is the sum of its cells' demand, period by period and file by file |
| Cooperation.ArrangeCooperationSucceeds | simulator/simulator.go:247-283 | when no cell is attached yet, the operation fails iff the grouping fails |
| Cooperation.ArrangeCooperationKeepsOld | simulator/simulator.go:274-280 | a previous storage that no listed cell belongs to is untouched |
| Transfer.RemovalLoop | simulator/simulator.go:287-294 | the removal loop as written: the range length is fixed before the loop, so the loop panics iff the cell occurs before the last position (after a removal it indexes past the shortened slice) |
| Transfer.Bump | simulator/simulator.go:304-306 | indexing a missing period fails, and the table keeps its length |
| Transfer.AscendingOrder | simulator/simulator.go:298-302 | the key order used for the loop lists, for every period of the cell's table, each key of that period exactly once |
| Transfer.BumpEffect | simulator/simulator.go:304-306 | adds delta to one count of one period and changes no other count, creating the key |
| Transfer.KeyStepEffect | simulator/simulator.go:303-306 | one key's count leaves the old storage and reaches the new one at that period (net zero when both are the same storage); no other period is written |
| Transfer.KeyLoopFailure | simulator/simulator.go:302-307 | the inner loop fails iff it has a key to move and the old storage lacks the period |
| Transfer.KeyLoopCounts | simulator/simulator.go:302-307 | each key's count moves from the old storage to the new one at that period; a move within the same storage nets zero |
| Transfer.KeyLoopKeys | simulator/simulator.go:302-307 | the new storage's period gains exactly the moved keys, and no other period changes |
| Transfer.PeriodStepFailure | simulator/simulator.go:298-307 | one period step fails iff the cell comes from another storage that lacks the period and the period has demand |
| Transfer.PeriodStepCounts | simulator/simulator.go:298-307 | one period step moves that period's counts |
| Transfer.PeriodStepKeys | simulator/simulator.go:298-307 | one period step adds exactly that period's keys to both tables involved |
| Transfer.PeriodLoopFailure | simulator/simulator.go:298-308 | the period loop fails iff some period with demand lies beyond the old storage's table |
| Transfer.PeriodLoopCounts | simulator/simulator.go:298-308 | the loop moves every count from the old storage to the new one, for every period from the start position on |
| Transfer.PeriodLoopJoinedKeys | simulator/simulator.go:298-308 | the new storage's periods hold exactly their old keys plus the cell's |
| Transfer.PeriodLoopLeftKeys | simulator/simulator.go:298-308 | the old storage's periods hold exactly their old keys plus the cell's keys, when the cell leaves it |
| Transfer.PeriodLoopJoinedTable | simulator/simulator.go:298-308 | the new storage's table equals the reference sum table (net zero when the storage is the same) |
| Transfer.PeriodLoopLeftTable | simulator/simulator.go:298-308 | the old storage's table equals the reference difference table |
| Transfer.CellAssignTo | simulator/simulator.go:285-309 | references stay in their arenas; the shape, the global list and the clients are kept |
| Transfer.CellAssignToValid | simulator/simulator.go:285-309 | the world stays well formed |
| Transfer.CellAssignToFailure | simulator/simulator.go:285-309 | fails iff the cell has an owner and either occurs in the owner's list before the last position, or comes from another storage whose table lacks a period with demand |
| Transfer.CellAssignToEffect | simulator/simulator.go:295-296 | the cell records the new storage, the new storage's list gains the cell at its end, other lists are kept, and only the two storages involved change |
| Transfer.CellAssignToDemand | simulator/simulator.go:298-308 | the new storage's table is the joined reference table; an old storage that differs from the new one loses the cell's demand |
| Transfer.CellAssignToJoinCounts | simulator/simulator.go:298-308 | moving to a different storage raises each count of the new storage by the cell's count |
| Transfer.CellAssignToSameCounts | simulator/simulator.go:303-306 | re-attaching to the same storage leaves every count unchanged |
| Transfer.CellAssignToConserves | simulator/simulator.go:298-308 | moving between storages conserves the total demand of the two storages |
| Removal.Without | simulator/simulator.go:288-293 | the intended removal: the list keeps every other member, in order and with its multiplicity, and loses every occurrence of the cell |
| Removal.CellAssignToCorrected | simulator/simulator.go:286-309 | the corrected operation keeps references valid, the world's shape, the global cell list and the clients |
| Removal.CellAssignToCorrectedFailure | simulator/simulator.go:286-309 | with the intended removal, the operation fails iff the cell leaves another storage that lacks a period in which the cell has demand |
| Removal.CellAssignToCorrectedEffect | simulator/simulator.go:286-296 | with the intended removal, the cell records the new storage and is appended to its list; its previous storage no longer lists it; no other list changes; the new storage's demand is the reference joined table |
| Removal.CellAssignToCorrectedAgrees | simulator/simulator.go:287-288 | for a cell with no storage, the corrected operation equals the operation as written |
| Removal.RemovalOverrun | simulator/simulator.go:287-294 | removing the first of two members panics as written; removing the last succeeds with a copy that is never written back; the intended removal leaves the other member in both cases |
| State.AssignClient | simulator/simulator.go:215 | the client ends in cell k and is a member there; it leaves the client set of its previous cell, every other cell's client set is unchanged, no other client changes, and cells change only in their client sets |
| Assignment.SortByLoad | simulator/simulator.go:243 | the sort yields a permutation ordered by the number of clients |
| Assignment.LeastClients | simulator/simulator.go:242-245 | fails iff the list is empty (`scl[0]`); otherwise the list is reordered by load and the head is returned |
| Assignment.LeastClientsIsLeast | simulator/simulator.go:242-245 | the returned cell is in the list and no listed cell has fewer clients |
| Assignment.ArgMaxPositive | simulator/simulator.go:220-225 | -1 iff no score is positive; otherwise the first position holding the largest score, which is positive |
| Assignment.JoinLeastGlobal | simulator/simulator.go:227 | fails iff there are no small cells; otherwise the client joins a least-loaded cell of the global list, which is reordered by load; no other client changes |
| Assignment.JoinLeastMember | simulator/simulator.go:229 | fails iff the chosen storage has no cells; otherwise the client joins its least-loaded member, whose member list is reordered by load |
| Assignment.SimilarityChoice | simulator/simulator.go:219-225 | the chosen storage is the positive arg-max of the client's scores, and its computation fails iff the scores do |
| Assignment.AssignWithSimilarity | simulator/simulator.go:218-231 | a failing score computation fails the call; with no positive score the client joins a least-loaded cell of the global list (failing iff it is empty); with a positive best score it joins a least-loaded member of that storage (failing iff the storage has none); on success nobody else moves |
| Assignment.AssignNewClient | simulator/simulator.go:233-240 | on success the new client has a cell, and nobody else moves |
| Assignment.AssignNewClientChoice | simulator/simulator.go:233-240 | the client goes to the least-loaded cell holding the file when there is one, else to the least-loaded cell overall |
| Assignment.ClientFileRow | simulator/clustering.go:70-81 | one count per listed file: the client's accumulated count at the current period, 0 when absent; a missing period fails |
| Assignment.AssignWithClusteringModel | simulator/simulator.go:210-216 | succeeds iff the row can be read, the model predicts, and the guess is a valid cell position; then the client joins that cell and nobody else moves |
| Assignment.Assign | simulator/simulator.go:202-208 | dispatches on the configuration to the clustering model or to similarity; either way the client ends with a cell |
| Clustering.PeriodClients | simulator/clustering.go:35-41 | a client is collected iff it appears in some period |
| Clustering.ClientList | simulator/clustering.go:35-47 | the client list holds each client of some period exactly once |
| Clustering.ClientListKnown | simulator/clustering.go:35-47 | every listed client is known to the world |
| Clustering.NetDemand | simulator/clustering.go:55-63 | fails iff an accumulated period read is out of range; an absent end count gives 0; otherwise the end count, corrected by the start count and the first period's own count when present |
| Clustering.NetDemandIsWindowDemand | simulator/clustering.go:55-63 | for a consistent accumulated table, the net demand equals the requests made in the window from the first to the last period |
| Clustering.AccumulatedWindow | simulator/clustering.go:58-61 | end minus start plus the first period's count is the window's demand |
| Clustering.DemandRow | simulator/clustering.go:53-64 | one net demand per listed file, failing iff some file's does |
| Clustering.DemandRows | simulator/clustering.go:52-65 | one row per client, failing iff some row does |
| Clustering.TrainingRows | simulator/clustering.go:49-68 | one row per listed client, each as long as the file list; no periods gives no rows |
| Clustering.TrainingRowsEntries | simulator/clustering.go:49-68 | the rows fail iff some entry's net demand does; entry (i, j) is client i's net demand for file j over the window |
| Clustering.CreateCells | simulator/clustering.go:20-27 | k fresh cells are appended and become the global list, in order, and nothing else changes |
| Clustering.AssignTraining | simulator/clustering.go:28-30 | fails iff some guess is not a valid cell position; otherwise each training client joins its guessed cell and others stay |
| Clustering.Clustering | simulator/clustering.go:12-33 | fails if the rows or the training fail; on success it returns the client list and the guesses, with the trained cells arranged |
| Clustering.ClusteringWithSimilarity | simulator/clustering.go:83-104 | fails on failed training or an invalid guess; on success the trained cells hold the clients their guesses name |
| Clustering.CreateAndAssign | simulator/clustering.go:20-30 | fails iff some guess is out of range; otherwise every training client is in the fresh cell it was guessed into |
| Clustering.TrainedCellsUnattached | simulator/clustering.go:20-27 | the cells that clustering creates belong to no cache storage |
| Clustering.ClusteringThenArrange | simulator/simulator.go:41-51 | after clustering, arranging the cells fails iff the grouping fails |
| Serving.DownloadRate | simulator/simulator.go:22-24 | with some bytes requested, the rate lies in [0, 1], is 0 iff nothing was downloaded and 1 iff nothing was served; no bytes gives NaN |
| Serving.RateBoundsAsProducts | simulator/simulator.go:22-24 | a rate bound is the same as a bound on the downloaded bytes relative to all bytes |
| Serving.PeriodListRate | simulator/simulator.go:26-33 | the list's rate is the rate of its pooled byte totals |
| Serving.TotalsNonNegative | simulator/simulator.go:27-31 | non-negative period counters give non-negative totals |
| Serving.PeriodListRateAtMost | simulator/simulator.go:26-33 | when no period's rate exceeds x, neither does the pooled rate |
| Serving.PeriodListRateAtLeast | simulator/simulator.go:26-33 | when no period's rate falls below y, neither does the pooled rate |
| Serving.Prefix | simulator/simulator.go:151 | `fl[:n]` fails iff n is outside 0..len; otherwise it keeps the first n files and a nil list stays nil |
| Serving.Place | simulator/simulator.go:168-175 | a client with a cell is left alone; otherwise it is recorded as new iff its accumulated table for the previous period is empty, in which case it is placed by the new-client assigner, and else by the configured assigner; placing fails iff that period is missing or the chosen assigner fails; afterwards the client has a cell and no one else moves |
| Serving.Account | simulator/simulator.go:177-184 | cached bytes count as served and the rest as downloaded, at the storage and at the period; nothing else changes |
| Serving.TrafficUpdate | simulator/simulator.go:181-182 | changing one storage changes the total traffic by that storage's change |
| Serving.Deliver | simulator/simulator.go:177-184 | fails iff the client's cell has no storage; otherwise the period's and the storages' served plus downloaded rise by the file's size |
| Serving.ServeRequest | simulator/simulator.go:163-185 | a skipped request changes nothing; otherwise only counters and the new-client list change, and the client ends with a cell |
| Serving.ServeRequestNoStorage | simulator/simulator.go:177 | a placed client whose cell has no storage makes the request fail |
| Serving.ServeRequestAccounting | simulator/simulator.go:177-184 | a request that is not skipped adds exactly the file's size to served plus downloaded, at the period and over all storages |
| Serving.ServeFrom | simulator/simulator.go:163-185 | the loop keeps the world's shape; new clients are only appended; every client whose request passed the filter ends with a cell |
| Serving.ServeFromStep | simulator/simulator.go:163-185 | the loop is one request step followed by the rest |
| Serving.ServeFromAccounting | simulator/simulator.go:163-185 | served plus downloaded grow by exactly the bytes of the requests the filter lets through, and neither period counter decreases |
| Serving.Serve | simulator/simulator.go:161-186 | the period becomes current and its requests are served in order |
| Serving.AssignAll | simulator/simulator.go:190-192 | every listed client ends with a cell, and no one else moves |
| Serving.EndPeriod | simulator/simulator.go:188-194 | only the period's rate changes, and it becomes the download rate of its counters; every new client ends with a cell |
| Serving.ServeAndClose | simulator/simulator.go:150-156 | serves and closes period pn and writes it back into the list |
| Serving.ServePeriodsFrom | simulator/simulator.go:148-159 | as written: the result keeps the list's length, and with period similarity the loop succeeds only when no period is left to serve |
| Serving.ServePeriods | simulator/simulator.go:148-159 | as written: with period similarity, every non-empty list fails |
| Serving.ServePeriodsGuarded | simulator/simulator.go:148-159 | with the last period closed without a filter: the list keeps its length, earlier periods are untouched, and each served period changes only its counters, new clients and rate, the rate being the download rate of its counters |
| Serving.ServePeriodsGuardedAgrees | simulator/simulator.go:152-156 | without period similarity, the guarded loop and the loop as written agree |
| Serving.LastPeriodOverrun | simulator/simulator.go:153 | a one-period list with similarity on fails as written and succeeds when guarded |
| Serving.SizeStorages | simulator/simulator.go:142-145 | every current storage gets the configured size and as much free space, and earlier storages are kept |
| Serving.PreProcess | simulator/simulator.go:137-146 | fails iff arranging cooperation fails; otherwise the world is the arranged one with every file resized and every current storage given the configured size and as much free space; earlier storages are kept |

## Left out

- Reading and writing files, printing, and `Simulate`'s loop over configurations: this is I/O, and `postProcess` only prints.
- The k-means library (`cluster.NewKMeans`, `Learn`, `Guesses`, `Predict`) and `base.Normalize`/`NormalizePoint`: they are outside the package. Training is a parameter that yields guesses or fails, and `Predict` is a parameter that yields a cell position or fails. The rows passed to them are the counts before normalization.
- Assignment.AssignWithClusteringModel: the `int(guess[0])` truncation of a `float64` guess is not modelled; the prediction is taken as an integer.
- The bodies of the similarity formulas (`cosine`, `exponential`): they are floating point and are left uninterpreted. `Similarity.PairSimilaritySymmetric` assumes a symmetric formula.
- `cacheStorage.cacheFile` and `cacheStorageList.smallCellsHasFile`: the cache-content policy is not part of this model. Both are parameters. The request count and last-request time written into the cached file are not modelled.
- `client.assignTo` is not part of this model. `State.AssignClient` keeps only the client–cell relation, not the aggregation of the client's demand into the cell.
- `getClientsSimilarity`: it writes into nil maps. `Clustering.ClusteringWithSimilarity` takes the trained guesses as a parameter instead of building that matrix.
- The `client` and `file` type definitions are not part of this model. Their `popularityPeriod` and `popularityAccumulated` are taken to be slices indexed by period, so a read outside them panics. The failure conditions of `Serving.Place`, `Assignment.ClientFileRow`, `Clustering.NetDemand`, `Files.PairCounts` and `PopularFiles.RankPeriod` rest on this.
- The `cacheStorage` type's definition is not part of this model. Its `popularFiles` is a map from period to file list that is taken as already allocated.
- Sort stability and the order among equal keys: Go leaves these unspecified, so contracts state only order and permutation.
- `arrangeCooperation` calls the cell-list `calSimilarity` with arguments that do not match its declaration. The model takes the compared table (per period or accumulated) and the period as an explicit `View` parameter, with no filter.
- `sc.assignTo`'s removal loop is modelled as written (`Transfer.RemovalLoop`); the rest of the model uses the operation as written. The cells that `clustering` creates belong to no storage (`Clustering.TrainedCellsUnattached`), and for such a cell the written and the corrected removal agree (`Removal.CellAssignToCorrectedAgrees`), so the arrangement after clustering never meets the defect (`Clustering.ClusteringThenArrange`). On the `IsTrained` path the cells come from `readClusteringResult`, which is not part of this model; if they were still attached, the defect listed under "## Findings" would apply.
- The order of `for k, v := range fp` in `sc.assignTo`: Go leaves map order unspecified. `Transfer.CellAssignTo` runs the loop over each period's keys in ascending order (`Transfer.AscendingOrder`). The `PeriodLoop*` lemmas hold for every order that lists each key of the period exactly once (`Transfer.OrdersKeys`).
- Transfer.CellAssignTo: its own contract states only well-formedness and shape. The failure condition, the effect and the demand tables are stated by the `CellAssignTo*` lemmas.
- Files.SortPopularities, Files.PopularityFileList and Files.RankFiles: their own contracts state lengths. Order, permutation and contents are stated by `SortPopularitiesSorts`, `PopularityFileListEntries` and `RankFilesRanked`.
- Popularity.Div: quotients are exact reals, and `float64` rounding (and the conversion of counts of 2^53 or more) is not modelled. Popularity.Normalize, Popularity.NormalizeIsDistribution and Serving.DownloadRate hold for the exact quotient only. With rounding, the shares need not add up to exactly 1: ten shares of 0.1 add up to 0.9999999999999999 in `float64`. No control flow of the core depends on these values: the similarity formulas are left uninterpreted, and the rate is only output.
- Integer width: the counters are Go `int`. The model uses unbounded integers, and 64-bit overflow of the byte counters is not modelled.

## Findings

| source | as written | input that shows it | evidently intended | confidence | as-written member | corrected member |
|---|---|---|---|---|---|---|
| simulator/simulator.go:153 | with `IsPeriodSimilarity`, `endPeriod` of every period reads `pl[pn+1]`, which is out of range on the last period | a one-period list with similarity switched on (no requests, no new clients, `FilesLimit` 0): the loop panics on `pl[1]` | close the last period without a filter, since there is no next period | not executed | Serving.ServePeriods, Serving.LastPeriodOverrun | Serving.ServePeriodsGuarded, Serving.ServePeriodsGuardedAgrees |
| simulator/simulator.go:287-293 | `range scl` fixes the length before the loop while the body deletes from `scl`, and the shortened `scl` is a local copy never written back | `sc.assignTo(cs)` where `sc`'s storage lists `[sc, other]`: after the deletion the loop reads `scl[1]` of a one-element slice and panics; with the list `[other, sc]` it succeeds and the storage still lists `sc` | delete `sc` from its previous storage's member list and keep the shortened list | not executed | Transfer.RemovalLoop, Removal.RemovalOverrun, Transfer.CellAssignToFailure | Removal.CellAssignToCorrected, Removal.CellAssignToCorrectedFailure, Removal.CellAssignToCorrectedEffect, Removal.CellAssignToCorrectedAgrees |

=== FILE: assignment.dfy ===
/** How a client chooses its small cell: `client.assign` and its two strategies
    (`assignWithSimilarity`, `assignWithClusteringModel`), the placement of a brand
    new client (`cacheStorageList.assignNewClient`), and the `leastClients` choice
    they share. */
module Assignment {
  import opened Results
  import opened Collections
  import opened Popularity
  import opened Files
  import opened State
  import opened Similarity

  // ---------------------------------------------------------------- leastClients

  /** `s` lists existing cells in order of non-decreasing client count. */
  ghost predicate ByLoad(w: World, s: seq<CellRef>) {
    forall i, j :: 0 <= i < j < |s| ==> Load(w, s[i]) <= Load(w, s[j])
  }

  function InsertByLoad(w: World, x: CellRef, s: seq<CellRef>): (r: seq<CellRef>)
    requires ByLoad(w, s)
    ensures ByLoad(w, r)
    ensures multiset(r) == multiset([x] + s)
    ensures |r| > 0 && (r[0] == x || (|s| > 0 && r[0] == s[0]))
  {
    if |s| == 0 || Load(w, x) <= Load(w, s[0]) then [x] + s
    else
      var rest := InsertByLoad(w, x, s[1..]);
      assert s == [s[0]] + s[1..];
      assert Load(w, s[0]) <= Load(w, rest[0]);
      [s[0]] + rest
  }

  /** Every cell of a permutation of existing cells exists. */
  lemma PermutationCellsExist(w: World, a: seq<CellRef>, b: seq<CellRef>)
    requires CellsExist(w, a) && multiset(a) == multiset(b)
    ensures CellsExist(w, b)
  {
    forall i | 0 <= i < |b| ensures b[i] < |w.cells| {
      assert b[i] in multiset(a);
    }
  }

  /** The `sort.Slice` call of `leastClients`, ordering by client count and modelled
      as an insertion sort; only the guarantees of `sort.Slice` are promised. */
  function SortByLoad(w: World, s: seq<CellRef>): (r: seq<CellRef>)
    ensures ByLoad(w, r)
    ensures multiset(r) == multiset(s)
  {
    if |s| == 0 then []
    else
      assert s == [s[0]] + s[1..];
      InsertByLoad(w, s[0], SortByLoad(w, s[1..]))
  }

  /** `smallCellList.leastClients`: the list sorted in place by client count, and its
      first cell; an empty list panics on that index.  The result pairs the reordered
      list with the chosen cell, so that callers can write the order back. */
  function LeastClients(w: World, scl: seq<CellRef>): (r: Result<(seq<CellRef>, CellRef)>)
    requires CellsExist(w, scl)
    ensures r.Failure? <==> |scl| == 0
    ensures r.Success? ==> multiset(r.value.0) == multiset(scl) && ByLoad(w, r.value.0) && CellsExist(w, r.value.0)
    ensures r.Success? ==> |r.value.0| > 0 && r.value.1 == r.value.0[0]
  {
    var sorted := SortByLoad(w, scl);
    assert |sorted| == |multiset(sorted)| == |scl|;
    PermutationCellsExist(w, scl, sorted);
    var first :- At(sorted, 0);
    Success((sorted, first))
  }

  /** `cell` is one of `scl` and no cell of `scl` has fewer clients. */
  ghost predicate LeastOf(w: World, scl: seq<CellRef>, cell: CellRef) {
    && cell in scl
    && cell < |w.cells|
    && forall i :: 0 <= i < |scl| ==> Load(w, cell) <= Load(w, scl[i])
  }

  /** The cell `leastClients` returns has the fewest clients of the list. */
  lemma LeastClientsIsLeast(w: World, scl: seq<CellRef>)
    requires CellsExist(w, scl) && |scl| > 0
    ensures LeastClients(w, scl).Success?
    ensures LeastOf(w, scl, LeastClients(w, scl).value.1)
  {
    var pick := LeastClients(w, scl).value;
    var sorted := pick.0;
    assert pick.1 in multiset(sorted);
    forall i | 0 <= i < |scl| ensures Load(w, pick.1) <= Load(w, scl[i]) {
      assert scl[i] in multiset(scl);
      var j :| 0 <= j < |sorted| && sorted[j] == scl[i];
      if j > 0 {
        assert Load(w, sorted[0]) <= Load(w, sorted[j]);
      }
    }
  }

  /** The global order replaced by a reordering of itself. */
  function WithOrder(w: World, order: seq<CellRef>): (w': World)
    requires Valid(w) && multiset(order) == multiset(w.smallCells)
    ensures Valid(w') && SameShape(w, w')
    ensures w'.smallCells == order && w'.cells == w.cells && w'.storages == w.storages && w'.clients == w.clients
  {
    PermutationNoDup(w.smallCells, order);
    assert forall i :: 0 <= i < |order| ==> order[i] in multiset(w.smallCells);
    w.(smallCells := order)
  }

  /** Storage `x`'s member list replaced by existing cells. */
  function WithMembers(w: World, x: StorageRef, members: seq<CellRef>): (w': World)
    requires Valid(w) && x < |w.storages| && CellsExist(w, members)
    ensures Valid(w') && SameShape(w, w')
    ensures w'.storages[x].smallCells == members
    ensures w'.cells == w.cells && w'.smallCells == w.smallCells && w'.clients == w.clients
    ensures forall y :: 0 <= y < |w.storages| && y != x ==> w'.storages[y] == w.storages[y]
    ensures w'.storages[x] == w.storages[x].(smallCells := members)
  {
    w.(storages := w.storages[x := w.storages[x].(smallCells := members)])
  }

  // ---------------------------------------------------------------- assignWithSimilarity

  /** The scan of `assignWithSimilarity` from position `i` on, with best index `mi` and
      best score `ms` so far: a score replaces the best only when strictly greater. */
  function ScanBest(sim: seq<real>, i: nat, mi: int, ms: real): (r: int)
    requires i <= |sim| && -1 <= mi < i
    requires ms == (if mi == -1 then 0.0 else sim[mi])
    requires forall j :: 0 <= j < i ==> sim[j] <= ms
    requires mi >= 0 ==> sim[mi] > 0.0 && forall j :: 0 <= j < mi ==> sim[j] < sim[mi]
    ensures -1 <= r < |sim|
    ensures r == -1 <==> forall j :: 0 <= j < |sim| ==> sim[j] <= 0.0
    ensures r >= 0 ==> sim[r] > 0.0 && forall j :: 0 <= j < |sim| ==> sim[j] <= sim[r]
    ensures r >= 0 ==> forall j :: 0 <= j < r ==> sim[j] < sim[r]
    decreases |sim| - i
  {
    if i == |sim| then mi
    else if sim[i] > ms then ScanBest(sim, i + 1, i, sim[i])
    else ScanBest(sim, i + 1, mi, ms)
  }

  /** The storage `assignWithSimilarity` picks: the first position holding the
      greatest score, or -1 when no score is positive. */
  function ArgMaxPositive(sim: seq<real>): (mi: int)
    ensures -1 <= mi < |sim|
    ensures mi == -1 <==> forall j :: 0 <= j < |sim| ==> sim[j] <= 0.0
    ensures mi >= 0 ==> sim[mi] > 0.0 && forall j :: 0 <= j < |sim| ==> sim[j] <= sim[mi]
    ensures mi >= 0 ==> forall j :: 0 <= j < mi ==> sim[j] < sim[mi]
  {
    ScanBest(sim, 0, -1, 0.0)
  }

  /** The client joins the least-loaded cell of the global list, which `leastClients`
      leaves sorted by client count; an empty global list panics. */
  function JoinLeastGlobal(w: World, c: ClientId): (r: Result<World>)
    requires Valid(w) && c in w.clients
    ensures r.Failure? <==> |w.smallCells| == 0
    ensures r.Success? ==> Valid(r.value) && SameShape(w, r.value)
    ensures r.Success? ==> StoragesKeep(w, r.value)
    ensures r.Success? ==> r.value.clients[c].smallCell.Some? && LeastOf(w, w.smallCells, r.value.clients[c].smallCell.value)
    ensures r.Success? ==> forall c' :: c' in w.clients && c' != c ==> r.value.clients[c'] == w.clients[c']
    ensures r.Success? ==> multiset(r.value.smallCells) == multiset(w.smallCells) && ByLoad(w, r.value.smallCells)
    ensures r.Success? ==> r.value.storages == w.storages
  {
    if |w.smallCells| == 0 then Failure(IndexOutOfRange)
    else
      LeastClientsIsLeast(w, w.smallCells);
      var pick := LeastClients(w, w.smallCells).value;
      Success(AssignClient(WithOrder(w, pick.0), c, pick.1))
  }

  /** The client joins the least-loaded member of storage `x`, whose member list
      `leastClients` leaves sorted by client count; a storage without members panics. */
  function JoinLeastMember(w: World, c: ClientId, x: StorageRef): (r: Result<World>)
    requires Valid(w) && c in w.clients && x < |w.storages|
    ensures r.Failure? <==> |w.storages[x].smallCells| == 0
    ensures r.Success? ==> Valid(r.value) && SameShape(w, r.value)
    ensures r.Success? ==> StoragesKeep(w, r.value)
    ensures r.Success? ==> r.value.clients[c].smallCell.Some? && LeastOf(w, w.storages[x].smallCells, r.value.clients[c].smallCell.value)
    ensures r.Success? ==> forall c' :: c' in w.clients && c' != c ==> r.value.clients[c'] == w.clients[c']
    ensures r.Success? ==> multiset(r.value.storages[x].smallCells) == multiset(w.storages[x].smallCells) && ByLoad(w, r.value.storages[x].smallCells)
    ensures r.Success? ==> r.value.smallCells == w.smallCells
  {
    var ms := w.storages[x].smallCells;
    if |ms| == 0 then Failure(IndexOutOfRange)
    else
      LeastClientsIsLeast(w, ms);
      var pick := LeastClients(w, ms).value;
      Success(AssignClient(WithMembers(w, x, pick.0), c, pick.1))
  }

  /** The storage position `assignWithSimilarity` settles on: the first best positive
      score among the client's scores, or -1 when no score is positive. */
  function SimilarityChoice(w: World, c: ClientId, filter: FileList, formula: Formula): (r: Result<int>)
    requires c in w.clients && w.activeFrom <= |w.storages|
    ensures r.Failure? <==> ClientScores(w, c, filter, formula).Failure?
    ensures r.Success? ==> -1 <= r.value < |w.storages| - w.activeFrom
    ensures r.Success? ==> r.value == ArgMaxPositive(ClientScores(w, c, filter, formula).value)
  {
    var sim :- ClientScores(w, c, filter, formula);
    Success(ArgMaxPositive(sim))
  }

  /** `client.assignWithSimilarity`: score the client against every cache storage;
      with no positive score the client joins the least-loaded cell of the global
      list, otherwise the least-loaded member of the first best-scoring storage. */
  function AssignWithSimilarity(w: World, c: ClientId, filter: FileList, formula: Formula): (r: Result<World>)
    requires Valid(w) && c in w.clients
    ensures r.Success? ==> Valid(r.value) && SameShape(w, r.value)
    ensures r.Success? ==> StoragesKeep(w, r.value)
    ensures r.Success? ==> r.value.clients[c].smallCell.Some?
    ensures r.Success? ==> forall c' :: c' in w.clients && c' != c ==> r.value.clients[c'] == w.clients[c']
    ensures var choice := SimilarityChoice(w, c, filter, formula);
      && (choice.Failure? ==> r.Failure?)
      && (choice == Success(-1) ==>
        && (r.Failure? <==> |w.smallCells| == 0)
        && (r.Success? ==> LeastOf(w, w.smallCells, r.value.clients[c].smallCell.value)))
      && (choice.Success? && choice.value >= 0 ==>
        var x := w.activeFrom + choice.value;
        && x < |w.storages|
        && (r.Failure? <==> |w.storages[x].smallCells| == 0)
        && (r.Success? ==> LeastOf(w, w.storages[x].smallCells, r.value.clients[c].smallCell.value)))
  {
    var choice := SimilarityChoice(w, c, filter, formula);
    if choice.Failure? then Failure(choice.error)
    else if choice.value == -1 then JoinLeastGlobal(w, c)
    else
      var x := w.activeFrom + choice.value;
      var joined := JoinLeastMember(w, c, x);
      assert joined.Success? ==> LeastOf(w, w.storages[x].smallCells, joined.value.clients[c].smallCell.value);
      joined
  }

  // ---------------------------------------------------------------- assignNewClient

  /** `cacheStorageList.assignNewClient`: a client with no demand history joins the
      least-loaded cell among those whose storage holds the requested file, or, when
      none does, the least-loaded cell of the global list (which is reordered).  The
      holder list is a fresh slice, so its reordering is not kept. */
  function AssignNewClient(w: World, env: Environment, c: ClientId, f: FileId, ref: RequestRef): (r: Result<World>)
    requires Valid(w) && c in w.clients && HoldersValid(env, |w.cells|)
    ensures r.Success? ==> Valid(r.value) && SameShape(w, r.value)
    ensures r.Success? ==> StoragesKeep(w, r.value)
    ensures r.Success? ==> r.value.clients[c].smallCell.Some?
    ensures r.Success? ==> forall c' :: c' in w.clients && c' != c ==> r.value.clients[c'] == w.clients[c']
  {
    var scl := env.smallCellsHasFile(f, ref);
    if |scl| != 0 then
      var pick := LeastClients(w, scl).value;
      Success(AssignClient(w, c, pick.1))
    else
      JoinLeastGlobal(w, c)
  }

  /** A new client joins a least-loaded holder of the file when there is one, and a
      least-loaded cell of the global list otherwise; it fails only when there is no
      holder and no small cell at all. */
  lemma AssignNewClientChoice(w: World, env: Environment, c: ClientId, f: FileId, ref: RequestRef)
    requires Valid(w) && c in w.clients && HoldersValid(env, |w.cells|)
    ensures var scl := env.smallCellsHasFile(f, ref);
      && (AssignNewClient(w, env, c, f, ref).Failure? <==> |scl| == 0 && |w.smallCells| == 0)
      && (|scl| > 0 ==>
        var r := AssignNewClient(w, env, c, f, ref).value;
        LeastOf(w, scl, r.clients[c].smallCell.value) && r.smallCells == w.smallCells)
      && (|scl| == 0 && |w.smallCells| > 0 ==>
        var r := AssignNewClient(w, env, c, f, ref).value;
        LeastOf(w, w.smallCells, r.clients[c].smallCell.value)
        && multiset(r.smallCells) == multiset(w.smallCells) && ByLoad(w, r.smallCells))
  {
    var scl := env.smallCellsHasFile(f, ref);
    if |scl| > 0 {
      LeastClientsIsLeast(w, scl);
    } else if |w.smallCells| > 0 {
      LeastClientsIsLeast(w, w.smallCells);
    }
  }

  // ---------------------------------------------------------------- assignWithClusteringModel

  /** `client.getFilePopularity` before normalisation: the client's accumulated
      request count of each file of `filesList` in the current period, zero for a file
      it never requested.  The period's table is read only when there is a file. */
  function ClientFileRow(w: World, c: ClientId): (r: Result<seq<int>>)
    requires c in w.clients
    ensures r.Failure? <==> |w.filesList| > 0 && !(0 <= w.periodNo < |w.clients[c].popularityAccumulated|)
    ensures r.Success? ==> |r.value| == |w.filesList|
    ensures r.Success? ==> forall i :: 0 <= i < |r.value| ==>
      && (w.filesList[i] !in w.clients[c].popularityAccumulated[w.periodNo] ==> r.value[i] == 0)
      && (w.filesList[i] in w.clients[c].popularityAccumulated[w.periodNo] ==> r.value[i] == w.clients[c].popularityAccumulated[w.periodNo][w.filesList[i]])
  {
    if |w.filesList| == 0 then Success([])
    else
      var m :- At(w.clients[c].popularityAccumulated, w.periodNo);
      Success(seq(|w.filesList|, i requires 0 <= i < |w.filesList| => Get(m, w.filesList[i])))
  }

  /** `client.assignWithClusteringModel`: the trained model classifies the client's
      demand row and the client joins the global cell at the predicted position; a
      prediction error and a position outside the global list both panic. */
  function AssignWithClusteringModel(w: World, env: Environment, c: ClientId): (r: Result<World>)
    requires Valid(w) && c in w.clients
    ensures r.Success? ==> Valid(r.value) && SameShape(w, r.value)
    ensures r.Success? ==> StoragesKeep(w, r.value)
    ensures r.Success? ==> forall c' :: c' in w.clients && c' != c ==> r.value.clients[c'] == w.clients[c']
    ensures r.Success? <==>
      && ClientFileRow(w, c).Success?
      && env.predict(ClientFileRow(w, c).value).Some?
      && 0 <= env.predict(ClientFileRow(w, c).value).value < |w.smallCells|
    ensures r.Success? ==>
      r.value.clients[c].smallCell == Some(w.smallCells[env.predict(ClientFileRow(w, c).value).value])
    ensures r.Success? ==> r.value.smallCells == w.smallCells && r.value.storages == w.storages
  {
    var row :- ClientFileRow(w, c);
    var guess := env.predict(row);
    if guess.None? then Failure(PredictionFailed)
    else
      var cell :- At(w.smallCells, guess.value);
      Success(AssignClient(w, c, cell))
  }

  // ---------------------------------------------------------------- assign

  /** `client.assign`: the configured strategy. */
  function Assign(w: World, env: Environment, config: Config, c: ClientId, filter: FileList): (r: Result<World>)
    requires Valid(w) && c in w.clients
    ensures r.Success? ==> Valid(r.value) && SameShape(w, r.value)
    ensures r.Success? ==> StoragesKeep(w, r.value)
    ensures r.Success? ==> r.value.clients[c].smallCell.Some?
    ensures r.Success? ==> forall c' :: c' in w.clients && c' != c ==> r.value.clients[c'] == w.clients[c']
    ensures config.isAssignClustering ==> r == AssignWithClusteringModel(w, env, c)
    ensures !config.isAssignClustering ==> r == AssignWithSimilarity(w, c, filter, config.similarityFormula)
  {
    if config.isAssignClustering then AssignWithClusteringModel(w, env, c)
    else AssignWithSimilarity(w, c, filter, config.similarityFormula)
  }
}

=== FILE: clustering.dfy ===
/** Training-time clustering (`clustering`, `clusteringWithSimilarity`): the training
    clients and their net-demand rows, and the small cells created from the clustering
    model's guesses.  The k-means model itself is a parameter: `train` stands for
    `NewKMeans` + `Learn` + `Guesses`, returning `None` when learning fails. */
module Clustering {
  import opened Results
  import opened Collections
  import opened Popularity
  import opened Files
  import opened State
  import Cooperation

  // ---------------------------------------------------------------- getClientList

  /** Every client of some period of `pl`. */
  function PeriodClients(pl: seq<Period>): (s: set<ClientId>)
    ensures forall c :: c in s <==> exists p :: 0 <= p < |pl| && c in pl[p].clients
  {
    if |pl| == 0 then {}
    else
      var rest := PeriodClients(pl[1..]);
      assert forall p :: 1 <= p < |pl| ==> pl[1..][p - 1] == pl[p];
      pl[0].clients + rest
  }

  /** `periodList.getClientList`: the union of the periods' client maps, each client
      once.  Go's map iteration order is unspecified; the model lists ids ascending. */
  function ClientList(pl: seq<Period>): (cl: seq<ClientId>)
    ensures NoDup(cl)
    ensures forall c :: c in cl <==> exists p :: 0 <= p < |pl| && c in pl[p].clients
  {
    var cl := SortedKeys(PeriodClients(pl));
    IncreasingNoDup(cl);
    cl
  }

  /** Every client a period names is a registered client (the periods hold pointers). */
  ghost predicate PeriodClientsKnown(w: World, pl: seq<Period>) {
    forall p, c :: 0 <= p < |pl| && c in pl[p].clients ==> c in w.clients
  }

  lemma ClientListKnown(w: World, pl: seq<Period>)
    requires PeriodClientsKnown(w, pl)
    ensures forall i :: 0 <= i < |ClientList(pl)| ==> ClientList(pl)[i] in w.clients
  {
    var cl := ClientList(pl);
    forall i | 0 <= i < |cl| ensures cl[i] in w.clients {
      assert cl[i] in cl;
      var p :| 0 <= p < |pl| && cl[i] in pl[p].clients;
    }
  }

  // ---------------------------------------------------------------- net demand

  /** The training value of file `f` for client `c` over the periods `startId`..`endId`
      (the integer part of `getClientFilePopularity`): zero when the end-period
      accumulated map lacks the file; the end count when the start map lacks it; and
      otherwise the end count less the start count plus the start period's own count.
      Reading the end table, and the start tables when they are consulted, panics
      outside their range. */
  function NetDemand(c: Client, startId: int, endId: int, f: FileId): (r: Result<int>)
    ensures r.Failure? <==>
      || !(0 <= endId < |c.popularityAccumulated|)
      || (f in c.popularityAccumulated[endId] && !(0 <= startId < |c.popularityAccumulated|))
      || (f in c.popularityAccumulated[endId] && f in c.popularityAccumulated[startId] && !(0 <= startId < |c.popularityPeriod|))
    ensures r.Success? && f !in c.popularityAccumulated[endId] ==> r.value == 0
    ensures r.Success? && f in c.popularityAccumulated[endId] && f !in c.popularityAccumulated[startId] ==>
      r.value == c.popularityAccumulated[endId][f]
    ensures r.Success? && f in c.popularityAccumulated[endId] && f in c.popularityAccumulated[startId] ==>
      r.value == c.popularityAccumulated[endId][f] - c.popularityAccumulated[startId][f] + Get(c.popularityPeriod[startId], f)
  {
    var popEnd :- At(c.popularityAccumulated, endId);
    if f !in popEnd then Success(0)
    else
      var popStart :- At(c.popularityAccumulated, startId);
      if f !in popStart then Success(popEnd[f])
      else
        var period :- At(c.popularityPeriod, startId);
        Success(popEnd[f] - popStart[f] + Get(period, f))
  }

  /** `acc` is the running total of `per`: period `p`'s accumulated count of every
      file is the previous period's plus period `p`'s own. */
  ghost predicate Accumulates(acc: Table, per: Table) {
    && |acc| == |per|
    && forall p, f :: 0 <= p < |acc| ==> Get(acc[p], f) == (if p == 0 then 0 else Get(acc[p - 1], f)) + Get(per[p], f)
  }

  /** No per-period count is negative. */
  ghost predicate NonNegativeCounts(per: Table) {
    forall p, f :: 0 <= p < |per| && f in per[p] ==> per[p][f] >= 0
  }

  /** The requests for `f` in periods `lo`..`hi` inclusive. */
  function WindowDemand(per: Table, f: FileId, lo: nat, hi: int): int
    requires hi < |per|
    decreases hi - lo
  {
    if hi < lo then 0 else WindowDemand(per, f, lo, hi - 1) + Get(per[hi], f)
  }

  lemma {:induction false} WindowDemandNonNegative(per: Table, f: FileId, lo: nat, hi: int)
    requires hi < |per| && NonNegativeCounts(per)
    ensures WindowDemand(per, f, lo, hi) >= 0
    decreases hi - lo
  {
    if hi >= lo {
      WindowDemandNonNegative(per, f, lo, hi - 1);
    }
  }

  lemma {:induction false} AccumulatedNonNegative(acc: Table, per: Table, p: nat, f: FileId)
    requires Accumulates(acc, per) && NonNegativeCounts(per) && p < |acc|
    ensures Get(acc[p], f) >= 0
  {
    if p > 0 {
      AccumulatedNonNegative(acc, per, p - 1, f);
    }
    assert Get(acc[p], f) == (if p == 0 then 0 else Get(acc[p - 1], f)) + Get(per[p], f);
  }

  /** The accumulated count at `hi`, less the count accumulated before `lo`, is the
      demand of the window `lo`..`hi`. */
  lemma {:induction false} AccumulatedWindow(acc: Table, per: Table, f: FileId, lo: nat, hi: nat)
    requires Accumulates(acc, per) && lo <= hi < |acc|
    ensures Get(acc[hi], f) - Get(acc[lo], f) + Get(per[lo], f) == WindowDemand(per, f, lo, hi)
    decreases hi - lo
  {
    assert Get(acc[hi], f) == (if hi == 0 then 0 else Get(acc[hi - 1], f)) + Get(per[hi], f);
    if hi > lo {
      AccumulatedWindow(acc, per, f, lo, hi - 1);
    } else {
      assert WindowDemand(per, f, lo, hi - 1) == 0;
    }
  }

  /** When a client's accumulated table is the running total of its non-negative
      per-period table, the net demand of a file is exactly the number of requests for
      it inside the training window. */
  lemma NetDemandIsWindowDemand(c: Client, startId: nat, endId: nat, f: FileId)
    requires Accumulates(c.popularityAccumulated, c.popularityPeriod)
    requires NonNegativeCounts(c.popularityPeriod)
    requires startId <= endId < |c.popularityAccumulated|
    ensures NetDemand(c, startId, endId, f) == Success(WindowDemand(c.popularityPeriod, f, startId, endId))
  {
    var acc, per := c.popularityAccumulated, c.popularityPeriod;
    AccumulatedWindow(acc, per, f, startId, endId);
    WindowDemandNonNegative(per, f, startId, endId);
    assert Get(acc[startId], f) == (if startId == 0 then 0 else Get(acc[startId - 1], f)) + Get(per[startId], f);
    if startId > 0 {
      AccumulatedNonNegative(acc, per, startId - 1, f);
    }
    if f in per[startId] {
      assert per[startId][f] >= 0;
    }
  }

  // ---------------------------------------------------------------- training rows

  /** One training row: the net demand of each file of `files`, in order. */
  function DemandRow(c: Client, startId: int, endId: int, files: seq<FileId>): (r: Result<seq<int>>)
    ensures r.Success? <==> forall j :: 0 <= j < |files| ==> NetDemand(c, startId, endId, files[j]).Success?
    ensures r.Success? ==> |r.value| == |files|
    ensures r.Success? ==> forall j :: 0 <= j < |files| ==> r.value[j] == NetDemand(c, startId, endId, files[j]).value
  {
    if |files| == 0 then Success([])
    else
      var v :- NetDemand(c, startId, endId, files[0]);
      var rest :- DemandRow(c, startId, endId, files[1..]);
      assert forall j :: 1 <= j < |files| ==> files[1..][j - 1] == files[j];
      Success([v] + rest)
  }

  /** The training rows of the clients `cl`, in order. */
  function DemandRows(w: World, cl: seq<ClientId>, startId: int, endId: int): (r: Result<seq<seq<int>>>)
    requires forall i :: 0 <= i < |cl| ==> cl[i] in w.clients
    ensures r.Success? <==> forall i :: 0 <= i < |cl| ==> DemandRow(w.clients[cl[i]], startId, endId, w.filesList).Success?
    ensures r.Success? ==> |r.value| == |cl|
    ensures r.Success? ==> forall i :: 0 <= i < |cl| ==> r.value[i] == DemandRow(w.clients[cl[i]], startId, endId, w.filesList).value
  {
    if |cl| == 0 then Success([])
    else
      var row :- DemandRow(w.clients[cl[0]], startId, endId, w.filesList);
      var rest :- DemandRows(w, cl[1..], startId, endId);
      assert forall i :: 1 <= i < |cl| ==> cl[1..][i - 1] == cl[i];
      Success([row] + rest)
  }

  /** `periodList.getClientFilePopularity` before normalisation: one row per training
      client, one column per file of `filesList`, each the client's net demand between
      the first and the last period of `pl`. */
  function TrainingRows(w: World, pl: seq<Period>): (r: Result<seq<seq<int>>>)
    requires PeriodClientsKnown(w, pl)
    ensures r.Success? ==> |r.value| == |ClientList(pl)|
    ensures r.Success? ==> forall i :: 0 <= i < |r.value| ==> |r.value[i]| == |w.filesList|
    ensures |pl| == 0 ==> r == Success([])
  {
    var cl := ClientList(pl);
    ClientListKnown(w, pl);
    if |pl| == 0 then Success([])
    else
      DemandRows(w, cl, pl[0].id, pl[|pl| - 1].id)
  }

  /** Entry (i, j) of the training rows is training client i's net demand for file j;
      the rows exist exactly when every such net demand can be read. */
  lemma TrainingRowsEntries(w: World, pl: seq<Period>)
    requires PeriodClientsKnown(w, pl) && |pl| > 0
    ensures forall i :: 0 <= i < |ClientList(pl)| ==> ClientList(pl)[i] in w.clients
    ensures TrainingRows(w, pl).Success? <==> forall i, j :: 0 <= i < |ClientList(pl)| && 0 <= j < |w.filesList| ==>
      NetDemand(w.clients[ClientList(pl)[i]], pl[0].id, pl[|pl| - 1].id, w.filesList[j]).Success?
    ensures TrainingRows(w, pl).Success? ==> forall i, j :: 0 <= i < |ClientList(pl)| && 0 <= j < |w.filesList| ==>
      TrainingRows(w, pl).value[i][j] == NetDemand(w.clients[ClientList(pl)[i]], pl[0].id, pl[|pl| - 1].id, w.filesList[j]).value
  {
    ClientListKnown(w, pl);
    var cl := ClientList(pl);
    var s, e := pl[0].id, pl[|pl| - 1].id;
    assert TrainingRows(w, pl) == DemandRows(w, cl, s, e);
  }

  // ---------------------------------------------------------------- cell creation

  /** A small cell as `clustering` creates it: position `i` as its id, no clients,
      no period table, one empty accumulated table, and no cache storage. */
  function NewCell(i: nat): SmallCell {
    SmallCell(i, {}, [], [map[]], None)
  }

  /** The new global cell list of `clustering`: `k` fresh cells, the cell at position
      `i` with id `i`. */
  function CreateCells(w: World, k: nat): (r: World)
    requires Valid(w)
    ensures Valid(r)
    ensures |r.cells| == |w.cells| + k && r.cells[..|w.cells|] == w.cells
    ensures |r.smallCells| == k
    ensures forall i :: 0 <= i < k ==> r.smallCells[i] == |w.cells| + i && r.cells[r.smallCells[i]] == NewCell(i)
    ensures r.storages == w.storages && r.activeFrom == w.activeFrom && r.clients == w.clients
    ensures r.files == w.files && r.filesList == w.filesList && r.periodNo == w.periodNo
  {
    var n := |w.cells|;
    var r := w.(cells := w.cells + seq(k, i requires 0 <= i < k => NewCell(i)),
                smallCells := seq(k, i requires 0 <= i < k => n + i));
    assert Increasing(r.smallCells);
    IncreasingNoDup(r.smallCells);
    r
  }

  /** Guess `j` names a position of the global cell list. */
  predicate GuessOk(guesses: seq<int>, j: nat, n: nat) {
    j < |guesses| && 0 <= guesses[j] < n
  }

  /** The loop of `clustering` from training client `i` on: each client joins the
      global cell its guess names; a missing guess or a position outside the list
      panics. */
  function AssignTraining(w: World, cl: seq<ClientId>, guesses: seq<int>, i: nat): (r: Result<World>)
    requires Valid(w) && i <= |cl| && NoDup(cl)
    requires forall j :: 0 <= j < |cl| ==> cl[j] in w.clients
    ensures r.Failure? <==> exists j :: i <= j < |cl| && !GuessOk(guesses, j, |w.smallCells|)
    ensures r.Success? ==> Valid(r.value) && SameShape(w, r.value)
    ensures r.Success? ==> r.value.smallCells == w.smallCells && r.value.storages == w.storages
    ensures r.Success? ==> forall j :: i <= j < |cl| ==>
      GuessOk(guesses, j, |w.smallCells|) && r.value.clients[cl[j]].smallCell == Some(w.smallCells[guesses[j]])
    ensures r.Success? ==> forall c :: c in w.clients && c !in cl[i..] ==> r.value.clients[c] == w.clients[c]
    ensures r.Success? ==> forall x :: 0 <= x < |w.cells| ==> r.value.cells[x] == w.cells[x].(clients := r.value.cells[x].clients)
    decreases |cl| - i
  {
    if i == |cl| then Success(w)
    else if !GuessOk(guesses, i, |w.smallCells|) then Failure(IndexOutOfRange)
    else
      var cell := w.smallCells[guesses[i]];
      var w1 := AssignClient(w, cl[i], cell);
      var r := AssignTraining(w1, cl, guesses, i + 1);
      assert cl[i] !in cl[i + 1..];
      assert forall c :: c !in cl[i..] ==> c != cl[i] && c !in cl[i + 1..];
      r
  }

  /** `clustering`: train on the clients' net-demand rows, replace the global cell
      list by one fresh cell per centroid, and put training client `i` into the cell at
      position `guesses[i]`.  The result holds the new state, the training clients and
      the guesses. */
  function Clustering(w: World, pl: seq<Period>, k: nat, train: seq<seq<int>> -> Option<seq<int>>): (r: Result<(World, seq<ClientId>, seq<int>)>)
    requires Valid(w) && PeriodClientsKnown(w, pl)
    ensures TrainingRows(w, pl).Failure? ==> r.Failure?
    ensures TrainingRows(w, pl).Success? && train(TrainingRows(w, pl).value).None? ==> r == Failure(LearnFailed)
    ensures TrainingRows(w, pl).Success? && train(TrainingRows(w, pl).value).Some? ==>
      var guesses := train(TrainingRows(w, pl).value).value;
      r.Failure? <==> exists j :: 0 <= j < |ClientList(pl)| && !GuessOk(guesses, j, k)
    ensures r.Success? ==> r.value.1 == ClientList(pl) && Some(r.value.2) == train(TrainingRows(w, pl).value)
    ensures r.Success? ==> TrainedCells(w, k, r.value.0, r.value.1, r.value.2)
  {
    var rows :- TrainingRows(w, pl);
    var guesses := train(rows);
    if guesses.None? then Failure(LearnFailed)
    else
      var cl := ClientList(pl);
      ClientListKnown(w, pl);
      var w2 :- CreateAndAssign(w, k, cl, guesses.value);
      Success((w2, cl, guesses.value))
  }

  /** `clusteringWithSimilarity` from the guesses on: the same cell creation and
      assignment as `clustering`.  Its training matrix is not part of this model, so the
      outcome of training is a parameter. */
  function ClusteringWithSimilarity(w: World, pl: seq<Period>, k: nat, trained: Option<seq<int>>): (r: Result<(World, seq<ClientId>, seq<int>)>)
    requires Valid(w) && PeriodClientsKnown(w, pl)
    ensures trained.None? ==> r == Failure(LearnFailed)
    ensures trained.Some? ==> (r.Failure? <==> exists j :: 0 <= j < |ClientList(pl)| && !GuessOk(trained.value, j, k))
    ensures r.Success? ==> r.value.1 == ClientList(pl) && Some(r.value.2) == trained
    ensures r.Success? ==> TrainedCells(w, k, r.value.0, r.value.1, r.value.2)
  {
    if trained.None? then Failure(LearnFailed)
    else
      var cl := ClientList(pl);
      ClientListKnown(w, pl);
      var w2 :- CreateAndAssign(w, k, cl, trained.value);
      Success((w2, cl, trained.value))
  }

  /** After cell creation and assignment from `w`: `k` fresh cells form the global
      list, the cell at position `i` has id `i`, no storage and the creation tables, and
      each training client sits in the cell its guess names. */
  ghost predicate TrainedCells(w: World, k: nat, r: World, cl: seq<ClientId>, guesses: seq<int>) {
    && Valid(r)
    && |r.cells| == |w.cells| + k
    && |r.smallCells| == k
    && (forall i :: 0 <= i < k ==> r.smallCells[i] == |w.cells| + i && r.cells[r.smallCells[i]] == NewCell(i).(clients := r.cells[r.smallCells[i]].clients))
    && (forall j :: 0 <= j < |cl| ==> GuessOk(guesses, j, k) && cl[j] in r.clients && r.clients[cl[j]].smallCell == Some(|w.cells| + guesses[j]))
    && r.storages == w.storages && r.activeFrom == w.activeFrom && r.clients.Keys == w.clients.Keys
  }

  /** The cells `clustering` leaves are fresh: none belongs to a cache storage, so
      the `arrangeCooperation` that follows never meets a previous owner. */
  lemma TrainedCellsUnattached(w: World, k: nat, r: World, cl: seq<ClientId>, guesses: seq<int>)
    requires TrainedCells(w, k, r, cl, guesses)
    ensures Unattached(r)
  {
    forall i | 0 <= i < |r.smallCells| && r.smallCells[i] < |r.cells| ensures r.cells[r.smallCells[i]].cacheStorage.None? {
      assert r.cells[r.smallCells[i]] == NewCell(i).(clients := r.cells[r.smallCells[i]].clients);
    }
  }

  /** After `clustering`, the `arrangeCooperation` of `preProcess` panics only when
      the grouping does: no cell meets the removal loop of `assignTo`. */
  lemma ClusteringThenArrange(w: World, pl: seq<Period>, k: nat, train: seq<seq<int>> -> Option<seq<int>>,
                              threshold: real, formula: Formula, view: View)
    requires Valid(w) && PeriodClientsKnown(w, pl)
    requires Clustering(w, pl, k, train).Success?
    ensures var w1 := Clustering(w, pl, k, train).value.0;
      Cooperation.ArrangeCooperation(w1, threshold, formula, view).Success? <==> Cooperation.Groups(w1, threshold, formula, view).Success?
  {
    var r := Clustering(w, pl, k, train).value;
    TrainedCellsUnattached(w, k, r.0, r.1, r.2);
    Cooperation.ArrangeCooperationSucceeds(r.0, threshold, formula, view);
  }

  /** The tail both clustering variants share; it fails exactly when some training
      client has no usable guess. */
  function CreateAndAssign(w: World, k: nat, cl: seq<ClientId>, guesses: seq<int>): (r: Result<World>)
    requires Valid(w) && NoDup(cl)
    requires forall j :: 0 <= j < |cl| ==> cl[j] in w.clients
    ensures r.Failure? <==> exists j :: 0 <= j < |cl| && !GuessOk(guesses, j, k)
    ensures r.Success? ==> TrainedCells(w, k, r.value, cl, guesses)
  {
    var w1 := CreateCells(w, k);
    var r := AssignTraining(w1, cl, guesses, 0);
    if r.Success? then
      TrainedCellsHold(w, k, w1, r.value, cl, guesses);
      r
    else r
  }

  lemma TrainedCellsHold(w: World, k: nat, w1: World, r: World, cl: seq<ClientId>, guesses: seq<int>)
    requires Valid(w) && w1 == CreateCells(w, k)
    requires forall j :: 0 <= j < |cl| ==> cl[j] in w.clients
    requires Valid(r) && SameShape(w1, r) && r.smallCells == w1.smallCells && r.storages == w1.storages
    requires forall j :: 0 <= j < |cl| ==> GuessOk(guesses, j, |w1.smallCells|) && r.clients[cl[j]].smallCell == Some(w1.smallCells[guesses[j]])
    requires forall x :: 0 <= x < |w1.cells| ==> r.cells[x] == w1.cells[x].(clients := r.cells[x].clients)
    ensures TrainedCells(w, k, r, cl, guesses)
  {
    forall i | 0 <= i < k
      ensures r.smallCells[i] == |w.cells| + i && r.cells[r.smallCells[i]] == NewCell(i).(clients := r.cells[r.smallCells[i]].clients)
    {
      var x := w1.smallCells[i];
      assert x == |w.cells| + i && x < |w1.cells| && w1.cells[x] == NewCell(i);
    }
    forall j | 0 <= j < |cl|
      ensures GuessOk(guesses, j, k) && cl[j] in r.clients && r.clients[cl[j]].smallCell == Some(|w.cells| + guesses[j])
    {
      assert GuessOk(guesses, j, |w1.smallCells|);
    }
  }
}

=== FILE: collections.dfy ===
/** Generic facts about sequences and sets used throughout the model. */
module Collections {

  /** No element occurs twice. */
  ghost predicate NoDup<T>(s: seq<T>) {
    forall i, j :: 0 <= i < j < |s| ==> s[i] != s[j]
  }

  /** Strictly increasing, hence also free of duplicates. */
  ghost predicate Increasing(s: seq<int>) {
    forall i, j :: 0 <= i < j < |s| ==> s[i] < s[j]
  }

  /** `a` can be obtained from `b` by deleting elements. */
  ghost predicate IsSubsequence<T>(a: seq<T>, b: seq<T>)
    decreases |b|
  {
    |a| == 0 || (|b| > 0 && if a[0] == b[0] then IsSubsequence(a[1..], b[1..]) else IsSubsequence(a, b[1..]))
  }

  /** A similarity matrix, indexed by position in a cell list. */
  type Matrix = seq<seq<real>>

  /** `n` rows of `n` entries each. */
  ghost predicate IsSquare(m: Matrix, n: nat) {
    |m| == n && forall i :: 0 <= i < n ==> |m[i]| == n
  }

  /** The concatenation of a sequence of sequences. */
  function Flatten<T>(ss: seq<seq<T>>): seq<T> {
    if |ss| == 0 then [] else ss[0] + Flatten(ss[1..])
  }

  lemma {:induction false} FlattenAppend<T>(ss: seq<seq<T>>, tt: seq<seq<T>>)
    ensures Flatten(ss + tt) == Flatten(ss) + Flatten(tt)
    decreases |ss|
  {
    if |ss| == 0 {
      assert ss + tt == tt;
    } else {
      assert (ss + tt)[1..] == ss[1..] + tt;
      FlattenAppend(ss[1..], tt);
    }
  }

  lemma {:induction false} FlattenMembership<T>(ss: seq<seq<T>>, x: T)
    ensures x in Flatten(ss) <==> exists g :: 0 <= g < |ss| && x in ss[g]
    decreases |ss|
  {
    if |ss| > 0 {
      FlattenMembership(ss[1..], x);
      if x in Flatten(ss[1..]) {
        var g :| 0 <= g < |ss[1..]| && x in ss[1..][g];
        assert x in ss[g + 1];
      }
      if exists g :: 0 <= g < |ss| && x in ss[g] {
        var g :| 0 <= g < |ss| && x in ss[g];
        if g > 0 {
          assert x in ss[1..][g - 1];
        }
      }
    }
  }

  /** A non-empty finite set of naturals has a greatest element. */
  lemma {:induction false} MaxExists(s: set<nat>)
    requires s != {}
    ensures exists m :: m in s && forall y :: y in s ==> y <= m
    decreases |s|
  {
    var x :| x in s;
    var t := s - {x};
    var top := x;
    if t != {} {
      MaxExists(t);
      var m :| m in t && forall y :: y in t ==> y <= m;
      top := if x <= m then m else x;
    }
    forall y | y in s ensures y <= top {
      if y != x {
        assert y in t;
      }
    }
    assert top in s;
  }


  /** The greatest element of a non-empty set of naturals. */
  function MaxOf(s: set<nat>): (m: nat)
    requires s != {}
    ensures m in s && forall y :: y in s ==> y <= m
  {
    MaxExists(s);
    var m :| m in s && forall y :: y in s ==> y <= m;
    m
  }

  /** A strict upper bound of a finite set of naturals. */
  function Bound(s: set<nat>): (b: nat)
    ensures forall x :: x in s ==> x < b
  {
    if s == {} then 0 else MaxOf(s) + 1
  }

  /** The elements of `s` below `n`, in ascending order. */
  function KeysBelow(s: set<nat>, n: nat): (r: seq<nat>)
    ensures forall x :: x in r <==> x in s && x < n
    ensures Increasing(r)
  {
    if n == 0 then []
    else
      var lower := KeysBelow(s, n - 1);
      assert forall i :: 0 <= i < |lower| ==> lower[i] < n - 1 by {
        forall i | 0 <= i < |lower| ensures lower[i] < n - 1 {
          assert lower[i] in lower;
        }
      }
      lower + (if n - 1 in s then [n - 1] else [])
  }

  /** A duplicate-free sequence has as many positions as it has elements. */
  lemma {:induction false} NoDupCard(r: seq<nat>, s: set<nat>)
    requires NoDup(r) && forall x :: x in r <==> x in s
    ensures |r| == |s|
    decreases |r|
  {
    if |r| == 0 {
      assert s == {};
    } else {
      var t := s - {r[0]};
      assert NoDup(r[1..]);
      forall x ensures x in r[1..] <==> x in t {
        if x in r[1..] {
          var i :| 0 <= i < |r[1..]| && r[1..][i] == x;
          assert r[i + 1] == x;
        }
        if x in t {
          assert x in r && x != r[0];
          var i :| 0 <= i < |r| && r[i] == x;
          assert r[1..][i - 1] == x;
        }
      }
      NoDupCard(r[1..], t);
      assert s == t + {r[0]};
    }
  }

  /** The elements of a finite set of naturals in ascending order: the model's
      deterministic stand-in for the unspecified iteration order of a Go map. */
  function SortedKeys(s: set<nat>): (r: seq<nat>)
    ensures forall x :: x in r <==> x in s
    ensures Increasing(r)
    ensures |r| == |s|
  {
    var r := KeysBelow(s, Bound(s));
    IncreasingNoDup(r);
    NoDupCard(r, s);
    r
  }

  /** A sequence with no elements is empty. */
  lemma EmptyWithoutElements<T>(s: seq<T>)
    ensures (forall x :: x !in s) ==> |s| == 0
  {
    if |s| > 0 {
      assert s[0] in s;
    }
  }

  lemma IncreasingNoDup(s: seq<int>)
    requires Increasing(s)
    ensures NoDup(s)
  {
  }

  /** In a duplicate-free sequence every element occurs exactly once. */
  lemma {:induction false} NoDupMultiset<T>(s: seq<T>, x: T)
    requires NoDup(s)
    ensures multiset(s)[x] == if x in s then 1 else 0
    decreases |s|
  {
    if |s| > 0 {
      assert s == [s[0]] + s[1..];
      assert NoDup(s[1..]) by {
        forall i, j | 0 <= i < j < |s[1..]| ensures s[1..][i] != s[1..][j] {
          assert s[1..][i] == s[i + 1] && s[1..][j] == s[j + 1];
        }
      }
      NoDupMultiset(s[1..], x);
      if x == s[0] {
        assert x !in s[1..] by {
          forall i | 0 <= i < |s[1..]| ensures s[1..][i] != x {
            assert s[1..][i] == s[i + 1];
          }
        }
      }
    }
  }

  /** Two duplicate-free sequences with the same elements are permutations of each other. */
  lemma SameElementsPermutation<T>(a: seq<T>, b: seq<T>)
    requires NoDup(a) && NoDup(b)
    requires forall x :: x in a <==> x in b
    ensures multiset(a) == multiset(b)
  {
    forall x ensures multiset(a)[x] == multiset(b)[x] {
      NoDupMultiset(a, x);
      NoDupMultiset(b, x);
    }
  }

  /** A permutation of a duplicate-free sequence is duplicate-free. */
  lemma PermutationNoDup<T>(a: seq<T>, b: seq<T>)
    requires NoDup(a) && multiset(a) == multiset(b)
    ensures NoDup(b)
  {
    forall i, j | 0 <= i < j < |b| ensures b[i] != b[j] {
      if b[i] == b[j] {
        var x := b[i];
        assert b == b[..i] + [x] + b[i + 1..j] + [x] + b[j + 1..];
        assert multiset(b)[x] >= 2;
        NoDupMultiset(a, x);
        assert false;
      }
    }
  }
}

=== FILE: cooperation.dfy ===
/** `smallCellList.arrangeCooperation`: the small cells are grouped (one singleton
    per cell for a negative threshold, the greedy anchor-only rule otherwise), one
    fresh cache storage is created per group, and every cell of a group is assigned
    to its group's storage, group by group and member by member. */
module Cooperation {
  import opened Results
  import opened Collections
  import opened Popularity
  import opened State
  import opened Files
  import opened Similarity
  import opened Grouping
  import opened Transfer

  // ---------------------------------------------------------------- one group

  /** The inner loop: each member in turn is assigned to storage `cs`. */
  function AttachMembers(w: World, ms: seq<CellRef>, cs: StorageRef): (r: Result<World>)
    requires RefsValid(w) && cs < |w.storages| && CellsExist(w, ms)
    ensures r.Success? ==> RefsValid(r.value) && SameShape(w, r.value)
    ensures r.Success? ==> r.value.smallCells == w.smallCells && r.value.clients == w.clients
    decreases |ms|
  {
    if |ms| == 0 then Success(w)
    else
      var w1 :- CellAssignTo(w, ms[0], cs);
      AttachMembers(w1, ms[1..], cs)
  }

  /** The inner loop keeps the world well formed. */
  lemma {:induction false} AttachMembersValid(w: World, ms: seq<CellRef>, cs: StorageRef)
    requires Valid(w) && cs < |w.storages| && CellsExist(w, ms)
    requires AttachMembers(w, ms, cs).Success?
    ensures Valid(AttachMembers(w, ms, cs).value)
    decreases |ms|
  {
    if |ms| > 0 {
      CellAssignToValid(w, ms[0], cs);
      AttachMembersValid(CellAssignTo(w, ms[0], cs).value, ms[1..], cs);
    }
  }

  /** The summed count of file `k` in period `p` over the accumulated tables of the
      listed cells. */
  function SumCounts(cells: seq<SmallCell>, ms: seq<CellRef>, p: nat, k: FileId): int
    requires forall i :: 0 <= i < |ms| ==> ms[i] < |cells|
    decreases |ms|
  {
    if |ms| == 0 then 0 else Count(cells[ms[0]].popularitiesAccumulated, p, k) + SumCounts(cells, ms[1..], p, k)
  }

  /** The sum reads only the cells' accumulated tables. */
  lemma {:induction false} SumCountsSameTables(a: seq<SmallCell>, b: seq<SmallCell>, ms: seq<CellRef>, p: nat, k: FileId)
    requires |a| == |b|
    requires forall i :: 0 <= i < |ms| ==> ms[i] < |a|
    requires forall c :: 0 <= c < |a| ==> a[c].popularitiesAccumulated == b[c].popularitiesAccumulated
    ensures SumCounts(a, ms, p, k) == SumCounts(b, ms, p, k)
    decreases |ms|
  {
    if |ms| > 0 {
      SumCountsSameTables(a, b, ms[1..], p, k);
    }
  }

  /** Each member ends up assigned to `cs`; every other cell is untouched. */
  lemma {:induction false} AttachMembersCells(w: World, ms: seq<CellRef>, cs: StorageRef, c: CellRef)
    requires RefsValid(w) && cs < |w.storages| && CellsExist(w, ms)
    requires AttachMembers(w, ms, cs).Success?
    requires c < |w.cells|
    ensures AttachMembers(w, ms, cs).value.cells[c]
      == if c in ms then w.cells[c].(cacheStorage := Some(cs)) else w.cells[c]
    decreases |ms|
  {
    if |ms| > 0 {
      var w1 := CellAssignTo(w, ms[0], cs).value;
      CellAssignToEffect(w, ms[0], cs);
      AttachMembersCells(w1, ms[1..], cs, c);
      assert c in ms <==> c == ms[0] || c in ms[1..];
    }
  }

  lemma AppendFirst<T>(a: seq<T>, b: seq<T>)
    requires |b| > 0
    ensures a + b == (a + [b[0]]) + b[1..]
  {
    assert b == [b[0]] + b[1..];
  }

  /** The members are appended to the storage's member list in order. */
  lemma {:induction false} AttachMembersList(w: World, ms: seq<CellRef>, cs: StorageRef)
    requires RefsValid(w) && cs < |w.storages| && CellsExist(w, ms)
    requires AttachMembers(w, ms, cs).Success?
    ensures AttachMembers(w, ms, cs).value.storages[cs].smallCells == w.storages[cs].smallCells + ms
    decreases |ms|
  {
    if |ms| > 0 {
      var w1 := CellAssignTo(w, ms[0], cs).value;
      CellAssignToEffect(w, ms[0], cs);
      AttachMembersList(w1, ms[1..], cs);
      AppendFirst(w.storages[cs].smallCells, ms);
    }
  }

  /** No member list other than `cs`'s changes. */
  lemma {:induction false} AttachMembersOtherLists(w: World, ms: seq<CellRef>, cs: StorageRef, x: StorageRef)
    requires RefsValid(w) && cs < |w.storages| && CellsExist(w, ms)
    requires AttachMembers(w, ms, cs).Success?
    requires x < |w.storages| && x != cs
    ensures AttachMembers(w, ms, cs).value.storages[x].smallCells == w.storages[x].smallCells
    decreases |ms|
  {
    if |ms| > 0 {
      var w1 := CellAssignTo(w, ms[0], cs).value;
      CellAssignToEffect(w, ms[0], cs);
      AttachMembersOtherLists(w1, ms[1..], cs, x);
    }
  }

  /** A storage other than `cs` that no member comes from is untouched. */
  lemma {:induction false} AttachMembersFrame(w: World, ms: seq<CellRef>, cs: StorageRef, x: StorageRef)
    requires RefsValid(w) && cs < |w.storages| && CellsExist(w, ms)
    requires AttachMembers(w, ms, cs).Success?
    requires x < |w.storages| && x != cs
    requires forall i :: 0 <= i < |ms| ==> w.cells[ms[i]].cacheStorage != Some(x)
    ensures AttachMembers(w, ms, cs).value.storages[x] == w.storages[x]
    decreases |ms|
  {
    if |ms| > 0 {
      var w1 := CellAssignTo(w, ms[0], cs).value;
      CellAssignToEffect(w, ms[0], cs);
      forall i | 0 <= i < |ms[1..]|
        ensures w1.cells[ms[1..][i]].cacheStorage != Some(x)
      {
        assert ms[1..][i] == ms[i + 1];
      }
      AttachMembersFrame(w1, ms[1..], cs, x);
    }
  }

  /** Distinct members that do not already belong to `cs` add their demand to it. */
  lemma {:induction false} AttachMembersCounts(w: World, ms: seq<CellRef>, cs: StorageRef, p: nat, k: FileId)
    requires RefsValid(w) && cs < |w.storages| && CellsExist(w, ms)
    requires AttachMembers(w, ms, cs).Success?
    requires NoDup(ms)
    requires forall i :: 0 <= i < |ms| ==> w.cells[ms[i]].cacheStorage != Some(cs)
    ensures Count(AttachMembers(w, ms, cs).value.storages[cs].popularitiesAccumulated, p, k)
      == Count(w.storages[cs].popularitiesAccumulated, p, k) + SumCounts(w.cells, ms, p, k)
    decreases |ms|
  {
    if |ms| > 0 {
      var w1 := CellAssignTo(w, ms[0], cs).value;
      CellAssignToEffect(w, ms[0], cs);
      CellAssignToJoinCounts(w, ms[0], cs, p, k);
      forall i | 0 <= i < |ms[1..]|
        ensures w1.cells[ms[1..][i]] == w.cells[ms[1..][i]]
      {
        assert ms[1..][i] == ms[i + 1];
      }
      assert NoDup(ms[1..]);
      AttachMembersCounts(w1, ms[1..], cs, p, k);
      SumCountsSameTables(w1.cells, w.cells, ms[1..], p, k);
    }
  }

  /** Distinct members that belong to no storage attach without a panic. */
  lemma {:induction false} AttachMembersSucceeds(w: World, ms: seq<CellRef>, cs: StorageRef)
    requires RefsValid(w) && cs < |w.storages| && CellsExist(w, ms)
    requires NoDup(ms)
    requires forall i :: 0 <= i < |ms| ==> w.cells[ms[i]].cacheStorage.None?
    ensures AttachMembers(w, ms, cs).Success?
    decreases |ms|
  {
    if |ms| > 0 {
      CellAssignToFailure(w, ms[0], cs);
      var w1 := CellAssignTo(w, ms[0], cs).value;
      CellAssignToEffect(w, ms[0], cs);
      forall i | 0 <= i < |ms[1..]|
        ensures w1.cells[ms[1..][i]].cacheStorage.None?
      {
        assert ms[1..][i] == ms[i + 1];
      }
      assert NoDup(ms[1..]);
      AttachMembersSucceeds(w1, ms[1..], cs);
    }
  }

  // ---------------------------------------------------------------- all groups

  /** The outer loop: group `g` of `gs` goes to storage `at + g`. */
  function AttachGroups(w: World, gs: seq<seq<CellRef>>, at: StorageRef): (r: Result<World>)
    requires RefsValid(w) && at + |gs| <= |w.storages|
    requires forall g :: 0 <= g < |gs| ==> CellsExist(w, gs[g])
    ensures r.Success? ==> RefsValid(r.value) && SameShape(w, r.value)
    ensures r.Success? ==> r.value.smallCells == w.smallCells && r.value.clients == w.clients
    decreases |gs|
  {
    if |gs| == 0 then Success(w)
    else
      var w1 :- AttachMembers(w, gs[0], at);
      assert forall g :: 0 <= g < |gs[1..]| ==> gs[1..][g] == gs[g + 1] && CellsExist(w, gs[g + 1]);
      assert forall g :: 0 <= g < |gs[1..]| ==> CellsExist(w1, gs[1..][g]);
      AttachGroups(w1, gs[1..], at + 1)
  }

  /** The outer loop keeps the world well formed. */
  lemma {:induction false} AttachGroupsValid(w: World, gs: seq<seq<CellRef>>, at: StorageRef)
    requires Valid(w) && at + |gs| <= |w.storages|
    requires forall g :: 0 <= g < |gs| ==> CellsExist(w, gs[g])
    requires AttachGroups(w, gs, at).Success?
    ensures Valid(AttachGroups(w, gs, at).value)
    decreases |gs|
  {
    if |gs| > 0 {
      AttachGroupsStep(w, gs, at);
      AttachMembersValid(w, gs[0], at);
      AttachGroupsValid(AttachMembers(w, gs[0], at).value, gs[1..], at + 1);
    }
  }

  /** One round of the outer loop: the first group attaches, and the remaining
      groups run on the result from the next storage on. */
  lemma AttachGroupsStep(w: World, gs: seq<seq<CellRef>>, at: StorageRef)
    requires RefsValid(w) && at + |gs| <= |w.storages|
    requires forall g :: 0 <= g < |gs| ==> CellsExist(w, gs[g])
    requires |gs| > 0 && AttachGroups(w, gs, at).Success?
    ensures AttachMembers(w, gs[0], at).Success?
    ensures var w1 := AttachMembers(w, gs[0], at).value;
      && RefsValid(w1) && at + 1 + |gs[1..]| <= |w1.storages|
      && (forall g :: 0 <= g < |gs[1..]| ==> CellsExist(w1, gs[1..][g]))
      && AttachGroups(w1, gs[1..], at + 1) == AttachGroups(w, gs, at)
  {
    assert forall g :: 0 <= g < |gs[1..]| ==> gs[1..][g] == gs[g + 1] && CellsExist(w, gs[g + 1]);
  }

  /** No cell occurs twice, within a group or across groups. */
  ghost predicate DistinctCells(gs: seq<seq<CellRef>>) {
    && (forall g :: 0 <= g < |gs| ==> NoDup(gs[g]))
    && (forall g1, g2, c :: 0 <= g1 < |gs| && 0 <= g2 < |gs| && g1 != g2 && c in gs[g1] ==> c !in gs[g2])
  }

  /** Every listed cell is unattached or attached to a storage below `at`. */
  ghost predicate FromBelow(w: World, gs: seq<seq<CellRef>>, at: StorageRef) {
    forall g, i :: 0 <= g < |gs| && 0 <= i < |gs[g]| && gs[g][i] < |w.cells| ==>
      w.cells[gs[g][i]].cacheStorage.None? || w.cells[gs[g][i]].cacheStorage.value < at
  }

  /** What the attach loop over groups `gs` into storages from `at` on needs: valid
      references, room for every group, existing and distinct cells, none already in
      a target storage. */
  ghost predicate AttachReady(w: World, gs: seq<seq<CellRef>>, at: StorageRef) {
    && RefsValid(w) && at + |gs| <= |w.storages|
    && (forall g :: 0 <= g < |gs| ==> CellsExist(w, gs[g]))
    && DistinctCells(gs) && FromBelow(w, gs, at)
  }

  /** No listed cell belongs to a storage yet. */
  ghost predicate FreshCells(w: World, gs: seq<seq<CellRef>>) {
    forall g, i :: 0 <= g < |gs| && 0 <= i < |gs[g]| && gs[g][i] < |w.cells| ==> w.cells[gs[g][i]].cacheStorage.None?
  }

  lemma DistinctCellsTail(gs: seq<seq<CellRef>>)
    requires |gs| > 0 && DistinctCells(gs)
    ensures DistinctCells(gs[1..])
    ensures forall g, c :: 0 <= g < |gs[1..]| && c in gs[1..][g] ==> c !in gs[0]
  {
    forall g, c | 0 <= g < |gs[1..]| && c in gs[1..][g]
      ensures c !in gs[0]
    {
      assert gs[1..][g] == gs[g + 1];
    }
  }

  /** Group `g`'s cells are appended, in order, to storage `at + g`'s member list. */
  lemma {:induction false} AttachGroupsList(w: World, gs: seq<seq<CellRef>>, at: StorageRef, g: nat)
    requires RefsValid(w) && at + |gs| <= |w.storages|
    requires forall g :: 0 <= g < |gs| ==> CellsExist(w, gs[g])
    requires AttachGroups(w, gs, at).Success?
    requires g < |gs|
    ensures AttachGroups(w, gs, at).value.storages[at + g].smallCells == w.storages[at + g].smallCells + gs[g]
    decreases |gs|
  {
    var w1 := AttachMembers(w, gs[0], at).value;
    if g == 0 {
      AttachMembersList(w, gs[0], at);
      if |gs| > 1 {
        AttachGroupsFrameList(w1, gs[1..], at + 1, at);
      }
    } else {
      AttachMembersOtherLists(w, gs[0], at, at + g);
      AttachGroupsList(w1, gs[1..], at + 1, g - 1);
    }
  }

  /** A member list below `at` is never changed by the later groups. */
  lemma {:induction false} AttachGroupsFrameList(w: World, gs: seq<seq<CellRef>>, at: StorageRef, x: StorageRef)
    requires RefsValid(w) && at + |gs| <= |w.storages|
    requires forall g :: 0 <= g < |gs| ==> CellsExist(w, gs[g])
    requires AttachGroups(w, gs, at).Success?
    requires x < at
    ensures AttachGroups(w, gs, at).value.storages[x].smallCells == w.storages[x].smallCells
    decreases |gs|
  {
    if |gs| > 0 {
      var w1 := AttachMembers(w, gs[0], at).value;
      AttachMembersOtherLists(w, gs[0], at, x);
      AttachGroupsFrameList(w1, gs[1..], at + 1, x);
    }
  }

  /** Every cell of a group ends up attached to that group's storage, and its
      other fields are untouched; a cell in no group is not changed at all. */
  lemma AttachGroupsCells(w: World, gs: seq<seq<CellRef>>, at: StorageRef, c: CellRef)
    requires RefsValid(w) && at + |gs| <= |w.storages|
    requires forall g :: 0 <= g < |gs| ==> CellsExist(w, gs[g])
    requires AttachGroups(w, gs, at).Success?
    requires DistinctCells(gs) && c < |w.cells|
    ensures var r := AttachGroups(w, gs, at).value;
      r.cells[c] == w.cells[c].(cacheStorage := r.cells[c].cacheStorage)
    ensures var r := AttachGroups(w, gs, at).value;
      forall g :: 0 <= g < |gs| && c in gs[g] ==> r.cells[c].cacheStorage.Some? && r.cells[c].cacheStorage.value == at + g
    ensures var r := AttachGroups(w, gs, at).value;
      (forall g :: 0 <= g < |gs| ==> c !in gs[g]) ==> r.cells[c] == w.cells[c]
  {
    AttachGroupsOtherFields(w, gs, at, c);
    forall g | 0 <= g < |gs| && c in gs[g]
      ensures var s := AttachGroups(w, gs, at).value.cells[c].cacheStorage; s.Some? && s.value == at + g
    {
      AttachGroupsJoins(w, gs, at, g, c);
    }
    if forall g :: 0 <= g < |gs| ==> c !in gs[g] {
      AttachGroupsUntouched(w, gs, at, c);
    }
  }

  /** The outer loop changes no field of a cell but its storage. */
  lemma {:induction false} AttachGroupsOtherFields(w: World, gs: seq<seq<CellRef>>, at: StorageRef, c: CellRef)
    requires RefsValid(w) && at + |gs| <= |w.storages|
    requires forall g :: 0 <= g < |gs| ==> CellsExist(w, gs[g])
    requires AttachGroups(w, gs, at).Success?
    requires c < |w.cells|
    ensures var r := AttachGroups(w, gs, at).value;
      r.cells[c] == w.cells[c].(cacheStorage := r.cells[c].cacheStorage)
    decreases |gs|
  {
    if |gs| > 0 {
      var w1 := AttachMembers(w, gs[0], at).value;
      AttachMembersCells(w, gs[0], at, c);
      AttachGroupsOtherFields(w1, gs[1..], at + 1, c);
    }
  }

  /** A cell in no group is not changed by the outer loop. */
  lemma {:induction false} AttachGroupsUntouched(w: World, gs: seq<seq<CellRef>>, at: StorageRef, c: CellRef)
    requires RefsValid(w) && at + |gs| <= |w.storages|
    requires forall g :: 0 <= g < |gs| ==> CellsExist(w, gs[g])
    requires AttachGroups(w, gs, at).Success?
    requires c < |w.cells| && forall g :: 0 <= g < |gs| ==> c !in gs[g]
    ensures AttachGroups(w, gs, at).value.cells[c] == w.cells[c]
    decreases |gs|
  {
    if |gs| > 0 {
      var w1 := AttachMembers(w, gs[0], at).value;
      AttachMembersCells(w, gs[0], at, c);
      forall g | 0 <= g < |gs[1..]|
        ensures c !in gs[1..][g]
      {
        assert gs[1..][g] == gs[g + 1];
      }
      AttachGroupsUntouched(w1, gs[1..], at + 1, c);
    }
  }

  /** A cell of group `g` ends up attached to storage `at + g`. */
  lemma {:induction false} AttachGroupsJoins(w: World, gs: seq<seq<CellRef>>, at: StorageRef, g: nat, c: CellRef)
    requires RefsValid(w) && at + |gs| <= |w.storages|
    requires forall g :: 0 <= g < |gs| ==> CellsExist(w, gs[g])
    requires AttachGroups(w, gs, at).Success?
    requires DistinctCells(gs) && g < |gs| && c in gs[g] && c < |w.cells|
    ensures var s := AttachGroups(w, gs, at).value.cells[c].cacheStorage; s.Some? && s.value == at + g
    decreases |gs|
  {
    var w1 := AttachMembers(w, gs[0], at).value;
    DistinctCellsTail(gs);
    if g == 0 {
      AttachMembersCells(w, gs[0], at, c);
      AttachGroupsUntouched(w1, gs[1..], at + 1, c);
    } else {
      assert c in gs[1..][g - 1];
      AttachGroupsJoins(w1, gs[1..], at + 1, g - 1, c);
    }
  }

  /** A storage outside the targets that no listed cell comes from is untouched. */
  lemma {:induction false} AttachGroupsFrame(w: World, gs: seq<seq<CellRef>>, at: StorageRef, x: StorageRef)
    requires RefsValid(w) && at + |gs| <= |w.storages|
    requires forall g :: 0 <= g < |gs| ==> CellsExist(w, gs[g])
    requires AttachGroups(w, gs, at).Success?
    requires x < |w.storages| && (x < at || at + |gs| <= x)
    requires forall g, i :: 0 <= g < |gs| && 0 <= i < |gs[g]| ==> w.cells[gs[g][i]].cacheStorage != Some(x)
    ensures AttachGroups(w, gs, at).value.storages[x] == w.storages[x]
    decreases |gs|
  {
    if |gs| > 0 {
      var w1 := AttachMembers(w, gs[0], at).value;
      AttachFirstOrigins(w, gs, at, x);
      AttachGroupsFrame(w1, gs[1..], at + 1, x);
    }
  }

  /** Attaching the first group leaves storage `x` as it was, and moves none of the
      remaining cells into it. */
  lemma AttachFirstOrigins(w: World, gs: seq<seq<CellRef>>, at: StorageRef, x: StorageRef)
    requires RefsValid(w) && at + |gs| <= |w.storages|
    requires forall g :: 0 <= g < |gs| ==> CellsExist(w, gs[g])
    requires forall g, i :: 0 <= g < |gs| && 0 <= i < |gs[g]| && gs[g][i] < |w.cells| ==> w.cells[gs[g][i]].cacheStorage != Some(x)
    requires |gs| > 0 && AttachMembers(w, gs[0], at).Success?
    requires x < |w.storages| && x != at
    ensures var w1 := AttachMembers(w, gs[0], at).value;
      && w1.storages[x] == w.storages[x]
      && (forall g :: 0 <= g < |gs[1..]| ==> CellsExist(w1, gs[1..][g]))
      && forall g, i :: 0 <= g < |gs[1..]| && 0 <= i < |gs[1..][g]| ==> w1.cells[gs[1..][g][i]].cacheStorage != Some(x)
  {
    var w1 := AttachMembers(w, gs[0], at).value;
    forall i | 0 <= i < |gs[0]|
      ensures w.cells[gs[0][i]].cacheStorage != Some(x)
    {
    }
    AttachMembersFrame(w, gs[0], at, x);
    assert forall g :: 0 <= g < |gs[1..]| ==> gs[1..][g] == gs[g + 1] && CellsExist(w, gs[g + 1]);
    forall g, i | 0 <= g < |gs[1..]| && 0 <= i < |gs[1..][g]|
      ensures w1.cells[gs[1..][g][i]].cacheStorage != Some(x)
    {
      AttachMembersCells(w, gs[0], at, gs[g + 1][i]);
    }
  }

  /** What attaching the first group leaves for the remaining groups: the cells'
      tables, and the distinctness and origin of the remaining cells. */
  lemma AttachFirstRest(w: World, gs: seq<seq<CellRef>>, at: StorageRef)
    requires RefsValid(w) && at + |gs| <= |w.storages|
    requires forall g :: 0 <= g < |gs| ==> CellsExist(w, gs[g])
    requires |gs| > 0 && AttachMembers(w, gs[0], at).Success?
    requires DistinctCells(gs) && FromBelow(w, gs, at)
    ensures var w1 := AttachMembers(w, gs[0], at).value;
      forall c :: 0 <= c < |w.cells| ==> w1.cells[c].popularitiesAccumulated == w.cells[c].popularitiesAccumulated
    ensures DistinctCells(gs[1..])
    ensures var w1 := AttachMembers(w, gs[0], at).value;
      && (forall g :: 0 <= g < |gs[1..]| ==> CellsExist(w1, gs[1..][g]))
      && FromBelow(w1, gs[1..], at) && FromBelow(w1, gs[1..], at + 1)
  {
    var w1 := AttachMembers(w, gs[0], at).value;
    DistinctCellsTail(gs);
    forall c | 0 <= c < |w.cells|
      ensures w1.cells[c].popularitiesAccumulated == w.cells[c].popularitiesAccumulated
      ensures c !in gs[0] ==> w1.cells[c] == w.cells[c]
    {
      AttachMembersCells(w, gs[0], at, c);
    }
    assert forall g :: 0 <= g < |gs[1..]| ==> gs[1..][g] == gs[g + 1] && CellsExist(w, gs[g + 1]);
    forall g, i | 0 <= g < |gs[1..]| && 0 <= i < |gs[1..][g]|
      ensures w1.cells[gs[1..][g][i]].cacheStorage.None? || w1.cells[gs[1..][g][i]].cacheStorage.value < at
    {
      assert gs[1..][g][i] in gs[1..][g];
    }
  }

  /** Each group adds its cells' demand to its storage, when the cells are distinct
      and none already belongs to a target storage. */
  lemma {:induction false} AttachGroupsCounts(w: World, gs: seq<seq<CellRef>>, at: StorageRef, g: nat, p: nat, k: FileId)
    requires RefsValid(w) && at + |gs| <= |w.storages|
    requires forall g :: 0 <= g < |gs| ==> CellsExist(w, gs[g])
    requires AttachGroups(w, gs, at).Success?
    requires DistinctCells(gs) && FromBelow(w, gs, at)
    requires g < |gs|
    ensures Count(AttachGroups(w, gs, at).value.storages[at + g].popularitiesAccumulated, p, k)
      == Count(w.storages[at + g].popularitiesAccumulated, p, k) + SumCounts(w.cells, gs[g], p, k)
    decreases |gs|
  {
    if g == 0 {
      AttachGroupsCountsHead(w, gs, at, p, k);
    } else {
      var w1 := AttachMembers(w, gs[0], at).value;
      AttachFirstRest(w, gs, at);
      AttachFirstKeeps(w, gs, at, g, p, k);
      AttachGroupsCounts(w1, gs[1..], at + 1, g - 1, p, k);
    }
  }

  /** Attaching the first group leaves a later group's storage and the demand of
      its cells as they were. */
  lemma AttachFirstKeeps(w: World, gs: seq<seq<CellRef>>, at: StorageRef, g: nat, p: nat, k: FileId)
    requires RefsValid(w) && at + |gs| <= |w.storages|
    requires forall g :: 0 <= g < |gs| ==> CellsExist(w, gs[g])
    requires 0 < g < |gs| && AttachMembers(w, gs[0], at).Success?
    requires DistinctCells(gs) && FromBelow(w, gs, at)
    ensures var w1 := AttachMembers(w, gs[0], at).value;
      && gs[1..][g - 1] == gs[g]
      && w1.storages[at + g] == w.storages[at + g]
      && CellsExist(w1, gs[g])
      && SumCounts(w1.cells, gs[g], p, k) == SumCounts(w.cells, gs[g], p, k)
  {
    var w1 := AttachMembers(w, gs[0], at).value;
    AttachFirstKeepsStorage(w, gs, at, at + g);
    AttachFirstRest(w, gs, at);
    SumCountsSameTables(w1.cells, w.cells, gs[g], p, k);
  }

  /** Attaching the first group leaves a storage above `at` as it was. */
  lemma AttachFirstKeepsStorage(w: World, gs: seq<seq<CellRef>>, at: StorageRef, x: StorageRef)
    requires RefsValid(w) && at + |gs| <= |w.storages|
    requires forall g :: 0 <= g < |gs| ==> CellsExist(w, gs[g])
    requires 0 < |gs| && AttachMembers(w, gs[0], at).Success?
    requires FromBelow(w, gs, at) && at < x < |w.storages|
    ensures AttachMembers(w, gs[0], at).value.storages[x] == w.storages[x]
  {
    assert forall i :: 0 <= i < |gs[0]| ==> w.cells[gs[0][i]].cacheStorage != Some(x);
    AttachMembersFrame(w, gs[0], at, x);
  }

  /** The first group's case of `AttachGroupsCounts`. */
  lemma AttachGroupsCountsHead(w: World, gs: seq<seq<CellRef>>, at: StorageRef, p: nat, k: FileId)
    requires RefsValid(w) && at + |gs| <= |w.storages|
    requires forall g :: 0 <= g < |gs| ==> CellsExist(w, gs[g])
    requires AttachGroups(w, gs, at).Success?
    requires DistinctCells(gs) && FromBelow(w, gs, at)
    requires 0 < |gs|
    ensures Count(AttachGroups(w, gs, at).value.storages[at].popularitiesAccumulated, p, k)
      == Count(w.storages[at].popularitiesAccumulated, p, k) + SumCounts(w.cells, gs[0], p, k)
  {
    var w1 := AttachMembers(w, gs[0], at).value;
    AttachHeadCounts(w, gs, at, p, k);
    AttachGroupsFrame(w1, gs[1..], at + 1, at);
  }

  /** The first group adds its demand to storage `at`, and leaves the remaining
      cells outside it. */
  lemma AttachHeadCounts(w: World, gs: seq<seq<CellRef>>, at: StorageRef, p: nat, k: FileId)
    requires RefsValid(w) && at + |gs| <= |w.storages|
    requires forall g :: 0 <= g < |gs| ==> CellsExist(w, gs[g])
    requires 0 < |gs| && AttachMembers(w, gs[0], at).Success?
    requires DistinctCells(gs) && FromBelow(w, gs, at)
    ensures var w1 := AttachMembers(w, gs[0], at).value;
      && Count(w1.storages[at].popularitiesAccumulated, p, k)
           == Count(w.storages[at].popularitiesAccumulated, p, k) + SumCounts(w.cells, gs[0], p, k)
      && (forall g :: 0 <= g < |gs[1..]| ==> CellsExist(w1, gs[1..][g]))
      && forall g, i :: 0 <= g < |gs[1..]| && 0 <= i < |gs[1..][g]| ==> w1.cells[gs[1..][g][i]].cacheStorage != Some(at)
  {
    var w1 := AttachMembers(w, gs[0], at).value;
    AttachFirstRest(w, gs, at);
    assert forall i :: 0 <= i < |gs[0]| ==> w.cells[gs[0][i]].cacheStorage != Some(at);
    AttachMembersCounts(w, gs[0], at, p, k);
    assert forall g, i :: 0 <= g < |gs[1..]| && 0 <= i < |gs[1..][g]| ==> w1.cells[gs[1..][g][i]].cacheStorage != Some(at);
  }

  /** Distinct cells that belong to no storage attach without a panic. */
  lemma {:induction false} AttachGroupsSucceeds(w: World, gs: seq<seq<CellRef>>, at: StorageRef)
    requires RefsValid(w) && at + |gs| <= |w.storages|
    requires forall g :: 0 <= g < |gs| ==> CellsExist(w, gs[g])
    requires DistinctCells(gs)
    requires FreshCells(w, gs)
    ensures AttachGroups(w, gs, at).Success?
    decreases |gs|
  {
    if |gs| > 0 {
      AttachFirstFresh(w, gs, at);
      var w1 := AttachMembers(w, gs[0], at).value;
      AttachGroupsSucceeds(w1, gs[1..], at + 1);
    }
  }

  /** Fresh distinct cells: the first group attaches, and the remaining cells stay
      fresh and distinct. */
  lemma AttachFirstFresh(w: World, gs: seq<seq<CellRef>>, at: StorageRef)
    requires RefsValid(w) && at + |gs| <= |w.storages|
    requires forall g :: 0 <= g < |gs| ==> CellsExist(w, gs[g])
    requires |gs| > 0 && DistinctCells(gs) && FreshCells(w, gs)
    ensures AttachMembers(w, gs[0], at).Success?
    ensures var w1 := AttachMembers(w, gs[0], at).value;
      && (forall g :: 0 <= g < |gs[1..]| ==> CellsExist(w1, gs[1..][g]))
      && DistinctCells(gs[1..]) && FreshCells(w1, gs[1..])
  {
    forall i | 0 <= i < |gs[0]|
      ensures w.cells[gs[0][i]].cacheStorage.None?
    {
    }
    AttachMembersSucceeds(w, gs[0], at);
    var w1 := AttachMembers(w, gs[0], at).value;
    DistinctCellsTail(gs);
    assert forall g :: 0 <= g < |gs[1..]| ==> gs[1..][g] == gs[g + 1] && CellsExist(w, gs[g + 1]);
    forall g, i | 0 <= g < |gs[1..]| && 0 <= i < |gs[1..][g]|
      ensures w1.cells[gs[1..][g][i]].cacheStorage.None?
    {
      assert gs[1..][g][i] in gs[1..][g];
      AttachMembersCells(w, gs[0], at, gs[g + 1][i]);
    }
  }

  // ---------------------------------------------------------------- arrangeCooperation

  /** The grouping of the global cell list by position: one singleton per cell for a
      negative threshold, otherwise the greedy anchor-only rule on the similarity
      matrix of the cells (compared through `view`, with no file filter). */
  function Groups(w: World, threshold: real, formula: Formula, view: View): (r: Result<seq<seq<nat>>>)
    requires forall i :: 0 <= i < |w.smallCells| ==> w.smallCells[i] < |w.cells|
    ensures r.Success? ==> Partition(r.value, |w.smallCells|)
    ensures threshold < 0.0 ==> r.Success? && |r.value| == |w.smallCells| && forall g :: 0 <= g < |r.value| ==> r.value[g] == [g]
    ensures threshold >= 0.0 ==> (r.Failure? <==> CellSimilarity(w, w.smallCells, view, Nil, formula).Failure?)
  {
    var n := |w.smallCells|;
    if threshold < 0.0 then
      SingletonsPartition(n);
      Success(Singletons(n))
    else
      var sim :- CellSimilarity(w, w.smallCells, view, Nil, formula);
      ArrangePartitions(sim, n, threshold);
      Success(Arrange(sim, n, threshold))
  }

  /** For a non-negative threshold the groups follow the anchor-only rule on the
      cells' pairwise similarity: a cell after a group's anchor is in the group
      exactly when its similarity to the anchor reaches the threshold and no earlier
      group took it; the groups come in increasing anchor order. */
  lemma GroupsAnchorOnly(w: World, threshold: real, formula: Formula, view: View)
    requires forall i :: 0 <= i < |w.smallCells| ==> w.smallCells[i] < |w.cells|
    requires threshold >= 0.0 && Groups(w, threshold, formula, view).Success?
    ensures var groups := Groups(w, threshold, formula, view).value;
      var sim := CellSimilarity(w, w.smallCells, view, Nil, formula).value;
      && IsSquare(sim, |w.smallCells|)
      && (forall g :: 0 <= g < |groups| ==> |groups[g]| > 0)
      && AnchorsIncreasing(groups)
      && forall g, k :: 0 <= g < |groups| && groups[g][0] < k < |w.smallCells| ==>
        (k in groups[g] <==> sim[groups[g][0]][k] >= threshold && forall g' :: 0 <= g' < g ==> k !in groups[g'])
  {
    var sim := CellSimilarity(w, w.smallCells, view, Nil, formula).value;
    ArrangePartitions(sim, |w.smallCells|, threshold);
    ArrangeAnchorOnly(sim, |w.smallCells|, threshold);
  }

  /** The cells of each group, read from the global cell list. */
  function CellGroups(w: World, groups: seq<seq<nat>>): (r: seq<seq<CellRef>>)
    requires forall g, i :: 0 <= g < |groups| && 0 <= i < |groups[g]| ==> groups[g][i] < |w.smallCells|
    ensures |r| == |groups|
    ensures forall g :: 0 <= g < |groups| ==> |r[g]| == |groups[g]|
    ensures forall g, i :: 0 <= g < |groups| && 0 <= i < |groups[g]| ==> r[g][i] == w.smallCells[groups[g][i]]
  {
    seq(|groups|, g requires 0 <= g < |groups| =>
      seq(|groups[g]|, i requires 0 <= i < |groups[g]| => w.smallCells[groups[g][i]]))
  }

  /** Partitioned positions of a list without repeats give distinct cells. */
  lemma CellGroupsDistinct(w: World, groups: seq<seq<nat>>)
    requires Partition(groups, |w.smallCells|) && NoDup(w.smallCells)
    ensures DistinctCells(CellGroups(w, groups))
  {
    var cg := CellGroups(w, groups);
    forall g | 0 <= g < |cg|
      ensures NoDup(cg[g])
    {
      forall i, j | 0 <= i < j < |cg[g]|
        ensures cg[g][i] != cg[g][j]
      {
        assert groups[g][i] < groups[g][j];
        assert groups[g][i] in groups[g] && groups[g][j] in groups[g];
      }
    }
    forall g1, g2, c | 0 <= g1 < |cg| && 0 <= g2 < |cg| && g1 != g2 && c in cg[g1]
      ensures c !in cg[g2]
    {
      var i1 :| 0 <= i1 < |cg[g1]| && cg[g1][i1] == c;
      assert groups[g1][i1] in groups[g1];
      forall i2 | 0 <= i2 < |cg[g2]|
        ensures cg[g2][i2] != c
      {
        assert groups[g2][i2] in groups[g2];
        if g1 < g2 {
          assert groups[g1][i1] !in groups[g2];
        } else {
          assert groups[g2][i2] !in groups[g1];
        }
      }
    }
  }

  /** The world with one fresh, empty storage per group appended and made the active
      range. */
  function WithFreshStorages(w: World, count: nat): (r: World)
    ensures |r.storages| == |w.storages| + count && r.activeFrom == |w.storages|
    ensures r.storages[..|w.storages|] == w.storages
    ensures forall x :: |w.storages| <= x < |r.storages| ==> r.storages[x] == EmptyStorage()
    ensures r == w.(storages := r.storages, activeFrom := r.activeFrom)
  {
    w.(storages := w.storages + seq(count, _ => EmptyStorage()), activeFrom := |w.storages|)
  }

  /** `arrangeCooperation` on the global cell list: the groups, one fresh storage
      per group, and group `g`'s cells assigned in order to storage `g` of the new
      active range. */
  function ArrangeCooperation(w: World, threshold: real, formula: Formula, view: View): (r: Result<World>)
    requires Valid(w)
    ensures r.Success? ==> Groups(w, threshold, formula, view).Success?
    ensures r.Success? ==> RefsValid(r.value)
    ensures r.Success? ==> |r.value.storages| == |w.storages| + |Groups(w, threshold, formula, view).value|
    ensures r.Success? ==> r.value.activeFrom == |w.storages|
    ensures r.Success? ==> r.value.smallCells == w.smallCells && r.value.clients == w.clients && |r.value.cells| == |w.cells|
    ensures r.Success? ==> r.value.files == w.files && r.value.filesList == w.filesList && r.value.periodNo == w.periodNo
  {
    var groups :- Groups(w, threshold, formula, view);
    var w1 := WithFreshStorages(w, |groups|);
    var cg := CellGroups(w, groups);
    assert forall g :: 0 <= g < |cg| ==> CellsExist(w1, cg[g]);
    AttachGroups(w1, cg, |w.storages|)
  }

  /** The setup before the attach loop, named for the lemmas below. */
  lemma ArrangeSetup(w: World, groups: seq<seq<nat>>)
    requires Valid(w) && Partition(groups, |w.smallCells|)
    ensures var w1 := WithFreshStorages(w, |groups|);
      var cg := CellGroups(w, groups);
      && Valid(w1) && w1.cells == w.cells
      && (forall g :: 0 <= g < |cg| ==> CellsExist(w1, cg[g]))
      && DistinctCells(cg) && FromBelow(w1, cg, |w.storages|)
      && AttachReady(w1, cg, |w.storages|)
  {
    ArrangeReady(w, groups);
    var w1 := WithFreshStorages(w, |groups|);
    forall s, i | 0 <= s < |w1.storages| && 0 <= i < |w1.storages[s].smallCells|
      ensures w1.storages[s].smallCells[i] < |w1.cells|
    {
      assert s < |w.storages|;
      assert w1.storages[s] == w.storages[..|w.storages|][s];
    }
  }

  /** The fresh storages and the cell groups meet what the attach loop needs. */
  lemma ArrangeReady(w: World, groups: seq<seq<nat>>)
    requires Valid(w) && Partition(groups, |w.smallCells|)
    ensures AttachReady(WithFreshStorages(w, |groups|), CellGroups(w, groups), |w.storages|)
    ensures WithFreshStorages(w, |groups|).cells == w.cells
  {
    CellGroupsDistinct(w, groups);
    ArrangeRefs(w, groups);
  }

  /** The fresh storages keep the storage references valid, and the cell groups
      name existing cells. */
  lemma ArrangeRefs(w: World, groups: seq<seq<nat>>)
    requires Valid(w) && Partition(groups, |w.smallCells|)
    ensures var w1 := WithFreshStorages(w, |groups|);
      var cg := CellGroups(w, groups);
      && RefsValid(w1) && w1.cells == w.cells
      && (forall g :: 0 <= g < |cg| ==> CellsExist(w1, cg[g]))
  {
    var w1 := WithFreshStorages(w, |groups|);
    var cg := CellGroups(w, groups);
    assert forall g :: 0 <= g < |cg| ==> CellsExist(w1, cg[g]);
  }

  /** `arrangeCooperation` keeps the world well formed. */
  lemma ArrangeCooperationValid(w: World, threshold: real, formula: Formula, view: View)
    requires Valid(w) && ArrangeCooperation(w, threshold, formula, view).Success?
    ensures Valid(ArrangeCooperation(w, threshold, formula, view).value)
  {
    var groups := Groups(w, threshold, formula, view).value;
    ArrangeSetup(w, groups);
    AttachGroupsValid(WithFreshStorages(w, |groups|), CellGroups(w, groups), |w.storages|);
  }

  /** The `g`-th new storage lists exactly the cells of group `g`, in group order. */
  lemma ArrangeCooperationMembers(w: World, threshold: real, formula: Formula, view: View, g: nat)
    requires Valid(w) && ArrangeCooperation(w, threshold, formula, view).Success?
    requires g < |Groups(w, threshold, formula, view).value|
    ensures var groups := Groups(w, threshold, formula, view).value;
      var r := ArrangeCooperation(w, threshold, formula, view).value;
      r.storages[|w.storages| + g].smallCells == CellGroups(w, groups)[g]
  {
    var groups := Groups(w, threshold, formula, view).value;
    ArrangeRefs(w, groups);
    FreshStorageList(WithFreshStorages(w, |groups|), CellGroups(w, groups), |w.storages|, g);
  }

  /** The attach loop leaves a target storage that starts empty listing exactly its
      group's cells. */
  lemma FreshStorageList(w: World, gs: seq<seq<CellRef>>, at: StorageRef, g: nat)
    requires RefsValid(w) && at + |gs| <= |w.storages|
    requires forall g :: 0 <= g < |gs| ==> CellsExist(w, gs[g])
    requires AttachGroups(w, gs, at).Success? && g < |gs|
    requires forall x :: at <= x < |w.storages| ==> w.storages[x] == EmptyStorage()
    ensures AttachGroups(w, gs, at).value.storages[at + g].smallCells == gs[g]
  {
    AttachGroupsList(w, gs, at, g);
    assert w.storages[at + g] == EmptyStorage();
    assert [] + gs[g] == gs[g];
  }

  /** Every cell of the global list ends up attached to the new storage of the one
      group holding its position. */
  lemma ArrangeCooperationCells(w: World, threshold: real, formula: Formula, view: View, i: nat)
    requires Valid(w) && ArrangeCooperation(w, threshold, formula, view).Success?
    requires i < |w.smallCells|
    ensures var groups := Groups(w, threshold, formula, view).value;
      var r := ArrangeCooperation(w, threshold, formula, view).value;
      var c := w.smallCells[i];
      && (exists g :: 0 <= g < |groups| && i in groups[g])
      && (forall g :: 0 <= g < |groups| && i in groups[g] ==> r.cells[c].cacheStorage.Some? && r.cells[c].cacheStorage.value == |w.storages| + g)
      && r.cells[c] == w.cells[c].(cacheStorage := r.cells[c].cacheStorage)
  {
    var groups := Groups(w, threshold, formula, view).value;
    CellGroupsCover(w, groups, i);
    forall g | 0 <= g < |groups| && i in groups[g]
      ensures var s := ArrangeCooperation(w, threshold, formula, view).value.cells[w.smallCells[i]].cacheStorage;
        s.Some? && s.value == |w.storages| + g
    {
      ArrangeCellJoin(w, threshold, formula, view, i, g);
    }
    ArrangeCellFields(w, threshold, formula, view, i);
  }

  /** The cell at position `i` ends up attached to the new storage of a group `g`
      holding `i`. */
  lemma ArrangeCellJoin(w: World, threshold: real, formula: Formula, view: View, i: nat, g: nat)
    requires Valid(w) && ArrangeCooperation(w, threshold, formula, view).Success?
    requires i < |w.smallCells|
    requires g < |Groups(w, threshold, formula, view).value| && i in Groups(w, threshold, formula, view).value[g]
    ensures var s := ArrangeCooperation(w, threshold, formula, view).value.cells[w.smallCells[i]].cacheStorage;
      s.Some? && s.value == |w.storages| + g
  {
    var groups := Groups(w, threshold, formula, view).value;
    ArrangeSetup(w, groups);
    CellGroupsCover(w, groups, i);
    AttachGroupsJoins(WithFreshStorages(w, |groups|), CellGroups(w, groups), |w.storages|, g, w.smallCells[i]);
  }

  lemma ArrangeCellFields(w: World, threshold: real, formula: Formula, view: View, i: nat)
    requires Valid(w) && ArrangeCooperation(w, threshold, formula, view).Success?
    requires i < |w.smallCells|
    ensures var r := ArrangeCooperation(w, threshold, formula, view).value;
      var c := w.smallCells[i];
      r.cells[c] == w.cells[c].(cacheStorage := r.cells[c].cacheStorage)
  {
    var groups := Groups(w, threshold, formula, view).value;
    ArrangeSetup(w, groups);
    var w1 := WithFreshStorages(w, |groups|);
    AttachGroupsOtherFields(w1, CellGroups(w, groups), |w.storages|, w.smallCells[i]);
  }

  /** Position `i` lies in some group, and the cell at `i` is in the cell group of
      every group holding `i`. */
  lemma CellGroupsCover(w: World, groups: seq<seq<nat>>, i: nat)
    requires Partition(groups, |w.smallCells|) && i < |w.smallCells|
    ensures exists g :: 0 <= g < |groups| && i in groups[g]
    ensures forall g :: 0 <= g < |groups| && i in groups[g] ==> w.smallCells[i] in CellGroups(w, groups)[g]
  {
    var cg := CellGroups(w, groups);
    assert Covered(groups, i);
    forall g | 0 <= g < |groups| && i in groups[g]
      ensures w.smallCells[i] in cg[g]
    {
      var j :| 0 <= j < |groups[g]| && groups[g][j] == i;
      assert cg[g][j] == w.smallCells[i];
    }
  }

  /** Each new storage's demand is the sum of its cells' demand, period by period
      and file by file. */
  lemma ArrangeCooperationCounts(w: World, threshold: real, formula: Formula, view: View, g: nat, p: nat, k: FileId)
    requires Valid(w) && ArrangeCooperation(w, threshold, formula, view).Success?
    requires g < |Groups(w, threshold, formula, view).value|
    ensures var groups := Groups(w, threshold, formula, view).value;
      var r := ArrangeCooperation(w, threshold, formula, view).value;
      Count(r.storages[|w.storages| + g].popularitiesAccumulated, p, k) == SumCounts(w.cells, CellGroups(w, groups)[g], p, k)
  {
    var groups := Groups(w, threshold, formula, view).value;
    ArrangeReady(w, groups);
    FreshStorageCounts(WithFreshStorages(w, |groups|), CellGroups(w, groups), |w.storages|, g, p, k);
  }

  /** The attach loop leaves a target storage that starts empty with the sum of its
      group's demand. */
  lemma FreshStorageCounts(w: World, gs: seq<seq<CellRef>>, at: StorageRef, g: nat, p: nat, k: FileId)
    requires AttachReady(w, gs, at) && AttachGroups(w, gs, at).Success? && g < |gs|
    requires forall x :: at <= x < |w.storages| ==> w.storages[x] == EmptyStorage()
    ensures Count(AttachGroups(w, gs, at).value.storages[at + g].popularitiesAccumulated, p, k) == SumCounts(w.cells, gs[g], p, k)
  {
    AttachGroupsCounts(w, gs, at, g, p, k);
    assert w.storages[at + g] == EmptyStorage();
  }

  /** On a world whose cells are unattached, `arrangeCooperation` panics only when
      the grouping does. */
  lemma ArrangeCooperationSucceeds(w: World, threshold: real, formula: Formula, view: View)
    requires Valid(w) && Unattached(w)
    ensures ArrangeCooperation(w, threshold, formula, view).Success? <==> Groups(w, threshold, formula, view).Success?
  {
    var gr := Groups(w, threshold, formula, view);
    if gr.Success? {
      var groups := gr.value;
      ArrangeSetup(w, groups);
      var w1 := WithFreshStorages(w, |groups|);
      var cg := CellGroups(w, groups);
      forall g, i | 0 <= g < |cg| && 0 <= i < |cg[g]| && cg[g][i] < |w1.cells|
        ensures w1.cells[cg[g][i]].cacheStorage.None?
      {
        assert cg[g][i] == w.smallCells[groups[g][i]];
      }
      AttachGroupsSucceeds(w1, cg, |w.storages|);
    }
  }

  /** A previous storage that no cell of the global list belongs to is untouched. */
  lemma ArrangeCooperationKeepsOld(w: World, threshold: real, formula: Formula, view: View, x: StorageRef)
    requires Valid(w) && ArrangeCooperation(w, threshold, formula, view).Success?
    requires x < |w.storages|
    requires forall i :: 0 <= i < |w.smallCells| ==> w.cells[w.smallCells[i]].cacheStorage != Some(x)
    ensures ArrangeCooperation(w, threshold, formula, view).value.storages[x] == w.storages[x]
  {
    var groups := Groups(w, threshold, formula, view).value;
    ArrangeSetup(w, groups);
    var w1 := WithFreshStorages(w, |groups|);
    var cg := CellGroups(w, groups);
    assert w1.storages[x] == w.storages[..|w.storages|][x];
    forall g, i | 0 <= g < |cg| && 0 <= i < |cg[g]|
      ensures w1.cells[cg[g][i]].cacheStorage != Some(x)
    {
      assert cg[g][i] == w.smallCells[groups[g][i]];
    }
    AttachGroupsFrame(w1, cg, |w.storages|, x);
  }
}

=== FILE: files.dfy ===
/** File lists (`fileList`), the file filter built from them, and the popularity
    ranking of files (`filePopularityList` and `setPopularFiles`). */
module Files {
  import opened Results
  import opened Collections
  import opened Popularity

  /** A Go `fileList` slice.  `Nil` is the nil slice, which the simulator reads as
      "no restriction"; `List([])` is an empty but non-nil slice, which restricts
      to nothing. */
  datatype FileList = Nil | List(elems: seq<FileId>) {
    function Len(): nat {
      if Nil? then 0 else |elems|
    }

    function Elems(): seq<FileId> {
      if Nil? then [] else elems
    }
  }

  // ---------------------------------------------------------------- intersect

  /** The elements of `s` that occur in `t`, in `s`'s order. */
  function KeepIn(s: seq<FileId>, t: seq<FileId>): seq<FileId> {
    if |s| == 0 then []
    else if s[0] in t then [s[0]] + KeepIn(s[1..], t)
    else KeepIn(s[1..], t)
  }

  /** What `KeepIn` keeps: exactly the elements of `s` that occur in `t`, with their
      multiplicities in `s`, as a subsequence of `s`. */
  lemma {:induction false} KeepInContents(s: seq<FileId>, t: seq<FileId>)
    ensures forall x :: x in KeepIn(s, t) <==> x in s && x in t
    ensures |KeepIn(s, t)| <= |s|
    ensures IsSubsequence(KeepIn(s, t), s)
    ensures forall x :: multiset(KeepIn(s, t))[x] == if x in t then multiset(s)[x] else 0
    decreases |s|
  {
    if |s| > 0 {
      var rest := KeepIn(s[1..], t);
      KeepInContents(s[1..], t);
      assert s == [s[0]] + s[1..];
      if s[0] in t {
        assert ([s[0]] + rest)[1..] == rest;
      } else {
        if |rest| > 0 {
          assert rest[0] in rest;
        }
      }
    }
  }

  lemma {:induction false} KeepInSnoc(s: seq<FileId>, x: FileId, t: seq<FileId>)
    ensures KeepIn(s + [x], t) == KeepIn(s, t) + (if x in t then [x] else [])
    decreases |s|
  {
    if |s| == 0 {
      assert [x][1..] == [];
      assert s + [x] == [x];
    } else {
      assert (s + [x])[0] == s[0];
      assert (s + [x])[1..] == s[1..] + [x];
      KeepInSnoc(s[1..], x, t);
    }
  }

  /** `fileList.intersect`. */
  function Intersect(fl: FileList, fl2: FileList): FileList {
    if fl2.Nil? then fl else List(KeepIn(fl.Elems(), fl2.elems))
  }

  /** A nil second list leaves the first unchanged; otherwise the intersection holds
      exactly the files of `fl` that occur in `fl2`, in `fl`'s order and with `fl`'s
      multiplicities, so it is a subsequence of `fl` and no longer than it. */
  lemma IntersectContents(fl: FileList, fl2: FileList)
    ensures fl2.Nil? ==> Intersect(fl, fl2) == fl
    ensures fl2.List? ==> Intersect(fl, fl2).List?
    ensures fl2.List? ==> forall x :: x in Intersect(fl, fl2).elems <==> x in fl.Elems() && x in fl2.elems
    ensures fl2.List? ==> IsSubsequence(Intersect(fl, fl2).elems, fl.Elems()) && Intersect(fl, fl2).Len() <= fl.Len()
    ensures fl2.List? ==> forall x :: multiset(Intersect(fl, fl2).elems)[x] == if x in fl2.elems then multiset(fl.Elems())[x] else 0
  {
    if fl2.List? {
      KeepInContents(fl.Elems(), fl2.elems);
    }
  }

  /** The nested search loops of `fileList.intersect` compute `Intersect`. */
  method IntersectScan(fl: FileList, fl2: FileList) returns (r: FileList)
    ensures r == Intersect(fl, fl2)
  {
    if fl2.Nil? {
      return fl;
    }
    var s := fl.Elems();
    var t := fl2.elems;
    var ifl: seq<FileId> := [];
    var i := 0;
    while i < |s|
      invariant 0 <= i <= |s|
      invariant ifl == KeepIn(s[..i], t)
    {
      var f := s[i];
      var j := 0;
      var found := false;
      while j < |t|
        invariant 0 <= j <= |t|
        invariant found ==> f in t
        invariant !found ==> f !in t[..j]
      {
        if f == t[j] {
          found := true;
          break;
        }
        assert t[..j + 1] == t[..j] + [t[j]];
        j := j + 1;
      }
      assert !found ==> t[..j] == t;
      if found {
        ifl := ifl + [f];
      }
      assert s[..i + 1] == s[..i] + [f];
      KeepInSnoc(s[..i], f, t);
      i := i + 1;
    }
    assert s[..i] == s;
    r := List(ifl);
  }

  // ---------------------------------------------------------------- has

  /** `fileList.has`: every file passes a nil list. */
  predicate Has(fl: FileList, f: FileId) {
    fl.Nil? || f in fl.elems
  }

  /** The search loop of `fileList.has`. */
  method HasScan(fl: FileList, f: FileId) returns (r: bool)
    ensures fl.Nil? ==> r
    ensures fl.List? ==> (r <==> exists i :: 0 <= i < |fl.elems| && fl.elems[i] == f)
  {
    if fl.Nil? {
      return true;
    }
    var i := 0;
    while i < |fl.elems|
      invariant 0 <= i <= |fl.elems|
      invariant forall k :: 0 <= k < i ==> fl.elems[k] != f
    {
      if fl.elems[i] == f {
        return true;
      }
      i := i + 1;
    }
    return false;
  }

  // ---------------------------------------------------------------- ranking

  datatype FilePopularity = FilePopularity(file: FileId, popularity: int)

  type FilePopularityList = seq<FilePopularity>

  /** `filePopularityList.Len`. */
  function Len(fpl: FilePopularityList): nat {
    |fpl|
  }

  /** `filePopularityList.Less`: strictly greater popularity sorts first. */
  predicate Less(fpl: FilePopularityList, i: nat, j: nat)
    requires i < |fpl| && j < |fpl|
  {
    fpl[i].popularity > fpl[j].popularity
  }

  /** `filePopularityList.Swap`. */
  function Swap(fpl: FilePopularityList, i: nat, j: nat): (r: FilePopularityList)
    requires i < |fpl| && j < |fpl|
    ensures |r| == Len(fpl) && r[i] == fpl[j] && r[j] == fpl[i]
    ensures forall k :: 0 <= k < |r| && k != i && k != j ==> r[k] == fpl[k]
    ensures multiset(r) == multiset(fpl)
  {
    fpl[i := fpl[j]][j := fpl[i]]
  }

  /** What `sort.Sort` guarantees under `Less`: popularity never increases along the
      list.  Ties may come in any order. */
  ghost predicate NonIncreasing(fpl: FilePopularityList) {
    forall i, j :: 0 <= i < j < |fpl| ==> fpl[i].popularity >= fpl[j].popularity
  }

  /** A list is sorted by `Less` (no later element is `Less` than an earlier one)
      exactly when its popularities never increase. */
  lemma SortedByLessIsNonIncreasing(fpl: FilePopularityList)
    ensures NonIncreasing(fpl) <==> forall i, j :: 0 <= i < j < |fpl| ==> !Less(fpl, j, i)
  {
    if forall i, j :: 0 <= i < j < |fpl| ==> !Less(fpl, j, i) {
      forall i, j | 0 <= i < j < |fpl| ensures fpl[i].popularity >= fpl[j].popularity {
        assert !Less(fpl, j, i);
      }
    }
  }

  /** Places `x` before the first entry it is not less popular than. */
  function Insert(x: FilePopularity, s: FilePopularityList): (r: FilePopularityList)
    ensures |r| == |s| + 1
  {
    if |s| == 0 || x.popularity >= s[0].popularity then [x] + s
    else [s[0]] + Insert(x, s[1..])
  }

  /** Inserting adds exactly `x`. */
  lemma {:induction false} InsertPermutes(x: FilePopularity, s: FilePopularityList)
    ensures multiset(Insert(x, s)) == multiset([x] + s)
    decreases |s|
  {
    if |s| > 0 && x.popularity < s[0].popularity {
      InsertPermutes(x, s[1..]);
      assert s == [s[0]] + s[1..];
    }
  }

  /** Inserting keeps every popularity at most `b` when `x` and `s` keep it. */
  lemma {:induction false} InsertBelow(x: FilePopularity, s: FilePopularityList, b: int)
    requires x.popularity <= b
    requires forall i :: 0 <= i < |s| ==> s[i].popularity <= b
    ensures forall k :: 0 <= k < |Insert(x, s)| ==> Insert(x, s)[k].popularity <= b
    decreases |s|
  {
    if |s| > 0 && x.popularity < s[0].popularity {
      InsertBelow(x, s[1..], b);
    }
  }

  /** Inserting into a non-increasing list keeps it non-increasing; the head is `x`
      or the old head. */
  lemma {:induction false} InsertSorts(x: FilePopularity, s: FilePopularityList)
    requires NonIncreasing(s)
    ensures NonIncreasing(Insert(x, s))
    ensures Insert(x, s)[0] == x || (|s| > 0 && Insert(x, s)[0] == s[0])
    decreases |s|
  {
    if |s| > 0 && x.popularity < s[0].popularity {
      var rest := Insert(x, s[1..]);
      InsertSorts(x, s[1..]);
      InsertBelow(x, s[1..], s[0].popularity);
      assert Insert(x, s) == [s[0]] + rest;
    }
  }

  /** `sort.Sort` on a `filePopularityList`, modelled as an insertion sort; only the
      guarantees of `sort.Sort` are promised (`SortPopularitiesSorts`). */
  function SortPopularities(fpl: FilePopularityList): (r: FilePopularityList)
    ensures |r| == |fpl|
  {
    if |fpl| == 0 then [] else Insert(fpl[0], SortPopularities(fpl[1..]))
  }

  /** The sort's result never increases in popularity and is a permutation of its input. */
  lemma {:induction false} SortPopularitiesSorts(fpl: FilePopularityList)
    ensures NonIncreasing(SortPopularities(fpl))
    ensures multiset(SortPopularities(fpl)) == multiset(fpl)
    decreases |fpl|
  {
    if |fpl| > 0 {
      SortPopularitiesSorts(fpl[1..]);
      InsertSorts(fpl[0], SortPopularities(fpl[1..]));
      InsertPermutes(fpl[0], SortPopularities(fpl[1..]));
      assert fpl == [fpl[0]] + fpl[1..];
    }
  }

  // ---------------------------------------------------------------- getFileList

  /** `filePopularityList.getFileList`: the files in list order. */
  function PopularityFileList(fpl: FilePopularityList): (r: seq<FileId>)
    ensures |r| == |fpl|
  {
    if |fpl| == 0 then [] else [fpl[0].file] + PopularityFileList(fpl[1..])
  }

  /** The file list holds the files of the entries, position by position. */
  lemma {:induction false} PopularityFileListEntries(fpl: FilePopularityList)
    ensures forall i :: 0 <= i < |fpl| ==> PopularityFileList(fpl)[i] == fpl[i].file
    decreases |fpl|
  {
    if |fpl| > 0 {
      PopularityFileListEntries(fpl[1..]);
    }
  }

  /** `popularities.getFileList` and `fileMap.getFileList`: every key of the map,
      each exactly once. */
  function KeyList<V>(p: map<FileId, V>): (r: seq<FileId>)
    ensures forall f :: f in r <==> f in p
    ensures NoDup(r) && |r| == |p|
  {
    var r := SortedKeys(p.Keys);
    IncreasingNoDup(r);
    r
  }

  /** A file: its size in bytes and, per period, its request count in that period
      and accumulated up to it. */
  datatype File = File(size: int, popularityPeriod: seq<int>, popularityAccumulated: seq<int>)

  /** A file's count in period `pn`, per period or accumulated. */
  function FileCount(f: File, pn: nat, accumulated: bool): Result<int> {
    if accumulated then At(f.popularityAccumulated, pn) else At(f.popularityPeriod, pn)
  }

  /** Pairs every listed file with its count in period `pn`, in list order. */
  function PairCounts(ids: seq<FileId>, files: map<FileId, File>, pn: nat, accumulated: bool): (r: Result<FilePopularityList>)
    requires forall i :: 0 <= i < |ids| ==> ids[i] in files
    ensures r.Success? ==> |r.value| == |ids|
    ensures r.Success? ==> forall i :: 0 <= i < |ids| ==> r.value[i].file == ids[i] && FileCount(files[ids[i]], pn, accumulated) == Success(r.value[i].popularity)
    ensures r.Failure? ==> exists i :: 0 <= i < |ids| && FileCount(files[ids[i]], pn, accumulated).Failure?
  {
    if |ids| == 0 then Success([])
    else
      var c :- FileCount(files[ids[0]], pn, accumulated);
      var rest :- PairCounts(ids[1..], files, pn, accumulated);
      Success([FilePopularity(ids[0], c)] + rest)
  }

  /** Files ranked by popularity: each registered file exactly once, most popular first. */
  ghost predicate RankedByCount(r: seq<FileId>, files: map<FileId, File>, pn: nat, accumulated: bool) {
    && NoDup(r)
    && (forall f :: f in r <==> f in files)
    && (forall i :: 0 <= i < |r| ==> r[i] in files && FileCount(files[r[i]], pn, accumulated).Success?)
    && (forall i, j :: 0 <= i < j < |r| ==>
          FileCount(files[r[i]], pn, accumulated).value >= FileCount(files[r[j]], pn, accumulated).value)
  }

  /** One half of `periodList.setPopularFiles` for period position `pn`: all files,
      sorted by their per-period (or accumulated) count in that period. */
  function RankFiles(files: map<FileId, File>, pn: nat, accumulated: bool): (r: Result<seq<FileId>>)
    ensures r.Success? ==> |r.value| == |files|
  {
    var ids := KeyList(files);
    var counted := PairCounts(ids, files, pn, accumulated);
    if counted.Failure? then
      Failure(counted.error)
    else
      Success(PopularityFileList(SortPopularities(counted.value)))
  }

  /** `RankFiles` fails exactly when some file has no count at `pn`, and otherwise
      ranks every file by its count. */
  lemma RankFilesRanked(files: map<FileId, File>, pn: nat, accumulated: bool)
    ensures var r := RankFiles(files, pn, accumulated);
      && (r.Failure? <==> exists f :: f in files && FileCount(files[f], pn, accumulated).Failure?)
      && (r.Success? ==> RankedByCount(r.value, files, pn, accumulated))
  {
    RankFilesFailure(files, pn, accumulated);
    RankFilesSuccess(files, pn, accumulated);
  }

  lemma RankFilesFailure(files: map<FileId, File>, pn: nat, accumulated: bool)
    ensures RankFiles(files, pn, accumulated).Failure? <==> exists f :: f in files && FileCount(files[f], pn, accumulated).Failure?
  {
    var ids := KeyList(files);
    var counted := PairCounts(ids, files, pn, accumulated);
    if counted.Success? {
      forall f | f in files ensures FileCount(files[f], pn, accumulated).Success? {
        var k :| 0 <= k < |ids| && ids[k] == f;
      }
    } else {
      var k :| 0 <= k < |ids| && FileCount(files[ids[k]], pn, accumulated).Failure?;
      assert ids[k] in files;
    }
  }

  lemma RankFilesSuccess(files: map<FileId, File>, pn: nat, accumulated: bool)
    ensures RankFiles(files, pn, accumulated).Success? ==> RankedByCount(RankFiles(files, pn, accumulated).value, files, pn, accumulated)
  {
    var ids := KeyList(files);
    var counted := PairCounts(ids, files, pn, accumulated);
    if counted.Success? {
      var sorted := SortPopularities(counted.value);
      SortPopularitiesSorts(counted.value);
      RankFilesFacts(files, pn, accumulated, ids, counted.value, sorted);
    }
  }

  /** Sorting the count pairs of all files ranks every file once, most popular first. */
  lemma RankFilesFacts(files: map<FileId, File>, pn: nat, accumulated: bool, ids: seq<FileId>, fpl: FilePopularityList, sorted: FilePopularityList)
    requires (forall f :: f in ids <==> f in files) && NoDup(ids)
    requires |fpl| == |ids|
    requires forall i :: 0 <= i < |ids| ==> fpl[i].file == ids[i] && FileCount(files[ids[i]], pn, accumulated) == Success(fpl[i].popularity)
    requires NonIncreasing(sorted) && multiset(sorted) == multiset(fpl)
    ensures RankedByCount(PopularityFileList(sorted), files, pn, accumulated)
  {
    PopularityFileListEntries(sorted);
    SortedEntriesCounted(files, pn, accumulated, ids, fpl, sorted);
    SortedCoversFiles(files, ids, fpl, sorted);
    SortedCountsOrdered(files, pn, accumulated, sorted);
    SortedFilesDistinct(ids, fpl, sorted);
  }

  lemma SortedEntriesCounted(files: map<FileId, File>, pn: nat, accumulated: bool, ids: seq<FileId>, fpl: FilePopularityList, sorted: FilePopularityList)
    requires forall f :: f in ids ==> f in files
    requires |fpl| == |ids|
    requires forall i :: 0 <= i < |ids| ==> fpl[i].file == ids[i] && FileCount(files[ids[i]], pn, accumulated) == Success(fpl[i].popularity)
    requires multiset(sorted) == multiset(fpl)
    ensures forall i :: 0 <= i < |sorted| ==> sorted[i].file in files && FileCount(files[sorted[i].file], pn, accumulated) == Success(sorted[i].popularity)
  {
    forall i | 0 <= i < |sorted| ensures sorted[i].file in files && FileCount(files[sorted[i].file], pn, accumulated) == Success(sorted[i].popularity) {
      assert sorted[i] in multiset(fpl);
      var k :| 0 <= k < |fpl| && fpl[k] == sorted[i];
      assert ids[k] in ids;
    }
  }

  /** Every file reaches the sorted list. */
  lemma SortedCoversFiles(files: map<FileId, File>, ids: seq<FileId>, fpl: FilePopularityList, sorted: FilePopularityList)
    requires forall f :: f in files ==> f in ids
    requires |fpl| == |ids| && forall i :: 0 <= i < |ids| ==> fpl[i].file == ids[i]
    requires multiset(sorted) == multiset(fpl)
    requires forall i :: 0 <= i < |sorted| ==> PopularityFileList(sorted)[i] == sorted[i].file
    ensures forall f :: f in files ==> f in PopularityFileList(sorted)
  {
    var r := PopularityFileList(sorted);
    forall f | f in files ensures f in r {
      var k :| 0 <= k < |ids| && ids[k] == f;
      assert fpl[k] in multiset(sorted);
      var i :| 0 <= i < |sorted| && sorted[i] == fpl[k];
      assert r[i] == f;
    }
  }

  /** The counts of the sorted list do not increase. */
  lemma SortedCountsOrdered(files: map<FileId, File>, pn: nat, accumulated: bool, sorted: FilePopularityList)
    requires NonIncreasing(sorted)
    requires forall i :: 0 <= i < |sorted| ==> sorted[i].file in files && FileCount(files[sorted[i].file], pn, accumulated) == Success(sorted[i].popularity)
    requires forall i :: 0 <= i < |sorted| ==> PopularityFileList(sorted)[i] == sorted[i].file
    ensures var r := PopularityFileList(sorted);
      forall i, j :: 0 <= i < j < |r| ==>
        FileCount(files[r[i]], pn, accumulated).value >= FileCount(files[r[j]], pn, accumulated).value
  {
    var r := PopularityFileList(sorted);
    forall i, j | 0 <= i < j < |r| ensures FileCount(files[r[i]], pn, accumulated).value >= FileCount(files[r[j]], pn, accumulated).value {
      assert sorted[i].popularity >= sorted[j].popularity;
    }
  }

  lemma SortedFilesDistinct(ids: seq<FileId>, fpl: FilePopularityList, sorted: FilePopularityList)
    requires NoDup(ids) && |fpl| == |ids|
    requires forall i :: 0 <= i < |ids| ==> fpl[i].file == ids[i]
    requires multiset(sorted) == multiset(fpl)
    ensures NoDup(PopularityFileList(sorted))
  {
    var r := PopularityFileList(sorted);
    PopularityFileListEntries(sorted);
    assert NoDup(fpl) by {
      forall a, b | 0 <= a < b < |fpl| ensures fpl[a] != fpl[b] {
        assert fpl[a].file == ids[a] && fpl[b].file == ids[b];
      }
    }
    PermutationNoDup(fpl, sorted);
    forall i, j | 0 <= i < j < |r| ensures r[i] != r[j] {
      assert sorted[i] in multiset(fpl) && sorted[j] in multiset(fpl);
      var ki :| 0 <= ki < |fpl| && fpl[ki] == sorted[i];
      var kj :| 0 <= kj < |fpl| && fpl[kj] == sorted[j];
      assert ki != kj;
    }
  }
}

=== FILE: grouping.dfy ===
/** The grouping rule of `smallCellList.arrangeCooperation`, on cell positions
    `0 .. n-1` and a similarity matrix: a greedy single pass in which every cell not
    yet claimed becomes the anchor of a new group and claims every later unclaimed
    cell whose similarity to the anchor reaches the threshold.  Similarity to the
    other members of a group is never consulted. */
module Grouping {
  import opened Collections

  /** The grouping used for a negative threshold: one singleton per cell, in order. */
  function Singletons(n: nat): seq<seq<nat>> {
    seq(n, g requires 0 <= g < n => [g])
  }

  /** The inner loop: scans `j .. n-1`, claiming each unclaimed cell similar enough
      to `anchor`.  Returns the admitted cells and the updated claim flags. */
  function Admit(sim: Matrix, n: nat, anchor: nat, j: nat, threshold: real, claimed: seq<bool>): (seq<nat>, seq<bool>)
    requires IsSquare(sim, n) && anchor < n && j <= n && |claimed| == n
    decreases n - j
  {
    if j == n then ([], claimed)
    else if !claimed[j] && sim[anchor][j] >= threshold then
      var (rest, c') := Admit(sim, n, anchor, j + 1, threshold, claimed[j := true]);
      ([j] + rest, c')
    else Admit(sim, n, anchor, j + 1, threshold, claimed)
  }

  /** The outer loop from position `i` on. */
  function Greedy(sim: Matrix, n: nat, i: nat, threshold: real, claimed: seq<bool>): seq<seq<nat>>
    requires IsSquare(sim, n) && i <= n && |claimed| == n
    decreases n - i
  {
    if i == n then []
    else if claimed[i] then Greedy(sim, n, i + 1, threshold, claimed)
    else
      var (members, c') := Admit(sim, n, i, i + 1, threshold, claimed[i := true]);
      AdmitFacts(sim, n, i, i + 1, threshold, claimed[i := true]);
      [[i] + members] + Greedy(sim, n, i + 1, threshold, c')
  }

  /** The grouping for a non-negative threshold, starting with nothing claimed. */
  function Arrange(sim: Matrix, n: nat, threshold: real): seq<seq<nat>>
    requires IsSquare(sim, n)
  {
    Greedy(sim, n, 0, threshold, seq(n, _ => false))
  }

  /** The admitted cells are, in increasing order, exactly the unclaimed cells of
      `j .. n-1` similar enough to the anchor; those and only those become claimed. */
  lemma {:induction false} AdmitFacts(sim: Matrix, n: nat, anchor: nat, j: nat, threshold: real, claimed: seq<bool>)
    requires IsSquare(sim, n) && anchor < n && j <= n && |claimed| == n
    ensures var (members, c') := Admit(sim, n, anchor, j, threshold, claimed);
      && Increasing(members)
      && |c'| == n
      && (forall x :: x in members ==> j <= x < n)
      && (forall k :: j <= k < n ==> (k in members <==> !claimed[k] && sim[anchor][k] >= threshold))
      && (forall k :: 0 <= k < n ==> c'[k] == (claimed[k] || k in members))
    decreases n - j
  {
    if j < n {
      if !claimed[j] && sim[anchor][j] >= threshold {
        AdmitFacts(sim, n, anchor, j + 1, threshold, claimed[j := true]);
        var (rest, c') := Admit(sim, n, anchor, j + 1, threshold, claimed[j := true]);
        var members := [j] + rest;
        assert forall x :: x in members ==> x == j || x in rest;
        forall a, b | 0 <= a < b < |members| ensures members[a] < members[b] {
          assert members[b] == rest[b - 1];
          assert members[b] in rest;
          if a > 0 {
            assert members[a] == rest[a - 1];
          }
        }
      } else {
        AdmitFacts(sim, n, anchor, j + 1, threshold, claimed);
      }
    }
  }

  // ---------------------------------------------------------------- invariants of the outer loop

  /** Each group is non-empty and increasing (so its anchor comes first and is its
      least cell), and holds only cells that were unclaimed at position `i`. */
  ghost predicate GroupsWellFormed(groups: seq<seq<nat>>, n: nat, i: nat, claimed: seq<bool>)
    requires |claimed| == n
  {
    forall g :: 0 <= g < |groups| ==>
      && |groups[g]| > 0
      && Increasing(groups[g])
      && i <= groups[g][0] < n
      && (forall x :: x in groups[g] ==> x < n && !claimed[x])
  }

  ghost predicate Disjoint(groups: seq<seq<nat>>) {
    forall g1, g2, x :: 0 <= g1 < g2 < |groups| && x in groups[g1] ==> x !in groups[g2]
  }

  ghost predicate AnchorsIncreasing(groups: seq<seq<nat>>)
    requires forall g :: 0 <= g < |groups| ==> |groups[g]| > 0
  {
    forall g1, g2 :: 0 <= g1 < g2 < |groups| ==> groups[g1][0] < groups[g2][0]
  }

  /** Anchor-only admission: a cell after group `g`'s anchor belongs to `g` exactly
      when its similarity to the anchor reaches the threshold and no earlier group
      (nor an earlier claim) took it. */
  ghost predicate AnchorOnly(groups: seq<seq<nat>>, sim: Matrix, n: nat, threshold: real, claimed: seq<bool>)
    requires IsSquare(sim, n) && |claimed| == n
    requires forall g :: 0 <= g < |groups| ==> |groups[g]| > 0 && groups[g][0] < n
  {
    forall g, k :: 0 <= g < |groups| && groups[g][0] < k < n ==>
      (k in groups[g] <==>
        sim[groups[g][0]][k] >= threshold && !claimed[k] && forall g' :: 0 <= g' < g ==> k !in groups[g'])
  }

  lemma {:induction false} GreedyWellFormed(sim: Matrix, n: nat, i: nat, threshold: real, claimed: seq<bool>)
    requires IsSquare(sim, n) && i <= n && |claimed| == n
    ensures GroupsWellFormed(Greedy(sim, n, i, threshold, claimed), n, i, claimed)
    ensures AnchorsIncreasing(Greedy(sim, n, i, threshold, claimed))
    decreases n - i
  {
    if i < n {
      if claimed[i] {
        GreedyWellFormed(sim, n, i + 1, threshold, claimed);
      } else {
        var (members, c') := Admit(sim, n, i, i + 1, threshold, claimed[i := true]);
        AdmitFacts(sim, n, i, i + 1, threshold, claimed[i := true]);
        var rest := Greedy(sim, n, i + 1, threshold, c');
        GreedyWellFormed(sim, n, i + 1, threshold, c');
        assert [[i] + members] + rest == Greedy(sim, n, i, threshold, claimed);
        WellFormedCons(n, i, claimed, members, c', rest);
      }
    }
  }

  /** A new group anchored at the unclaimed position `i`, with increasing admitted
      members after `i`, put before well-formed groups built from the resulting
      claims, gives well-formed groups with increasing anchors. */
  lemma WellFormedCons(n: nat, i: nat, claimed: seq<bool>, members: seq<nat>, c': seq<bool>, rest: seq<seq<nat>>)
    requires i < n && |claimed| == n && !claimed[i] && |c'| == n
    requires Increasing(members) && forall x :: x in members ==> i + 1 <= x < n
    requires forall k :: i + 1 <= k < n ==> (k in members ==> !claimed[i := true][k])
    requires forall k :: 0 <= k < n ==> c'[k] == (claimed[i := true][k] || k in members)
    requires GroupsWellFormed(rest, n, i + 1, c') && AnchorsIncreasing(rest)
    ensures GroupsWellFormed([[i] + members] + rest, n, i, claimed)
    ensures AnchorsIncreasing([[i] + members] + rest)
  {
    var first := [i] + members;
    var groups := [first] + rest;
    assert Increasing(first) by {
      forall a, b | 0 <= a < b < |first| ensures first[a] < first[b] {
        assert first[b] in members;
        if a > 0 {
          assert first[a] == members[a - 1] && first[b] == members[b - 1];
        }
      }
    }
    assert forall x :: x in first ==> x < n && !claimed[x];
    forall g | 0 <= g < |groups|
      ensures |groups[g]| > 0 && Increasing(groups[g]) && i <= groups[g][0]
      ensures forall x :: x in groups[g] ==> x < n && !claimed[x]
    {
      if g > 0 {
        assert groups[g] == rest[g - 1];
        forall x | x in groups[g] ensures x < n && !claimed[x] {
          assert !c'[x];
        }
      }
    }
    forall g1, g2 | 0 <= g1 < g2 < |groups| ensures groups[g1][0] < groups[g2][0] {
      assert groups[g2] == rest[g2 - 1];
      if g1 > 0 {
        assert groups[g1] == rest[g1 - 1];
      }
    }
  }

  lemma {:induction false} GreedyDisjoint(sim: Matrix, n: nat, i: nat, threshold: real, claimed: seq<bool>)
    requires IsSquare(sim, n) && i <= n && |claimed| == n
    ensures Disjoint(Greedy(sim, n, i, threshold, claimed))
    decreases n - i
  {
    if i < n {
      if claimed[i] {
        GreedyDisjoint(sim, n, i + 1, threshold, claimed);
      } else {
        var (members, c') := Admit(sim, n, i, i + 1, threshold, claimed[i := true]);
        AdmitFacts(sim, n, i, i + 1, threshold, claimed[i := true]);
        var rest := Greedy(sim, n, i + 1, threshold, c');
        GreedyDisjoint(sim, n, i + 1, threshold, c');
        GreedyWellFormed(sim, n, i + 1, threshold, c');
        var groups := [[i] + members] + rest;
        forall g1, g2, x | 0 <= g1 < g2 < |groups| && x in groups[g1] ensures x !in groups[g2] {
          assert groups[g2] == rest[g2 - 1];
          if g1 == 0 {
            assert c'[x];
          } else {
            assert groups[g1] == rest[g1 - 1];
          }
        }
      }
    }
  }

  ghost predicate Covered(groups: seq<seq<nat>>, k: nat) {
    exists g :: 0 <= g < |groups| && k in groups[g]
  }

  /** Every cell unclaimed at position `i` lands in some group. */
  lemma {:induction false} GreedyCovers(sim: Matrix, n: nat, i: nat, threshold: real, claimed: seq<bool>)
    requires IsSquare(sim, n) && i <= n && |claimed| == n
    ensures forall k :: i <= k < n && !claimed[k] ==> Covered(Greedy(sim, n, i, threshold, claimed), k)
    decreases n - i
  {
    if i < n {
      if claimed[i] {
        GreedyCovers(sim, n, i + 1, threshold, claimed);
      } else {
        var (members, c') := Admit(sim, n, i, i + 1, threshold, claimed[i := true]);
        AdmitFacts(sim, n, i, i + 1, threshold, claimed[i := true]);
        var rest := Greedy(sim, n, i + 1, threshold, c');
        GreedyCovers(sim, n, i + 1, threshold, c');
        var groups := [[i] + members] + rest;
        assert groups == Greedy(sim, n, i, threshold, claimed);
        forall k | i <= k < n && !claimed[k] ensures Covered(groups, k) {
          if k == i || k in members {
            assert k in groups[0];
          } else {
            assert !c'[k];
            assert Covered(rest, k);
            var g :| 0 <= g < |rest| && k in rest[g];
            assert k in groups[g + 1];
          }
        }
      }
    }
  }

  lemma {:induction false} GreedyAnchorOnly(sim: Matrix, n: nat, i: nat, threshold: real, claimed: seq<bool>)
    requires IsSquare(sim, n) && i <= n && |claimed| == n
    ensures GroupsWellFormed(Greedy(sim, n, i, threshold, claimed), n, i, claimed)
    ensures AnchorOnly(Greedy(sim, n, i, threshold, claimed), sim, n, threshold, claimed)
    decreases n - i
  {
    GreedyWellFormed(sim, n, i, threshold, claimed);
    if i < n {
      if claimed[i] {
        GreedyAnchorOnly(sim, n, i + 1, threshold, claimed);
      } else {
        var (members, c') := Admit(sim, n, i, i + 1, threshold, claimed[i := true]);
        AdmitFacts(sim, n, i, i + 1, threshold, claimed[i := true]);
        var rest := Greedy(sim, n, i + 1, threshold, c');
        GreedyAnchorOnly(sim, n, i + 1, threshold, c');
        assert [[i] + members] + rest == Greedy(sim, n, i, threshold, claimed);
        AnchorOnlyCons(sim, n, i, threshold, claimed, members, c', rest);
      }
    }
  }

  /** A new group anchored at the unclaimed position `i`, with the admitted members,
      put before anchor-only groups built from the resulting claims, gives
      anchor-only groups for the original claims. */
  lemma AnchorOnlyCons(sim: Matrix, n: nat, i: nat, threshold: real, claimed: seq<bool>,
                       members: seq<nat>, c': seq<bool>, rest: seq<seq<nat>>)
    requires IsSquare(sim, n) && i < n && |claimed| == n && |c'| == n
    requires forall x :: x in members ==> i + 1 <= x < n
    requires forall k :: i + 1 <= k < n ==> (k in members <==> !claimed[i := true][k] && sim[i][k] >= threshold)
    requires forall k :: 0 <= k < n ==> c'[k] == (claimed[i := true][k] || k in members)
    requires GroupsWellFormed(rest, n, i + 1, c')
    requires AnchorOnly(rest, sim, n, threshold, c')
    ensures AnchorOnly([[i] + members] + rest, sim, n, threshold, claimed)
  {
    var first := [i] + members;
    var groups := [first] + rest;
    forall g, k | 0 <= g < |groups| && groups[g][0] < k < n
      ensures k in groups[g] <==>
        sim[groups[g][0]][k] >= threshold && !claimed[k] && forall g' :: 0 <= g' < g ==> k !in groups[g']
    {
      if g == 0 {
        assert k in first <==> k in members;
      } else {
        assert groups[g] == rest[g - 1];
        if forall g' :: 0 <= g' < g ==> k !in groups[g'] {
          assert k !in groups[0];
          forall g' | 0 <= g' < g - 1 ensures k !in rest[g'] {
            assert rest[g'] == groups[g' + 1];
          }
        }
        if k !in first && forall g' :: 0 <= g' < g - 1 ==> k !in rest[g'] {
          forall g' | 0 <= g' < g ensures k !in groups[g'] {
            if g' > 0 {
              assert groups[g'] == rest[g' - 1];
            }
          }
        }
      }
    }
  }

  /** `groups` partition the positions `0 .. n-1`: each group is non-empty and
      increasing, holds only positions below `n`, and every position lies in exactly
      one group. */
  ghost predicate Partition(groups: seq<seq<nat>>, n: nat) {
    && (forall g :: 0 <= g < |groups| ==> |groups[g]| > 0 && Increasing(groups[g]))
    && (forall g, x :: 0 <= g < |groups| && x in groups[g] ==> x < n)
    && (forall g, i :: 0 <= g < |groups| && 0 <= i < |groups[g]| ==> groups[g][i] < n)
    && (forall k :: 0 <= k < n ==> Covered(groups, k))
    && Disjoint(groups)
  }

  /** The singleton grouping is a partition, with one group per position in order. */
  lemma SingletonsPartition(n: nat)
    ensures Partition(Singletons(n), n)
    ensures |Singletons(n)| == n && forall g :: 0 <= g < n ==> Singletons(n)[g] == [g]
  {
    var groups := Singletons(n);
    forall k | 0 <= k < n
      ensures Covered(groups, k)
    {
      assert k in groups[k];
    }
  }

  /** The groups of `Arrange` partition the cells: every cell lies in exactly one
      group, each group lists its cells in increasing order (anchor first), and the
      groups come in increasing anchor order. */
  lemma ArrangePartitions(sim: Matrix, n: nat, threshold: real)
    requires IsSquare(sim, n)
    ensures Partition(Arrange(sim, n, threshold), n)
    ensures var groups := Arrange(sim, n, threshold);
      && (forall g :: 0 <= g < |groups| ==> |groups[g]| > 0 && Increasing(groups[g]))
      && (forall g, x :: 0 <= g < |groups| && x in groups[g] ==> x < n)
      && (forall k :: 0 <= k < n ==> Covered(groups, k))
      && Disjoint(groups)
      && AnchorsIncreasing(groups)
  {
    var none := seq(n, _ => false);
    GreedyWellFormed(sim, n, 0, threshold, none);
    GreedyDisjoint(sim, n, 0, threshold, none);
    GreedyCovers(sim, n, 0, threshold, none);
    var groups := Arrange(sim, n, threshold);
    forall g, i | 0 <= g < |groups| && 0 <= i < |groups[g]|
      ensures groups[g][i] < n
    {
      assert groups[g][i] in groups[g];
    }
  }

  /** Anchor-only admission: a cell after an anchor joins that anchor's group exactly
      when its similarity to the anchor reaches the threshold and no earlier group
      took it; a member's similarity to the other members plays no part. */
  lemma ArrangeAnchorOnly(sim: Matrix, n: nat, threshold: real)
    requires IsSquare(sim, n)
    ensures forall g :: 0 <= g < |Arrange(sim, n, threshold)| ==> |Arrange(sim, n, threshold)[g]| > 0
    ensures var groups := Arrange(sim, n, threshold);
      forall g, k :: 0 <= g < |groups| && groups[g][0] < k < n ==>
        (k in groups[g] <==>
          sim[groups[g][0]][k] >= threshold && forall g' :: 0 <= g' < g ==> k !in groups[g'])
  {
    var none := seq(n, _ => false);
    GreedyAnchorOnly(sim, n, 0, threshold, none);
    var groups := Arrange(sim, n, threshold);
    forall g, k | 0 <= g < |groups| && groups[g][0] < k < n
      ensures k in groups[g] <==> sim[groups[g][0]][k] >= threshold && forall g' :: 0 <= g' < g ==> k !in groups[g']
    {
      assert !none[k];
    }
  }

  /** Cells A, B, C with sim(A,B) = 0.9, sim(B,C) = 0.95, sim(A,C) = 0.3 and
      threshold 0.8 give the groups {A, B} and {C}: C does not join B's group. */
  lemma AnchorOnlyExample()
    ensures Arrange([[0.0, 0.9, 0.3], [0.9, 0.0, 0.95], [0.3, 0.95, 0.0]], 3, 0.8) == [[0, 1], [2]]
  {
    var sim := [[0.0, 0.9, 0.3], [0.9, 0.0, 0.95], [0.3, 0.95, 0.0]];
    var none := seq(3, _ => false);
    assert IsSquare(sim, 3);
    assert none[0 := true] == [true, false, false];
    assert Admit(sim, 3, 0, 2, 0.8, [true, true, false]) == ([], [true, true, false]);
    var a0 := Admit(sim, 3, 0, 1, 0.8, [true, false, false]);
    assert a0.0 == [1] && a0.1 == [true, true, false];
    assert Admit(sim, 3, 2, 3, 0.8, [true, true, true]) == ([], [true, true, true]);
    assert [true, true, false][2 := true] == [true, true, true];
    assert Greedy(sim, 3, 3, 0.8, [true, true, true]) == [];
    var a2 := Admit(sim, 3, 2, 3, 0.8, [true, true, false][2 := true]);
    assert a2.0 == [] && a2.1 == [true, true, true];
    var g2 := Greedy(sim, 3, 2, 0.8, [true, true, false]);
    assert g2 == [[2] + a2.0] + Greedy(sim, 3, 3, 0.8, a2.1);
    assert [2] + a2.0 == [2];
    assert g2 == [[2]];
    assert Greedy(sim, 3, 1, 0.8, [true, true, false]) == [[2]];
    var g0 := Greedy(sim, 3, 0, 0.8, none);
    assert g0 == [[0] + a0.0] + Greedy(sim, 3, 1, 0.8, a0.1);
    assert [0] + a0.0 == [0, 1];
    assert g0 == [[0, 1], [2]];
  }
}

=== FILE: popular_files.dfy ===
/** The two `setPopularFiles` operations: every period's ranking of all files, and a
    cache storage's ranking of the files its cells have demanded. */
module PopularFiles {
  import opened Results
  import opened Collections
  import opened Popularity
  import opened Files
  import opened State

  // ---------------------------------------------------------------- periodList.setPopularFiles

  /** Every file has a per-period and an accumulated count at position `pn`. */
  ghost predicate CountsReadable(files: map<FileId, File>, pn: nat) {
    forall f :: f in files ==> FileCount(files[f], pn, false).Success? && FileCount(files[f], pn, true).Success?
  }

  /** Position `pn` of `periodList.setPopularFiles`: the period's popular-file lists
      become all files ranked by their count at position `pn`, per period and
      accumulated; reading a count outside a file's table panics.  So ranking fails
      exactly when some file lacks a count at `pn`, and otherwise both lists rank
      every file while nothing else about the period changes. */
  function RankPeriod(p: Period, files: map<FileId, File>, pn: nat): (r: Result<Period>)
    ensures r.Failure? <==> !CountsReadable(files, pn)
    ensures r.Success? ==> r.value == p.(popularFiles := r.value.popularFiles, popularFilesAccumulated := r.value.popularFilesAccumulated)
    ensures r.Success? ==> r.value.popularFiles.List? && RankedByCount(r.value.popularFiles.elems, files, pn, false)
    ensures r.Success? ==> r.value.popularFilesAccumulated.List? && RankedByCount(r.value.popularFilesAccumulated.elems, files, pn, true)
  {
    RankFilesRanked(files, pn, false);
    RankFilesRanked(files, pn, true);
    ReadableIffRanked(files, pn);
    var prd := RankFiles(files, pn, false);
    var acm := RankFiles(files, pn, true);
    if prd.Failure? || acm.Failure? then Failure(IndexOutOfRange)
    else Success(p.(popularFiles := List(prd.value), popularFilesAccumulated := List(acm.value)))
  }

  /** Every count at `pn` is readable exactly when both rankings succeed. */
  lemma ReadableIffRanked(files: map<FileId, File>, pn: nat)
    ensures CountsReadable(files, pn) <==> RankFiles(files, pn, false).Success? && RankFiles(files, pn, true).Success?
  {
    RankFilesRanked(files, pn, false);
    RankFilesRanked(files, pn, true);
    if !CountsReadable(files, pn) {
      var f :| f in files && !(FileCount(files[f], pn, false).Success? && FileCount(files[f], pn, true).Success?);
    }
  }

  /** The loop of `periodList.setPopularFiles` from position `pn` on. */
  function RankPeriodsFrom(pl: seq<Period>, files: map<FileId, File>, pn: nat): (r: Result<seq<Period>>)
    requires pn <= |pl|
    ensures r.Success? ==> |r.value| == |pl| - pn
    ensures r.Success? ==> forall k :: 0 <= k < |r.value| ==> RankPeriod(pl[pn + k], files, pn + k) == Success(r.value[k])
    ensures r.Failure? <==> exists i :: pn <= i < |pl| && !CountsReadable(files, i)
    decreases |pl| - pn
  {
    if pn == |pl| then Success([])
    else
      var p := RankPeriod(pl[pn], files, pn);
      if p.Failure? then Failure(p.error)
      else
        var rest := RankPeriodsFrom(pl, files, pn + 1);
        if rest.Failure? then Failure(rest.error)
        else
          RankedCons(pl, files, pn, p.value, rest.value);
          Success([p.value] + rest.value)
  }

  /** Prepending the period ranked at `pn` to the ranking from `pn + 1` on gives the
      ranking from `pn` on. */
  lemma RankedCons(pl: seq<Period>, files: map<FileId, File>, pn: nat, head: Period, rest: seq<Period>)
    requires pn + 1 + |rest| <= |pl|
    requires RankPeriod(pl[pn], files, pn) == Success(head)
    requires forall k :: 0 <= k < |rest| ==> RankPeriod(pl[pn + 1 + k], files, pn + 1 + k) == Success(rest[k])
    ensures forall k :: 0 <= k < |[head] + rest| ==> RankPeriod(pl[pn + k], files, pn + k) == Success(([head] + rest)[k])
  {
    var r := [head] + rest;
    forall k | 0 <= k < |r| ensures RankPeriod(pl[pn + k], files, pn + k) == Success(r[k]) {
      if k > 0 {
        assert r[k] == rest[k - 1];
        assert pn + k == pn + 1 + (k - 1);
      }
    }
  }

  /** `periodList.setPopularFiles`: the period at position `pn` is ranked at position `pn`. */
  function SetPeriodsPopularFiles(pl: seq<Period>, files: map<FileId, File>): (r: Result<seq<Period>>)
    ensures r.Success? ==> |r.value| == |pl|
    ensures r.Success? ==> forall pn :: 0 <= pn < |pl| ==> RankPeriod(pl[pn], files, pn) == Success(r.value[pn])
    ensures r.Failure? <==> exists pn :: 0 <= pn < |pl| && !CountsReadable(files, pn)
  {
    var r := RankPeriodsFrom(pl, files, 0);
    assert r.Success? ==> forall pn :: 0 <= pn < |pl| ==> RankPeriod(pl[0 + pn], files, 0 + pn) == Success(r.value[pn]);
    r
  }

  /** `periodList.setPopularFiles` fails exactly when some file lacks a count at some
      period position; otherwise the period at position `pn` lists every file exactly
      once, by non-increasing count at `pn`, per period and accumulated, and is
      otherwise unchanged. */
  lemma SetPeriodsPopularFilesRanks(pl: seq<Period>, files: map<FileId, File>)
    ensures SetPeriodsPopularFiles(pl, files).Failure? <==> exists pn :: 0 <= pn < |pl| && !CountsReadable(files, pn)
    ensures SetPeriodsPopularFiles(pl, files).Success? ==> forall pn :: 0 <= pn < |pl| ==>
      var q := SetPeriodsPopularFiles(pl, files).value[pn];
      && q == pl[pn].(popularFiles := q.popularFiles, popularFilesAccumulated := q.popularFilesAccumulated)
      && q.popularFiles.List? && RankedByCount(q.popularFiles.elems, files, pn, false)
      && q.popularFilesAccumulated.List? && RankedByCount(q.popularFilesAccumulated.elems, files, pn, true)
  {
    var r := SetPeriodsPopularFiles(pl, files);
    if r.Success? {
      forall pn | 0 <= pn < |pl| ensures
        var q := r.value[pn];
        && CountsReadable(files, pn)
        && q == pl[pn].(popularFiles := q.popularFiles, popularFilesAccumulated := q.popularFilesAccumulated)
        && q.popularFiles.List? && RankedByCount(q.popularFiles.elems, files, pn, false)
        && q.popularFilesAccumulated.List? && RankedByCount(q.popularFilesAccumulated.elems, files, pn, true)
      {
        assert RankPeriod(pl[pn], files, pn) == Success(r.value[pn]);
      }
    } else {
      var pn :| 0 <= pn < |pl| && RankPeriod(pl[pn], files, pn).Failure?;
    }
  }

  // ---------------------------------------------------------------- cacheStorage.setPopularFiles

  /** The list `fpl` of `cacheStorage.setPopularFiles`: each listed file with its count. */
  function DemandPairs(ids: seq<FileId>, t: Popularities): (r: FilePopularityList)
    ensures |r| == |ids|
    ensures forall i :: 0 <= i < |ids| ==> r[i] == FilePopularity(ids[i], Get(t, ids[i]))
  {
    seq(|ids|, i requires 0 <= i < |ids| => FilePopularity(ids[i], Get(t, ids[i])))
  }

  /** Each demanded file of `t` exactly once, most demanded first. */
  ghost predicate RankedByDemand(r: seq<FileId>, t: Popularities) {
    && NoDup(r)
    && (forall f :: f in r <==> f in t)
    && (forall i, j :: 0 <= i < j < |r| ==> Get(t, r[i]) >= Get(t, r[j]))
  }

  /** `cacheStorage.setPopularFiles`: the files of the storage's accumulated table
      for `period`, ranked by count, become its popular files for that period; a
      period outside the table panics. */
  function StoragePopularFiles(cs: CacheStorage, period: int): (r: Result<CacheStorage>)
    ensures r.Failure? <==> !(0 <= period < |cs.popularitiesAccumulated|)
    ensures r.Success? ==> period in r.value.popularFiles
    ensures r.Success? ==> RankedByDemand(r.value.popularFiles[period], cs.popularitiesAccumulated[period])
    ensures r.Success? ==> r.value == cs.(popularFiles := cs.popularFiles[period := r.value.popularFiles[period]])
  {
    var t :- At(cs.popularitiesAccumulated, period);
    var ids := KeyList(t);
    var fpl := DemandPairs(ids, t);
    var sorted := SortPopularities(fpl);
    SortPopularitiesSorts(fpl);
    var ranked := PopularityFileList(sorted);
    assert forall f :: f in ids <==> f in t;
    RankedPairsFacts(t, ids, fpl, sorted);
    Success(cs.(popularFiles := cs.popularFiles[period := ranked]))
  }

  /** Sorting the demand pairs of `t` ranks every demanded file once, most demanded first. */
  lemma RankedPairsFacts(t: Popularities, ids: seq<FileId>, fpl: FilePopularityList, sorted: FilePopularityList)
    requires (forall f :: f in ids <==> f in t) && NoDup(ids)
    requires |fpl| == |ids| && forall i :: 0 <= i < |ids| ==> fpl[i] == FilePopularity(ids[i], Get(t, ids[i]))
    requires NonIncreasing(sorted) && multiset(sorted) == multiset(fpl)
    ensures RankedByDemand(PopularityFileList(sorted), t)
  {
    PopularityFileListEntries(sorted);
    DemandEntriesCounted(t, ids, fpl, sorted);
    DemandCovered(t, ids, fpl, sorted);
    SortedFilesDistinct(ids, fpl, sorted);
  }

  /** Every sorted pair names a demanded file with its count. */
  lemma DemandEntriesCounted(t: Popularities, ids: seq<FileId>, fpl: FilePopularityList, sorted: FilePopularityList)
    requires forall f :: f in ids ==> f in t
    requires |fpl| == |ids| && forall i :: 0 <= i < |ids| ==> fpl[i] == FilePopularity(ids[i], Get(t, ids[i]))
    requires multiset(sorted) == multiset(fpl)
    ensures forall i :: 0 <= i < |sorted| ==> sorted[i].file in t && sorted[i].popularity == Get(t, sorted[i].file)
  {
    forall i | 0 <= i < |sorted| ensures sorted[i].file in t && sorted[i].popularity == Get(t, sorted[i].file) {
      assert sorted[i] in multiset(fpl);
      var k :| 0 <= k < |fpl| && fpl[k] == sorted[i];
      assert ids[k] in ids;
    }
  }

  /** Every demanded file appears among the sorted pairs. */
  lemma DemandCovered(t: Popularities, ids: seq<FileId>, fpl: FilePopularityList, sorted: FilePopularityList)
    requires forall f :: f in t ==> f in ids
    requires |fpl| == |ids| && forall i :: 0 <= i < |ids| ==> fpl[i] == FilePopularity(ids[i], Get(t, ids[i]))
    requires multiset(sorted) == multiset(fpl)
    ensures forall f :: f in t ==> f in PopularityFileList(sorted)
  {
    var r := PopularityFileList(sorted);
    PopularityFileListEntries(sorted);
    forall f | f in t ensures f in r {
      var k :| 0 <= k < |ids| && ids[k] == f;
      assert fpl[k] in multiset(sorted);
      var i :| 0 <= i < |sorted| && sorted[i] == fpl[k];
      assert r[i] == f;
    }
  }
}

=== FILE: popularity.dfy ===
/** Per-file demand counters (`popularities` in the simulator), their total,
    their normalisation into a distribution, and the per-period tables that
    cache storages and small cells aggregate. */
module Popularity {
  import opened Collections

  type FileId = nat

  /** file -> request count; a missing key reads as 0, as for a Go map. */
  type Popularities = map<FileId, int>

  /** Index = period id. */
  type Table = seq<Popularities>

  function Get(m: Popularities, k: FileId): int {
    if k in m then m[k] else 0
  }

  /** The count of file `k` in period `pn` of a table, reading a missing period or key as 0. */
  function Count(t: Table, pn: nat, k: FileId): int {
    if pn < |t| then Get(t[pn], k) else 0
  }

  // ---------------------------------------------------------------- sum

  function SumOver(keys: seq<FileId>, m: Popularities): int {
    if |keys| == 0 then 0 else Get(m, keys[0]) + SumOver(keys[1..], m)
  }

  lemma {:induction false} SumOverAppend(a: seq<FileId>, b: seq<FileId>, m: Popularities)
    ensures SumOver(a + b, m) == SumOver(a, m) + SumOver(b, m)
    decreases |a|
  {
    if |a| > 0 {
      assert (a + b)[1..] == a[1..] + b;
      SumOverAppend(a[1..], b, m);
    } else {
      assert a + b == b;
    }
  }

  /** Summing over any enumeration of the same keys gives the same total. */
  lemma {:induction false} SumOverPermutation(a: seq<FileId>, b: seq<FileId>, m: Popularities)
    requires multiset(a) == multiset(b)
    ensures SumOver(a, m) == SumOver(b, m)
    decreases |a|
  {
    if |a| == 0 {
      assert |b| == |multiset(b)| == 0;
    } else {
      var x := a[0];
      assert x in multiset(b);
      var i :| 0 <= i < |b| && b[i] == x;
      var b' := b[..i] + b[i + 1..];
      assert b == b[..i] + [x] + b[i + 1..];
      assert a == [x] + a[1..];
      calc {
        multiset(b);
        multiset(b[..i] + [x] + b[i + 1..]);
        multiset(b[..i]) + multiset([x]) + multiset(b[i + 1..]);
        multiset([x]) + multiset(b');
      }
      assert multiset(a) == multiset([x]) + multiset(a[1..]);
      forall y ensures multiset(a[1..])[y] == multiset(b')[y] {
        assert multiset(a)[y] == multiset([x])[y] + multiset(a[1..])[y];
        assert multiset(b)[y] == multiset([x])[y] + multiset(b')[y];
      }
      assert multiset(a[1..]) == multiset(b');
      SumOverPermutation(a[1..], b', m);
      SumOverAppend(b[..i] + [x], b[i + 1..], m);
      SumOverAppend(b[..i], [x], m);
      SumOverAppend(b[..i], b[i + 1..], m);
    }
  }

  /** `popularities.sum`: the total of all counts. */
  function Sum(m: Popularities): (s: int)
    ensures m == map[] ==> s == 0
    ensures (forall k :: k in m ==> m[k] >= 0) ==> s >= 0
  {
    NonNegativeSum(SortedKeys(m.Keys), m);
    SumOver(SortedKeys(m.Keys), m)
  }

  lemma {:induction false} NonNegativeSum(keys: seq<FileId>, m: Popularities)
    ensures (forall k :: k in m ==> m[k] >= 0) ==> SumOver(keys, m) >= 0
    decreases |keys|
  {
    if |keys| > 0 {
      NonNegativeSum(keys[1..], m);
    }
  }

  /** Adding a fresh key adds its count to the total: together with `Sum(map[]) == 0`
      this pins `Sum` down as the total of all counts, whatever the key order. */
  lemma SumInsert(m: Popularities, k: FileId, v: int)
    requires k !in m
    ensures Sum(m[k := v]) == Sum(m) + v
  {
    InsertedKeys(m, k, v);
    SumOverCons(SortedKeys(m[k := v].Keys), SortedKeys(m.Keys), m, k, v);
  }

  /** Summing `m[k := v]` over an enumeration of `k` and the keys `ks` of `m` adds `v`
      to the sum of `m` over `ks`. */
  lemma SumOverCons(ks': seq<FileId>, ks: seq<FileId>, m: Popularities, k: FileId, v: int)
    requires k !in m && (forall i :: 0 <= i < |ks| ==> ks[i] in m)
    requires multiset(ks') == multiset([k] + ks)
    ensures SumOver(ks', m[k := v]) == v + SumOver(ks, m)
  {
    var m' := m[k := v];
    SumOverPermutation(ks', [k] + ks, m');
    assert SumOver([k] + ks, m') == v + SumOver(ks, m') by {
      assert ([k] + ks)[1..] == ks;
    }
    assert forall i :: 0 <= i < |ks| ==> Get(m, ks[i]) == Get(m', ks[i]) by {
      forall i | 0 <= i < |ks| ensures Get(m, ks[i]) == Get(m', ks[i]) {
        assert ks[i] in m;
      }
    }
    SumOverSameValues(ks, m, m');
  }

  /** The keys of `m` with a fresh key added are `k` followed by the keys of `m`, up to order. */
  lemma InsertedKeys(m: Popularities, k: FileId, v: int)
    requires k !in m
    ensures multiset(SortedKeys(m[k := v].Keys)) == multiset([k] + SortedKeys(m.Keys))
  {
    var ks := SortedKeys(m.Keys);
    var ks' := SortedKeys(m[k := v].Keys);
    ConsNoDup(k, ks);
    IncreasingNoDup(ks');
    assert forall x :: x in ks' <==> x in [k] + ks;
    SameElementsPermutation(ks', [k] + ks);
  }

  lemma ConsNoDup(k: FileId, ks: seq<FileId>)
    requires Increasing(ks) && k !in ks
    ensures NoDup([k] + ks)
  {
    forall i, j | 0 <= i < j < |[k] + ks| ensures ([k] + ks)[i] != ([k] + ks)[j] {
      assert ([k] + ks)[j] == ks[j - 1];
      if i > 0 {
        assert ([k] + ks)[i] == ks[i - 1];
      }
    }
  }

  lemma {:induction false} SumOverSameValues(keys: seq<FileId>, m: Popularities, m': Popularities)
    requires forall i :: 0 <= i < |keys| ==> Get(m, keys[i]) == Get(m', keys[i])
    ensures SumOver(keys, m) == SumOver(keys, m')
    decreases |keys|
  {
    if |keys| > 0 {
      SumOverSameValues(keys[1..], m, m');
    }
  }

  // ---------------------------------------------------------------- normalize

  /** The value of a float64 division of two counts: a real number, or the IEEE
      outcome of dividing by zero (NaN for 0/0, a signed infinity otherwise). */
  datatype Quotient = Real(r: real) | NaN | Infinity(positive: bool)

  function Div(v: int, s: int): (q: Quotient)
    ensures s != 0 ==> q == Real(v as real / s as real)
    ensures s == 0 ==> q.NaN? == (v == 0)
    ensures s == 0 && v != 0 ==> q == Infinity(v > 0)
  {
    if s != 0 then Real(v as real / s as real)
    else if v == 0 then NaN
    else Infinity(v > 0)
  }

  type NormalizedPopularities = map<FileId, Quotient>

  /** `popularities.normalize`: every count divided by the map's total. */
  function Normalize(m: Popularities): (n: NormalizedPopularities)
    ensures n.Keys == m.Keys
    ensures Sum(m) != 0 ==> forall k :: k in m ==> n[k] == Real(m[k] as real / Sum(m) as real)
    ensures Sum(m) == 0 ==> forall k :: k in m ==> n[k] == (if m[k] == 0 then NaN else Infinity(m[k] > 0))
  {
    var s := Sum(m);
    map k | k in m :: Div(m[k], s)
  }

  /** The real total of the finite values of a normalised map over `keys`. */
  function RealSumOver(keys: seq<FileId>, n: NormalizedPopularities): real {
    if |keys| == 0 then 0.0
    else (if keys[0] in n && n[keys[0]].Real? then n[keys[0]].r else 0.0) + RealSumOver(keys[1..], n)
  }

  lemma {:induction false} RealSumOverScaled(keys: seq<FileId>, m: Popularities, s: int, n: NormalizedPopularities)
    requires s != 0
    requires forall i :: 0 <= i < |keys| ==> keys[i] in m && keys[i] in n && n[keys[i]] == Div(m[keys[i]], s)
    ensures RealSumOver(keys, n) == SumOver(keys, m) as real / s as real
    decreases |keys|
  {
    if |keys| > 0 {
      RealSumOverScaled(keys[1..], m, s, n);
      var a := Get(m, keys[0]) as real;
      var b := SumOver(keys[1..], m) as real;
      assert a / s as real + b / s as real == (a + b) / s as real;
    }
  }

  /** Normalising non-negative counts with a positive total yields a probability
      distribution: every share lies in [0, 1] and the shares add up to 1. */
  lemma NormalizeIsDistribution(m: Popularities)
    requires forall k :: k in m ==> m[k] >= 0
    requires Sum(m) > 0
    ensures forall k :: k in m ==> Normalize(m)[k].Real? && 0.0 <= Normalize(m)[k].r <= 1.0
    ensures RealSumOver(SortedKeys(m.Keys), Normalize(m)) == 1.0
  {
    NormalizedShares(m);
    NormalizedTotal(m);
  }

  lemma NormalizedShares(m: Popularities)
    requires forall k :: k in m ==> m[k] >= 0
    requires Sum(m) > 0
    ensures forall k :: k in m ==> Normalize(m)[k].Real? && 0.0 <= Normalize(m)[k].r <= 1.0
  {
    var n := Normalize(m);
    forall k | k in m ensures n[k].Real? && 0.0 <= n[k].r <= 1.0 {
      CountBelowSum(SortedKeys(m.Keys), m, k);
      ShareBounds(m[k], Sum(m));
    }
  }

  lemma NormalizedTotal(m: Popularities)
    requires Sum(m) > 0
    ensures RealSumOver(SortedKeys(m.Keys), Normalize(m)) == 1.0
  {
    var keys := SortedKeys(m.Keys);
    var s := Sum(m);
    var n := Normalize(m);
    assert forall i :: 0 <= i < |keys| ==> keys[i] in m && keys[i] in n && n[keys[i]] == Div(m[keys[i]], s);
    RealSumOverScaled(keys, m, s, n);
    assert SumOver(keys, m) == s;
    WholeShare(s);
  }

  lemma WholeShare(s: int)
    requires s != 0
    ensures s as real / s as real == 1.0
  {
  }

  lemma ShareBounds(v: int, s: int)
    requires 0 <= v <= s && s > 0
    ensures 0.0 <= v as real / s as real <= 1.0
  {
  }

  lemma {:induction false} CountBelowSum(keys: seq<FileId>, m: Popularities, k: FileId)
    requires forall x :: x in m ==> m[x] >= 0
    requires k in keys
    ensures Get(m, k) <= SumOver(keys, m)
    decreases |keys|
  {
    NonNegativeSum(keys[1..], m);
    if keys[0] != k {
      CountBelowSum(keys[1..], m, k);
    }
  }

  // ---------------------------------------------------------------- table arithmetic

  /** `m[k] += v` for every `k, v` of `d`, creating missing keys as Go does. */
  function AddMap(m: Popularities, d: Popularities): (r: Popularities)
    ensures r.Keys == m.Keys + d.Keys
    ensures forall k :: Get(r, k) == Get(m, k) + Get(d, k)
  {
    map k | k in m.Keys + d.Keys :: Get(m, k) + Get(d, k)
  }

  /** `m[k] -= v` for every `k, v` of `d`; missing keys are created (with value `-v`). */
  function SubMap(m: Popularities, d: Popularities): (r: Popularities)
    ensures r.Keys == m.Keys + d.Keys
    ensures forall k :: Get(r, k) == Get(m, k) - Get(d, k)
  {
    map k | k in m.Keys + d.Keys :: Get(m, k) - Get(d, k)
  }

  /** Appends empty period maps until the table has at least `n` periods. */
  function Grow(t: Table, n: nat): (r: Table)
    ensures |r| == if |t| < n then n else |t|
    ensures r[..|t|] == t
    ensures forall pn :: |t| <= pn < |r| ==> r[pn] == map[]
  {
    if |t| < n then t + seq(n - |t|, _ => map[]) else t
  }

  /** The receiving side of an ownership transfer: the table grows to cover every
      period of `d`, and `d`'s counts are added period by period. */
  function AddTable(t: Table, d: Table): (r: Table)
    ensures |r| == if |t| < |d| then |d| else |t|
    ensures forall pn, k :: Count(r, pn, k) == Count(t, pn, k) + Count(d, pn, k)
    ensures forall pn :: 0 <= pn < |r| ==> r[pn].Keys == (if pn < |t| then t[pn].Keys else {}) + (if pn < |d| then d[pn].Keys else {})
  {
    var g := Grow(t, |d|);
    seq(|g|, pn requires 0 <= pn < |g| => if pn < |d| then AddMap(g[pn], d[pn]) else g[pn])
  }

  /** The losing side of an ownership transfer: `d`'s counts are subtracted period by
      period from the periods the table already has; periods it lacks stay absent. */
  function SubTable(t: Table, d: Table): (r: Table)
    ensures |r| == |t|
    ensures forall pn: nat, k :: Count(r, pn, k) == Count(t, pn, k) - (if pn < |t| then Count(d, pn, k) else 0)
    ensures forall pn :: 0 <= pn < |r| ==> r[pn].Keys == t[pn].Keys + (if pn < |d| then d[pn].Keys else {})
  {
    seq(|t|, pn requires 0 <= pn < |t| => if pn < |d| then SubMap(t[pn], d[pn]) else t[pn])
  }

  /** Two tables with the same periods, the same keys in each and the same counts
      are equal. */
  lemma TableEquality(a: Table, b: Table)
    requires |a| == |b|
    requires forall pn :: 0 <= pn < |a| ==> a[pn].Keys == b[pn].Keys
    requires forall pn: nat, k: FileId :: Count(a, pn, k) == Count(b, pn, k)
    ensures a == b
  {
    forall pn | 0 <= pn < |a|
      ensures a[pn] == b[pn]
    {
      forall k | k in a[pn]
        ensures a[pn][k] == b[pn][k]
      {
        assert Count(a, pn, k) == Count(b, pn, k);
      }
    }
  }
}

=== FILE: removal.dfy ===
/** The removal `sc.assignTo` evidently intends: the cell leaves its previous
    storage's member list for good.  The rest of the model keeps the operation as
    written; the two agree on a cell that belongs to no storage. */
module Removal {
  import opened Results
  import opened Collections
  import opened Popularity
  import opened State
  import opened Transfer

  /** `scl` without any occurrence of `sc`, in order: the member list the removal
      loop of `assignTo` evidently means to leave the previous storage with. */
  function Without(scl: seq<CellRef>, sc: CellRef): (r: seq<CellRef>)
    ensures forall x :: x in r <==> x in scl && x != sc
    ensures multiset(r)[sc] == 0 && forall x :: x != sc ==> multiset(r)[x] == multiset(scl)[x]
    ensures sc !in scl ==> r == scl
  {
    if |scl| == 0 then []
    else
      var rest := Without(scl[1..], sc);
      assert scl == [scl[0]] + scl[1..];
      if scl[0] == sc then rest else [scl[0]] + rest
  }

  /** The world with cell `sc` taken off its previous storage's member list, the
      shortened list written back. */
  function Detach(w: World, sc: CellRef): (r: World)
    requires RefsValid(w) && sc < |w.cells|
    ensures RefsValid(r) && SameShape(w, r)
    ensures r.cells == w.cells && r.smallCells == w.smallCells && r.clients == w.clients
    ensures |r.storages| == |w.storages|
    ensures forall x :: 0 <= x < |w.storages| ==>
      r.storages[x] == w.storages[x].(smallCells := if Some(x) == w.cells[sc].cacheStorage
                                                    then Without(w.storages[x].smallCells, sc)
                                                    else w.storages[x].smallCells)
  {
    var ocs := w.cells[sc].cacheStorage;
    if ocs.None? then w
    else w.(storages := w.storages[ocs.value := w.storages[ocs.value].(smallCells := Without(w.storages[ocs.value].smallCells, sc))])
  }

  /** `sc.assignTo(cs)` with the removal it evidently intends: the cell leaves its
      previous storage's member list for good, then joins `cs` and moves its demand
      as the operation as written does. */
  function CellAssignToCorrected(w: World, sc: CellRef, cs: StorageRef): (r: Result<World>)
    requires RefsValid(w) && sc < |w.cells| && cs < |w.storages|
    ensures r.Success? ==> RefsValid(r.value) && SameShape(w, r.value)
    ensures r.Success? ==> r.value.smallCells == w.smallCells && r.value.clients == w.clients
  {
    CellAssignTo(Detach(w, sc), sc, cs)
  }

  /** With the intended removal, `assignTo` panics only when the cell leaves another
      storage lacking a period in which the cell has demand: the position of the cell
      in its previous storage's list no longer matters. */
  lemma CellAssignToCorrectedFailure(w: World, sc: CellRef, cs: StorageRef)
    requires RefsValid(w) && sc < |w.cells| && cs < |w.storages|
    ensures var ocs := w.cells[sc].cacheStorage;
      var d := w.cells[sc].popularitiesAccumulated;
      CellAssignToCorrected(w, sc, cs).Failure? <==>
        (ocs.Some? && ocs.value != cs && exists p :: |w.storages[ocs.value].popularitiesAccumulated| <= p < |d| && d[p] != map[])
  {
    var w0 := Detach(w, sc);
    CellAssignToFailure(w0, sc, cs);
    var ocs := w.cells[sc].cacheStorage;
    if ocs.Some? {
      var l := w0.storages[ocs.value].smallCells;
      assert l == Without(w.storages[ocs.value].smallCells, sc);
      assert forall i :: 0 <= i < |l| ==> l[i] in l;
    }
  }

  /** With the intended removal, the cell records `cs` and is appended to its list,
      its previous storage no longer lists it, no other list changes, and `cs` gains
      the cell's demand as in the operation as written. */
  lemma CellAssignToCorrectedEffect(w: World, sc: CellRef, cs: StorageRef)
    requires RefsValid(w) && sc < |w.cells| && cs < |w.storages|
    requires CellAssignToCorrected(w, sc, cs).Success?
    ensures var w' := CellAssignToCorrected(w, sc, cs).value;
      w'.cells == w.cells[sc := w.cells[sc].(cacheStorage := Some(cs))]
    ensures var w' := CellAssignToCorrected(w, sc, cs).value;
      var before := w.storages[cs].smallCells;
      w'.storages[cs].smallCells == (if w.cells[sc].cacheStorage == Some(cs) then Without(before, sc) else before) + [sc]
    ensures var w' := CellAssignToCorrected(w, sc, cs).value;
      forall x :: 0 <= x < |w.storages| && x != cs ==>
        w'.storages[x].smallCells == if Some(x) == w.cells[sc].cacheStorage then Without(w.storages[x].smallCells, sc) else w.storages[x].smallCells
    ensures var w' := CellAssignToCorrected(w, sc, cs).value;
      forall x :: 0 <= x < |w.storages| && x != cs && Some(x) == w.cells[sc].cacheStorage ==> sc !in w'.storages[x].smallCells
    ensures var w' := CellAssignToCorrected(w, sc, cs).value;
      w'.storages[cs].popularitiesAccumulated
        == JoinedTable(w.storages[cs].popularitiesAccumulated, ModeOf(w, sc, cs), w.cells[sc].popularitiesAccumulated)
  {
    var w0 := Detach(w, sc);
    CellAssignToEffect(w0, sc, cs);
    CellAssignToDemand(w0, sc, cs);
  }

  /** For a cell that belongs to no storage yet, as in every arrangement that follows
      `clustering`, the operation as written and the corrected one agree. */
  lemma CellAssignToCorrectedAgrees(w: World, sc: CellRef, cs: StorageRef)
    requires RefsValid(w) && sc < |w.cells| && cs < |w.storages|
    requires w.cells[sc].cacheStorage.None?
    ensures CellAssignToCorrected(w, sc, cs) == CellAssignTo(w, sc, cs)
  {
  }

  /** The removal loop as written on a two-member list: removing the first member
      indexes past the shortened copy and panics, while removing the last member
      succeeds with a shortened copy that `assignTo` never writes back; the intended
      removal gives the other member alone in both cases. */
  lemma RemovalOverrun()
    ensures RemovalLoop([0, 1], 0, 0, 2).Failure?
    ensures RemovalLoop([1, 0], 0, 0, 2) == Success([1])
    ensures Without([0, 1], 0) == [1] && Without([1, 0], 0) == [1]
  {
    assert [0, 1][..0] + [0, 1][1..] == [1];
    assert [1, 0][..1] + [1, 0][2..] == [1];
  }
}

=== FILE: results.dfy ===
/** Failure-compatible result type for the simulator model.  Every place where the
    simulator would stop with a run-time panic (an index out of range, a nil
    dereference, a failing clustering call) yields a `Failure`. */
module Results {

  datatype Option<+T> = None | Some(value: T)

  /** The ways a simulator step can abort. */
  datatype Error =
    | IndexOutOfRange   // a slice index or slice bound outside the slice
    | NilReference      // a method or field access through a nil pointer
    | PredictionFailed  // the clustering model could not classify a point
    | LearnFailed       // the clustering model could not be trained

  datatype Result<+T> = Success(value: T) | Failure(error: Error) {
    predicate IsFailure() {
      Failure?
    }

    function PropagateFailure<U>(): Result<U>
      requires Failure?
    {
      Failure(error)
    }

    function Extract(): T
      requires Success?
    {
      value
    }
  }

  /** Element `i` of `s`, or the panic that indexing `s[i]` raises. */
  function At<T>(s: seq<T>, i: int): (r: Result<T>)
    ensures r.Success? <==> 0 <= i < |s|
    ensures r.Success? ==> r.value == s[i]
  {
    if 0 <= i < |s| then Success(s[i]) else Failure(IndexOutOfRange)
  }
}

=== FILE: serving.dfy ===
/** The serving side of the simulator: `preProcess`, the per-request byte
    accounting of `period.serve`, `endPeriod`, the period loop `periodList.serve`,
    and the download ratios computed by both `calRate`s. */
module Serving {
  import opened Results
  import opened Collections
  import opened Popularity
  import opened Files
  import opened State
  import opened Cooperation
  import opened Assignment

  // ---------------------------------------------------------------- calRate

  /** `stats.calRate`: the share of requested bytes that had to be downloaded. */
  function DownloadRate(downloaded: int, served: int): (q: Quotient)
    ensures 0 <= downloaded && 0 <= served && downloaded + served > 0 ==>
      q.Real? && 0.0 <= q.r <= 1.0 && (q.r == 0.0 <==> downloaded == 0) && (q.r == 1.0 <==> served == 0)
    ensures downloaded == 0 && served == 0 ==> q.NaN?
  {
    var q := Div(downloaded, downloaded + served);
    if 0 <= downloaded && 0 <= served && downloaded + served > 0 then
      RatioBounds(downloaded, served);
      q
    else q
  }

  lemma RatioBounds(d: int, s: int)
    requires 0 <= d && 0 <= s && d + s > 0
    ensures var x := d as real / (d + s) as real;
      0.0 <= x <= 1.0 && (x == 0.0 <==> d == 0) && (x == 1.0 <==> s == 0)
  {
    var t := (d + s) as real;
    var x := d as real / t;
    assert x * t == d as real;
    if x >= 1.0 {
      assert (x - 1.0) * t >= 0.0;
      assert d as real >= t;
    }
    if s == 0 {
      assert (x - 1.0) * t == 0.0;
    }
  }

  /** The rate of `d` downloaded and `s` served bytes is at most `x`, or nothing was requested. */
  ghost predicate RateAtMost(d: int, s: int, x: real) {
    d + s == 0 || (DownloadRate(d, s).Real? && DownloadRate(d, s).r <= x)
  }

  /** The rate of `d` downloaded and `s` served bytes is at least `x`, or nothing was requested. */
  ghost predicate RateAtLeast(d: int, s: int, x: real) {
    d + s == 0 || (DownloadRate(d, s).Real? && DownloadRate(d, s).r >= x)
  }

  lemma RateBoundsAsProducts(d: int, s: int, x: real)
    requires 0 <= d && 0 <= s
    ensures RateAtMost(d, s, x) <==> (d as real <= x * (d + s) as real)
    ensures RateAtLeast(d, s, x) <==> (d as real >= x * (d + s) as real)
  {
    if d + s > 0 {
      var t := (d + s) as real;
      var q := d as real / t;
      assert DownloadRate(d, s) == Real(q);
      assert q * t == d as real;
      if q <= x {
        assert q * t <= x * t;
      }
      if d as real <= x * t {
        assert q * t <= x * t;
      }
      if q >= x {
        assert q * t >= x * t;
      }
      if d as real >= x * t {
        assert q * t >= x * t;
      }
    }
  }

  /** The bytes downloaded over a list of periods. */
  function TotalDownloaded(pl: seq<Period>): int {
    if |pl| == 0 then 0 else pl[0].downloaded + TotalDownloaded(pl[1..])
  }

  /** The bytes served from cache over a list of periods. */
  function TotalServed(pl: seq<Period>): int {
    if |pl| == 0 then 0 else pl[0].served + TotalServed(pl[1..])
  }

  /** `periodList.calRate`: the download ratio of the whole list, pooled over its
      bytes (not an average of the period ratios). */
  function PeriodListRate(pl: seq<Period>): (q: Quotient)
    ensures q == DownloadRate(TotalDownloaded(pl), TotalServed(pl))
  {
    Div(TotalDownloaded(pl), TotalDownloaded(pl) + TotalServed(pl))
  }

  /** Every period's counters are non-negative. */
  ghost predicate CountersNonNegative(pl: seq<Period>) {
    forall j :: 0 <= j < |pl| ==> 0 <= pl[j].downloaded && 0 <= pl[j].served
  }

  lemma {:induction false} TotalsNonNegative(pl: seq<Period>)
    requires CountersNonNegative(pl)
    ensures 0 <= TotalDownloaded(pl) && 0 <= TotalServed(pl)
    decreases |pl|
  {
    if |pl| > 0 {
      TotalsNonNegative(pl[1..]);
    }
  }

  /** A bound `d <= x * (d + s)` that holds for every period holds for the totals. */
  lemma {:induction false} TotalsBelow(pl: seq<Period>, x: real)
    requires forall j :: 0 <= j < |pl| ==> pl[j].downloaded as real <= x * (pl[j].downloaded + pl[j].served) as real
    ensures TotalDownloaded(pl) as real <= x * (TotalDownloaded(pl) + TotalServed(pl)) as real
    decreases |pl|
  {
    if |pl| > 0 {
      assert forall j :: 0 <= j < |pl[1..]| ==> pl[1..][j] == pl[j + 1];
      TotalsBelow(pl[1..], x);
      var d, s := pl[0].downloaded, pl[0].served;
      var rd, rs := TotalDownloaded(pl[1..]), TotalServed(pl[1..]);
      assert x * (d + rd + s + rs) as real == x * (d + s) as real + x * (rd + rs) as real;
    }
  }

  /** A bound `d >= y * (d + s)` that holds for every period holds for the totals. */
  lemma {:induction false} TotalsAbove(pl: seq<Period>, y: real)
    requires forall j :: 0 <= j < |pl| ==> pl[j].downloaded as real >= y * (pl[j].downloaded + pl[j].served) as real
    ensures TotalDownloaded(pl) as real >= y * (TotalDownloaded(pl) + TotalServed(pl)) as real
    decreases |pl|
  {
    if |pl| > 0 {
      assert forall j :: 0 <= j < |pl[1..]| ==> pl[1..][j] == pl[j + 1];
      TotalsAbove(pl[1..], y);
      var d, s := pl[0].downloaded, pl[0].served;
      var rd, rs := TotalDownloaded(pl[1..]), TotalServed(pl[1..]);
      assert y * (d + rd + s + rs) as real == y * (d + s) as real + y * (rd + rs) as real;
    }
  }

  lemma PeriodsBelow(pl: seq<Period>, x: real)
    requires CountersNonNegative(pl)
    requires forall j :: 0 <= j < |pl| ==> RateAtMost(pl[j].downloaded, pl[j].served, x)
    ensures forall j :: 0 <= j < |pl| ==> pl[j].downloaded as real <= x * (pl[j].downloaded + pl[j].served) as real
  {
    forall j | 0 <= j < |pl| ensures pl[j].downloaded as real <= x * (pl[j].downloaded + pl[j].served) as real {
      RateBoundsAsProducts(pl[j].downloaded, pl[j].served, x);
    }
  }

  /** The pooled ratio is bounded above like the period ratios: when no period's
      ratio exceeds `x`, neither does the list's. */
  lemma PeriodListRateAtMost(pl: seq<Period>, x: real)
    requires CountersNonNegative(pl)
    requires forall j :: 0 <= j < |pl| ==> RateAtMost(pl[j].downloaded, pl[j].served, x)
    ensures RateAtMost(TotalDownloaded(pl), TotalServed(pl), x)
  {
    PeriodsBelow(pl, x);
    TotalsBelow(pl, x);
    TotalsNonNegative(pl);
    RateBoundsAsProducts(TotalDownloaded(pl), TotalServed(pl), x);
  }

  lemma PeriodsAbove(pl: seq<Period>, y: real)
    requires CountersNonNegative(pl)
    requires forall j :: 0 <= j < |pl| ==> RateAtLeast(pl[j].downloaded, pl[j].served, y)
    ensures forall j :: 0 <= j < |pl| ==> pl[j].downloaded as real >= y * (pl[j].downloaded + pl[j].served) as real
  {
    forall j | 0 <= j < |pl| ensures pl[j].downloaded as real >= y * (pl[j].downloaded + pl[j].served) as real {
      RateBoundsAsProducts(pl[j].downloaded, pl[j].served, y);
    }
  }

  /** The pooled ratio is bounded below like the period ratios: when no period's
      ratio falls below `y`, neither does the list's. */
  lemma PeriodListRateAtLeast(pl: seq<Period>, y: real)
    requires CountersNonNegative(pl)
    requires forall j :: 0 <= j < |pl| ==> RateAtLeast(pl[j].downloaded, pl[j].served, y)
    ensures RateAtLeast(TotalDownloaded(pl), TotalServed(pl), y)
  {
    PeriodsAbove(pl, y);
    TotalsAbove(pl, y);
    var d, s := TotalDownloaded(pl), TotalServed(pl);
    assert d as real >= y * (d + s) as real;
    TotalsNonNegative(pl);
    RateBoundsAsProducts(d, s, y);
  }

  // ---------------------------------------------------------------- the filter of a period

  /** `fl[:n]` on a file list built with capacity equal to its length: a bound
      outside `0..len` panics, and the nil list stays nil. */
  function Prefix(fl: FileList, n: int): (r: Result<FileList>)
    ensures r.Success? <==> 0 <= n <= fl.Len()
    ensures r.Success? ==> r.value.Nil? == fl.Nil? && r.value.Elems() == fl.Elems()[..n]
  {
    if !(0 <= n <= fl.Len()) then Failure(IndexOutOfRange)
    else if fl.Nil? then Success(Nil)
    else Success(List(fl.elems[..n]))
  }

  /** A request for `f` is skipped: the filter is non-empty and does not hold `f`. */
  predicate Skipped(filter: FileList, f: FileId) {
    filter.Len() != 0 && !Has(filter, f)
  }

  /** Every request of every period names a known client and a known file, and every
      recorded new client is known. */
  ghost predicate PeriodKnown(w: World, p: Period) {
    && (forall i :: 0 <= i < |p.requests| ==> p.requests[i].client in w.clients && p.requests[i].file in w.files)
    && (forall k :: 0 <= k < |p.newClients| ==> p.newClients[k] in w.clients)
  }

  /** The cache policy never reports more bytes resident than the file has. */
  ghost predicate CacheBounded(env: Environment, files: map<FileId, File>) {
    forall s, f, ref :: f in files ==> 0 <= env.cacheFile(s, f, ref) <= files[f].size
  }

  // ---------------------------------------------------------------- period.serve

  /** A client `period.serve` treats as new: it has no small cell and its accumulated
      table for the previous period exists and is empty. */
  ghost predicate IsNewClient(w: World, c: ClientId)
    requires c in w.clients
  {
    var acc := w.clients[c].popularityAccumulated;
    && w.clients[c].smallCell.None?
    && 0 <= w.periodNo - 1 < |acc|
    && |acc[w.periodNo - 1]| == 0
  }

  /** Why placing a client without a small cell panics: its table for the previous
      period is missing, or the assigner chosen by that table fails. */
  ghost predicate PlaceFails(w: World, env: Environment, config: Config, c: ClientId, f: FileId, filter: FileList, ref: RequestRef)
    requires Valid(w) && c in w.clients && HoldersValid(env, |w.cells|)
  {
    var acc := w.clients[c].popularityAccumulated;
    || !(0 <= w.periodNo - 1 < |acc|)
    || (|acc[w.periodNo - 1]| == 0 && AssignNewClient(w, env, c, f, ref).Failure?)
    || (|acc[w.periodNo - 1]| > 0 && Assign(w, env, config, c, filter).Failure?)
  }

  /** The placement step of `period.serve`: a client without a small cell that has no
      demand in the previous period is placed by `assignNewClient` and recorded as a
      new client; one with earlier demand goes through `assign`.  A client that has a
      cell keeps it. */
  function Place(w: World, env: Environment, config: Config, p: Period, c: ClientId, f: FileId, filter: FileList, ref: RequestRef): (r: Result<(World, Period)>)
    requires Valid(w) && c in w.clients && HoldersValid(env, |w.cells|)
    ensures w.clients[c].smallCell.Some? ==> r == Success((w, p))
    ensures w.clients[c].smallCell.None? ==> (r.Failure? <==> PlaceFails(w, env, config, c, f, filter, ref))
    ensures r.Success? ==> (r.value.1 == p.(newClients := p.newClients + [c]) <==> IsNewClient(w, c))
    ensures r.Success? && IsNewClient(w, c) ==> r.value.0 == AssignNewClient(w, env, c, f, ref).value
    ensures r.Success? && w.clients[c].smallCell.None? && !IsNewClient(w, c) ==> r.value.0 == Assign(w, env, config, c, filter).value
    ensures r.Success? ==> Valid(r.value.0) && SameShape(w, r.value.0) && StoragesKeep(w, r.value.0)
    ensures r.Success? ==> r.value.0.clients[c].smallCell.Some?
    ensures r.Success? ==> forall c' :: c' in w.clients && c' != c ==> r.value.0.clients[c'] == w.clients[c']
    ensures r.Success? ==> r.value.1 == p || r.value.1 == p.(newClients := p.newClients + [c])
    ensures r.Success? && r.value.1 != p ==> w.clients[c].smallCell.None?
  {
    var recorded := p.(newClients := p.newClients + [c]);
    assert |recorded.newClients| == |p.newClients| + 1;
    if w.clients[c].smallCell.Some? then Success((w, p))
    else
      var t := At(w.clients[c].popularityAccumulated, w.periodNo - 1);
      if t.Failure? then Failure(t.error)
      else if |t.value| == 0 then
        var w' := AssignNewClient(w, env, c, f, ref);
        if w'.Failure? then Failure(w'.error)
        else Success((w'.value, recorded))
      else
        var w' := Assign(w, env, config, c, filter);
        if w'.Failure? then Failure(w'.error)
        else Success((w'.value, p))
  }

  /** The bytes served by all storages, from cache or downloaded. */
  function Traffic(ss: seq<CacheStorage>): int {
    if |ss| == 0 then 0 else ss[0].served + ss[0].downloaded + Traffic(ss[1..])
  }

  /** The accounting step of `period.serve`: `cached` of the file's `size` bytes count as
      served and the rest as downloaded, at storage `s` and at the period. */
  function Account(w: World, p: Period, s: StorageRef, size: int, cached: int): (r: (World, Period))
    requires s < |w.storages|
    ensures r.1 == p.(served := r.1.served, downloaded := r.1.downloaded)
    ensures r.0 == w.(storages := r.0.storages) && |r.0.storages| == |w.storages|
    ensures r.0.storages[s] == w.storages[s].(served := r.0.storages[s].served, downloaded := r.0.storages[s].downloaded)
    ensures r.1.served == p.served + cached && r.0.storages[s].served == w.storages[s].served + cached
    ensures r.1.served + r.1.downloaded == p.served + p.downloaded + size
    ensures r.0.storages[s].served + r.0.storages[s].downloaded == w.storages[s].served + w.storages[s].downloaded + size
    ensures forall x :: 0 <= x < |w.storages| && x != s ==> r.0.storages[x] == w.storages[x]
  {
    var st := w.storages[s];
    (w.(storages := w.storages[s := st.(served := st.served + cached, downloaded := st.downloaded + size - cached)]),
     p.(served := p.served + cached, downloaded := p.downloaded + size - cached))
  }

  /** Changing one storage changes the total traffic by that storage's change. */
  lemma {:induction false} TrafficUpdate(ss: seq<CacheStorage>, s: nat, st: CacheStorage)
    requires s < |ss|
    ensures Traffic(ss[s := st]) == Traffic(ss) - (ss[s].served + ss[s].downloaded) + (st.served + st.downloaded)
    decreases |ss|
  {
    if s > 0 {
      TrafficUpdate(ss[1..], s - 1, st);
      assert ss[s := st][1..] == ss[1..][s - 1 := st];
    } else {
      assert ss[s := st][1..] == ss[1..];
    }
  }

  /** Storages that differ only in their member lists carry the same traffic. */
  lemma {:induction false} TrafficKeep(ss: seq<CacheStorage>, ss': seq<CacheStorage>)
    requires |ss'| == |ss|
    requires forall x :: 0 <= x < |ss| ==> ss'[x] == ss[x].(smallCells := ss'[x].smallCells)
    ensures Traffic(ss') == Traffic(ss)
    decreases |ss|
  {
    if |ss| > 0 {
      assert ss'[0] == ss[0].(smallCells := ss'[0].smallCells);
      forall x | 0 <= x < |ss[1..]| ensures ss'[1..][x] == ss[1..][x].(smallCells := ss'[1..][x].smallCells) {
        assert ss'[1..][x] == ss'[x + 1] && ss[1..][x] == ss[x + 1];
      }
      TrafficKeep(ss[1..], ss'[1..]);
    }
  }

  /** The delivery step of `period.serve` for a placed client: the request's bytes are
      accounted to the storage of the client's small cell, whose absence panics. */
  function Deliver(w: World, env: Environment, p: Period, c: ClientId, f: FileId, ref: RequestRef): (r: Result<(World, Period)>)
    requires Valid(w) && c in w.clients && w.clients[c].smallCell.Some? && f in w.files
    ensures r.Failure? <==> w.cells[w.clients[c].smallCell.value].cacheStorage.None?
    ensures r.Success? ==> Valid(r.value.0) && r.value.0 == w.(storages := r.value.0.storages)
    ensures r.Success? ==> r.value.1 == p.(served := r.value.1.served, downloaded := r.value.1.downloaded)
    ensures r.Success? ==> r.value.1.served + r.value.1.downloaded == p.served + p.downloaded + w.files[f].size
    ensures r.Success? ==> Traffic(r.value.0.storages) == Traffic(w.storages) + w.files[f].size
    ensures r.Success? && CacheBounded(env, w.files) ==> p.served <= r.value.1.served && p.downloaded <= r.value.1.downloaded
  {
    var k := w.clients[c].smallCell.value;
    if w.cells[k].cacheStorage.None? then Failure(NilReference)
    else
      var s := w.cells[k].cacheStorage.value;
      var st := w.storages[s];
      var cached := env.cacheFile(s, f, ref);
      var size := w.files[f].size;
      var r := Account(w, p, s, size, cached);
      TrafficUpdate(w.storages, s, r.0.storages[s]);
      assert r.0.storages == w.storages[s := r.0.storages[s]];
      Success(r)
  }

  /** One iteration of `period.serve` for request `i`: a skipped request changes
      nothing; otherwise the client is placed if needed and then served. */
  function ServeRequest(w: World, env: Environment, config: Config, p: Period, filter: FileList, i: nat): (r: Result<(World, Period)>)
    requires Valid(w) && HoldersValid(env, |w.cells|) && PeriodKnown(w, p) && i < |p.requests|
    ensures Skipped(filter, p.requests[i].file) ==> r == Success((w, p))
    ensures r.Success? ==> Valid(r.value.0) && SameShape(w, r.value.0)
    ensures r.Success? ==> r.value.1 == p.(served := r.value.1.served, downloaded := r.value.1.downloaded, newClients := r.value.1.newClients)
    ensures r.Success? ==> r.value.1.newClients == p.newClients || r.value.1.newClients == p.newClients + [p.requests[i].client]
    ensures r.Success? && !Skipped(filter, p.requests[i].file) ==> r.value.0.clients[p.requests[i].client].smallCell.Some?
    ensures r.Success? ==> forall c' :: c' in w.clients && c' != p.requests[i].client ==> r.value.0.clients[c'] == w.clients[c']
  {
    var req := p.requests[i];
    if Skipped(filter, req.file) then Success((w, p))
    else
      var placed := Place(w, env, config, p, req.client, req.file, filter, RequestRef(p.id, i));
      if placed.Failure? then Failure(placed.error)
      else Deliver(placed.value.0, env, placed.value.1, req.client, req.file, RequestRef(p.id, i))
  }

  /** A client whose small cell has no cache storage cannot be served. */
  lemma ServeRequestNoStorage(w: World, env: Environment, config: Config, p: Period, filter: FileList, i: nat)
    requires Valid(w) && HoldersValid(env, |w.cells|) && PeriodKnown(w, p) && i < |p.requests|
    requires !Skipped(filter, p.requests[i].file)
    requires var c := w.clients[p.requests[i].client]; c.smallCell.Some? && w.cells[c.smallCell.value].cacheStorage.None?
    ensures ServeRequest(w, env, config, p, filter, i) == Failure(NilReference)
  {
  }

  /** Byte accounting of one request: a request that is not skipped raises
      served + downloaded by exactly the file's size, at the period and summed over
      all storages, and neither counter of the period decreases. */
  lemma ServeRequestAccounting(w: World, env: Environment, config: Config, p: Period, filter: FileList, i: nat)
    requires Valid(w) && HoldersValid(env, |w.cells|) && PeriodKnown(w, p) && i < |p.requests|
    requires CacheBounded(env, w.files)
    requires ServeRequest(w, env, config, p, filter, i).Success?
    ensures var (w', p') := ServeRequest(w, env, config, p, filter, i).value;
      var size := if Skipped(filter, p.requests[i].file) then 0 else w.files[p.requests[i].file].size;
      && p'.served + p'.downloaded == p.served + p.downloaded + size
      && Traffic(w'.storages) == Traffic(w.storages) + size
      && p.served <= p'.served && p.downloaded <= p'.downloaded
  {
    var req := p.requests[i];
    if !Skipped(filter, req.file) {
      var placed := Place(w, env, config, p, req.client, req.file, filter, RequestRef(p.id, i));
      TrafficKeep(w.storages, placed.value.0.storages);
    }
  }

  /** The bytes of the requests that a filter lets through. */
  function PassedBytes(files: map<FileId, File>, reqs: seq<Request>, filter: FileList): int
    requires forall i :: 0 <= i < |reqs| ==> reqs[i].file in files
  {
    if |reqs| == 0 then 0
    else (if Skipped(filter, reqs[0].file) then 0 else files[reqs[0].file].size) + PassedBytes(files, reqs[1..], filter)
  }

  /** The request loop of `period.serve` from request `i` on. */
  function ServeFrom(w: World, env: Environment, config: Config, p: Period, filter: FileList, i: nat): (r: Result<(World, Period)>)
    requires Valid(w) && HoldersValid(env, |w.cells|) && PeriodKnown(w, p) && i <= |p.requests|
    ensures r.Success? ==> Valid(r.value.0) && SameShape(w, r.value.0)
    ensures r.Success? ==> r.value.1 == p.(served := r.value.1.served, downloaded := r.value.1.downloaded, newClients := r.value.1.newClients)
    ensures r.Success? ==> |p.newClients| <= |r.value.1.newClients| && r.value.1.newClients[..|p.newClients|] == p.newClients
    ensures r.Success? ==> PeriodKnown(r.value.0, r.value.1)
    ensures r.Success? ==> forall c :: c in w.clients && w.clients[c].smallCell.Some? ==> r.value.0.clients[c].smallCell.Some?
    ensures r.Success? ==> forall j :: i <= j < |p.requests| && !Skipped(filter, p.requests[j].file) ==>
      r.value.0.clients[p.requests[j].client].smallCell.Some?
    decreases |p.requests| - i
  {
    if i == |p.requests| then Success((w, p))
    else
      var x := ServeRequest(w, env, config, p, filter, i);
      if x.Failure? then Failure(x.error)
      else
        var (w1, p1) := x.value;
        StepKeepsKnown(w, p, i, w1, p1);
        var r := ServeFrom(w1, env, config, p1, filter, i + 1);
        if r.Success? then
          ServeFromJoin(w, p, filter, i, w1, p1, r.value.0, r.value.1);
          r
        else r
  }

  /** Serving request `i` keeps every request's client and file, and every new
      client, registered. */
  lemma StepKeepsKnown(w: World, p: Period, i: nat, w1: World, p1: Period)
    requires PeriodKnown(w, p) && i < |p.requests| && SameShape(w, w1)
    requires p1 == p.(served := p1.served, downloaded := p1.downloaded, newClients := p1.newClients)
    requires p1.newClients == p.newClients || p1.newClients == p.newClients + [p.requests[i].client]
    ensures PeriodKnown(w1, p1)
  {
    forall k | 0 <= k < |p1.newClients| ensures p1.newClients[k] in w1.clients {
      if k >= |p.newClients| {
        assert p1.newClients[k] == p.requests[i].client;
      } else {
        assert p1.newClients[k] == p.newClients[k];
      }
    }
  }

  /** What request `i` and the loop from `i + 1` guarantee adds up to what the loop
      from `i` promises. */
  lemma ServeFromJoin(w: World, p: Period, filter: FileList, i: nat, w1: World, p1: Period, w2: World, p2: Period)
    requires PeriodKnown(w, p) && i < |p.requests| && SameShape(w, w1) && SameShape(w1, w2)
    requires Skipped(filter, p.requests[i].file) ==> w1 == w && p1 == p
    requires p1 == p.(served := p1.served, downloaded := p1.downloaded, newClients := p1.newClients)
    requires p1.newClients == p.newClients || p1.newClients == p.newClients + [p.requests[i].client]
    requires !Skipped(filter, p.requests[i].file) ==> w1.clients[p.requests[i].client].smallCell.Some?
    requires forall c' :: c' in w.clients && c' != p.requests[i].client ==> w1.clients[c'] == w.clients[c']
    requires p2 == p1.(served := p2.served, downloaded := p2.downloaded, newClients := p2.newClients)
    requires |p1.newClients| <= |p2.newClients| && p2.newClients[..|p1.newClients|] == p1.newClients
    requires forall c :: c in w1.clients && w1.clients[c].smallCell.Some? ==> w2.clients[c].smallCell.Some?
    requires forall j :: i + 1 <= j < |p1.requests| && !Skipped(filter, p1.requests[j].file) ==>
      w2.clients[p1.requests[j].client].smallCell.Some?
    ensures SameShape(w, w2)
    ensures p2 == p.(served := p2.served, downloaded := p2.downloaded, newClients := p2.newClients)
    ensures |p.newClients| <= |p2.newClients| && p2.newClients[..|p.newClients|] == p.newClients
    ensures forall c :: c in w.clients && w.clients[c].smallCell.Some? ==> w2.clients[c].smallCell.Some?
    ensures forall j :: i <= j < |p.requests| && !Skipped(filter, p.requests[j].file) ==>
      w2.clients[p.requests[j].client].smallCell.Some?
  {
    assert p2.newClients[..|p.newClients|] == p2.newClients[..|p1.newClients|][..|p.newClients|];
    forall c | c in w.clients && w.clients[c].smallCell.Some? ensures w2.clients[c].smallCell.Some? {
      assert c in w1.clients && w1.clients[c].smallCell.Some?;
    }
    forall j | i <= j < |p.requests| && !Skipped(filter, p.requests[j].file)
      ensures w2.clients[p.requests[j].client].smallCell.Some?
    {
      if j == i {
        assert w1.clients[p.requests[i].client].smallCell.Some?;
      } else {
        assert p1.requests[j] == p.requests[j];
      }
    }
  }

  /** One step of the request loop: it serves request `i` and continues from `i + 1`. */
  lemma ServeFromStep(w: World, env: Environment, config: Config, p: Period, filter: FileList, i: nat)
    requires Valid(w) && HoldersValid(env, |w.cells|) && PeriodKnown(w, p) && i < |p.requests|
    requires ServeFrom(w, env, config, p, filter, i).Success?
    ensures ServeRequest(w, env, config, p, filter, i).Success?
    ensures var (w1, p1) := ServeRequest(w, env, config, p, filter, i).value;
      && Valid(w1) && HoldersValid(env, |w1.cells|) && PeriodKnown(w1, p1) && p1.requests == p.requests
      && ServeFrom(w, env, config, p, filter, i) == ServeFrom(w1, env, config, p1, filter, i + 1)
  {
    var (w1, p1) := ServeRequest(w, env, config, p, filter, i).value;
    StepKeepsKnown(w, p, i, w1, p1);
  }

  /** Byte accounting of the request loop: served + downloaded grow by exactly the
      bytes of the requests the filter lets through, at the period and summed over
      all storages, and no counter of the period decreases. */
  lemma {:induction false} ServeFromAccounting(w: World, env: Environment, config: Config, p: Period, filter: FileList, i: nat)
    requires Valid(w) && HoldersValid(env, |w.cells|) && PeriodKnown(w, p) && i <= |p.requests|
    requires CacheBounded(env, w.files)
    requires ServeFrom(w, env, config, p, filter, i).Success?
    ensures var (w', p') := ServeFrom(w, env, config, p, filter, i).value;
      && p'.served + p'.downloaded == p.served + p.downloaded + PassedBytes(w.files, p.requests[i..], filter)
      && Traffic(w'.storages) == Traffic(w.storages) + PassedBytes(w.files, p.requests[i..], filter)
      && p.served <= p'.served && p.downloaded <= p'.downloaded
    decreases |p.requests| - i
  {
    var reqs := p.requests[i..];
    if i < |p.requests| {
      var (w1, p1) := ServeRequest(w, env, config, p, filter, i).value;
      ServeRequestAccounting(w, env, config, p, filter, i);
      ServeFromStep(w, env, config, p, filter, i);
      ServeFromAccounting(w1, env, config, p1, filter, i + 1);
      assert reqs[0] == p.requests[i];
      assert reqs[1..] == p1.requests[i + 1..];
    }
  }

  /** `period.serve`: the period becomes the current one and all of its requests are served in order. */
  function Serve(w: World, env: Environment, config: Config, p: Period, filter: FileList): (r: Result<(World, Period)>)
    requires Valid(w) && HoldersValid(env, |w.cells|) && PeriodKnown(w, p)
    ensures r.Success? ==> Valid(r.value.0) && SameShape(w.(periodNo := p.id), r.value.0) && r.value.0.periodNo == p.id
    ensures r.Success? ==> r.value.1 == p.(served := r.value.1.served, downloaded := r.value.1.downloaded, newClients := r.value.1.newClients)
    ensures r.Success? ==> PeriodKnown(r.value.0, r.value.1)
  {
    ServeFrom(w.(periodNo := p.id), env, config, p, filter, 0)
  }

  // ---------------------------------------------------------------- endPeriod

  /** The loop of `endPeriod` from position `i` on: every listed client is assigned again. */
  function AssignAll(w: World, env: Environment, config: Config, cs: seq<ClientId>, filter: FileList, i: nat): (r: Result<World>)
    requires Valid(w) && i <= |cs| && forall k :: 0 <= k < |cs| ==> cs[k] in w.clients
    ensures r.Success? ==> Valid(r.value) && SameShape(w, r.value) && StoragesKeep(w, r.value)
    ensures r.Success? ==> forall k :: i <= k < |cs| ==> r.value.clients[cs[k]].smallCell.Some?
    ensures r.Success? ==> forall c' :: c' in w.clients && c' !in cs[i..] ==> r.value.clients[c'] == w.clients[c']
    decreases |cs| - i
  {
    if i == |cs| then Success(w)
    else
      var w1 := Assign(w, env, config, cs[i], filter);
      if w1.Failure? then Failure(w1.error)
      else
        var r := AssignAll(w1.value, env, config, cs, filter, i + 1);
        if r.Success? then
          assert StoragesKeep(w, r.value) by {
            forall x | 0 <= x < |w.storages| ensures r.value.storages[x] == w.storages[x].(smallCells := r.value.storages[x].smallCells) {
              assert w1.value.storages[x] == w.storages[x].(smallCells := w1.value.storages[x].smallCells);
            }
          }
          assert forall c' :: c' !in cs[i..] ==> c' != cs[i] && c' !in cs[i + 1..];
          assert forall k :: i < k < |cs| ==> cs[k] in cs[i + 1..];
          r
        else r
  }

  /** `endPeriod`: the period's download ratio is computed, and every client first
      seen in the period is assigned again under the given filter. */
  function EndPeriod(w: World, env: Environment, config: Config, p: Period, filter: FileList): (r: Result<(World, Period)>)
    requires Valid(w) && PeriodKnown(w, p)
    ensures r.Success? ==> Valid(r.value.0) && SameShape(w, r.value.0) && StoragesKeep(w, r.value.0)
    ensures r.Success? ==> r.value.1 == p.(dlRate := r.value.1.dlRate)
    ensures r.Success? ==> r.value.1.dlRate == DownloadRate(p.downloaded, p.served)
    ensures r.Success? ==> forall k :: 0 <= k < |p.newClients| ==> r.value.0.clients[p.newClients[k]].smallCell.Some?
    ensures r.Success? ==> PeriodKnown(r.value.0, r.value.1)
  {
    var w' := AssignAll(w, env, config, p.newClients, filter, 0);
    if w'.Failure? then Failure(w'.error)
    else Success((w'.value, p.(dlRate := DownloadRate(p.downloaded, p.served))))
  }

  // ---------------------------------------------------------------- periodList.serve

  /** Every period of the list is known to the world. */
  ghost predicate PeriodsKnown(w: World, pl: seq<Period>) {
    forall j :: 0 <= j < |pl| ==> PeriodKnown(w, pl[j])
  }

  lemma PeriodsKnownKeep(w: World, w': World, pl: seq<Period>, pn: nat, q: Period)
    requires PeriodsKnown(w, pl) && pn < |pl| && PeriodKnown(w', q)
    requires w'.clients.Keys == w.clients.Keys && w'.files == w.files
    ensures PeriodsKnown(w', pl[pn := q])
  {
    var pl' := pl[pn := q];
    forall j | 0 <= j < |pl'| ensures PeriodKnown(w', pl'[j]) {
      if j != pn {
        assert PeriodKnown(w, pl[j]);
      }
    }
  }

  /** Serving and closing period `pn` under the filter of the next period, then
      writing the period back into the list. */
  function ServeAndClose(w: World, env: Environment, config: Config, pl: seq<Period>, pn: nat, next: FileList): (r: Result<(World, seq<Period>)>)
    requires Valid(w) && HoldersValid(env, |w.cells|) && PeriodsKnown(w, pl) && pn < |pl|
    requires Prefix(pl[pn].popularFiles, config.filesLimit).Success?
    ensures r.Success? ==> Valid(r.value.0) && |r.value.0.cells| == |w.cells| && PeriodsKnown(r.value.0, r.value.1)
    ensures r.Success? ==> |r.value.1| == |pl| && r.value.1 == pl[pn := r.value.1[pn]]
    ensures r.Success? ==> var q := r.value.1[pn];
      && q == pl[pn].(served := q.served, downloaded := q.downloaded, newClients := q.newClients, dlRate := q.dlRate)
      && q.dlRate == DownloadRate(q.downloaded, q.served)
  {
    var filter := Prefix(pl[pn].popularFiles, config.filesLimit).value;
    var served := Serve(w, env, config, pl[pn], filter);
    if served.Failure? then Failure(served.error)
    else
      var (w1, p1) := served.value;
      var closed := EndPeriod(w1, env, config, p1, next);
      if closed.Failure? then Failure(closed.error)
      else
        var (w2, p2) := closed.value;
        PeriodsKnownKeep(w, w2, pl, pn, p2);
        Success((w2, pl[pn := p2]))
  }

  /** `periodList.serve` from position `pn` on, as written: with period similarity
      switched on, the filter of `endPeriod` is read from `pl[pn + 1]`, also on the
      last period.  The filter is read before period `pn` is served rather than
      after: serving never changes another period's popular files, so the filter is
      the same; only when both the read and the serving fail does the reported error
      differ. */
  function ServePeriodsFrom(w: World, env: Environment, config: Config, pl: seq<Period>, pn: nat): (r: Result<(World, seq<Period>)>)
    requires Valid(w) && HoldersValid(env, |w.cells|) && PeriodsKnown(w, pl) && pn <= |pl|
    ensures r.Success? ==> |r.value.1| == |pl|
    ensures r.Success? ==> !config.isPeriodSimilarity || pn == |pl|
    decreases |pl| - pn
  {
    if pn == |pl| then Success((w, pl))
    else
      var filter := Prefix(pl[pn].popularFiles, config.filesLimit);
      if filter.Failure? then Failure(filter.error)
      else
        var next := if config.isPeriodSimilarity then
            (if pn + 1 < |pl| then Prefix(pl[pn + 1].popularFiles, config.filesLimit) else Failure(IndexOutOfRange))
          else Success(Nil);
        if next.Failure? then Failure(next.error)
        else
          var step := ServeAndClose(w, env, config, pl, pn, next.value);
          if step.Failure? then Failure(step.error)
          else ServePeriodsFrom(step.value.0, env, config, step.value.1, pn + 1)
  }

  /** `periodList.serve` on a whole list. */
  function ServePeriods(w: World, env: Environment, config: Config, pl: seq<Period>): (r: Result<(World, seq<Period>)>)
    requires Valid(w) && HoldersValid(env, |w.cells|) && PeriodsKnown(w, pl)
    ensures r.Success? ==> |r.value.1| == |pl|
    ensures config.isPeriodSimilarity && |pl| > 0 ==> r.Failure?
  {
    ServePeriodsFrom(w, env, config, pl, 0)
  }

  /** `periodList.serve` with the evident intent for the last period: there is no
      next period, so `endPeriod` runs without a filter. */
  function ServePeriodsGuarded(w: World, env: Environment, config: Config, pl: seq<Period>, pn: nat): (r: Result<(World, seq<Period>)>)
    requires Valid(w) && HoldersValid(env, |w.cells|) && PeriodsKnown(w, pl) && pn <= |pl|
    ensures r.Success? ==> |r.value.1| == |pl|
    ensures r.Success? ==> forall j :: 0 <= j < |pl| ==>
      var q := r.value.1[j];
      && (j < pn ==> q == pl[j])
      && (pn <= j ==> q == pl[j].(served := q.served, downloaded := q.downloaded, newClients := q.newClients, dlRate := q.dlRate))
      && (pn <= j ==> q.dlRate == DownloadRate(q.downloaded, q.served))
    decreases |pl| - pn
  {
    if pn == |pl| then Success((w, pl))
    else
      var filter := Prefix(pl[pn].popularFiles, config.filesLimit);
      if filter.Failure? then Failure(filter.error)
      else
        var next := if config.isPeriodSimilarity && pn + 1 < |pl| then Prefix(pl[pn + 1].popularFiles, config.filesLimit) else Success(Nil);
        if next.Failure? then Failure(next.error)
        else
          var step := ServeAndClose(w, env, config, pl, pn, next.value);
          if step.Failure? then Failure(step.error)
          else
            var r := ServePeriodsGuarded(step.value.0, env, config, step.value.1, pn + 1);
            if r.Success? then
              ServedPeriodsJoin(pl, step.value.1, r.value.1, pn);
              r
            else r
  }

  /** Closing period `pn` and then the periods from `pn + 1` on leaves the periods
      before `pn` alone and closes every period from `pn` on. */
  lemma ServedPeriodsJoin(pl: seq<Period>, pl1: seq<Period>, pl2: seq<Period>, pn: nat)
    requires pn < |pl| && |pl1| == |pl| && pl1 == pl[pn := pl1[pn]]
    requires var q := pl1[pn];
      && q == pl[pn].(served := q.served, downloaded := q.downloaded, newClients := q.newClients, dlRate := q.dlRate)
      && q.dlRate == DownloadRate(q.downloaded, q.served)
    requires |pl2| == |pl1|
    requires forall j :: 0 <= j < |pl1| ==>
      var q := pl2[j];
      && (j < pn + 1 ==> q == pl1[j])
      && (pn + 1 <= j ==> q == pl1[j].(served := q.served, downloaded := q.downloaded, newClients := q.newClients, dlRate := q.dlRate))
      && (pn + 1 <= j ==> q.dlRate == DownloadRate(q.downloaded, q.served))
    ensures forall j :: 0 <= j < |pl| ==>
      var q := pl2[j];
      && (j < pn ==> q == pl[j])
      && (pn <= j ==> q == pl[j].(served := q.served, downloaded := q.downloaded, newClients := q.newClients, dlRate := q.dlRate))
      && (pn <= j ==> q.dlRate == DownloadRate(q.downloaded, q.served))
  {
    forall j | 0 <= j < |pl|
      ensures var q := pl2[j];
        && (j < pn ==> q == pl[j])
        && (pn <= j ==> q == pl[j].(served := q.served, downloaded := q.downloaded, newClients := q.newClients, dlRate := q.dlRate))
        && (pn <= j ==> q.dlRate == DownloadRate(q.downloaded, q.served))
    {
      if j != pn {
        assert pl1[j] == pl[j];
      }
    }
  }

  /** Without period similarity the guard changes nothing. */
  lemma {:induction false} ServePeriodsGuardedAgrees(w: World, env: Environment, config: Config, pl: seq<Period>, pn: nat)
    requires Valid(w) && HoldersValid(env, |w.cells|) && PeriodsKnown(w, pl) && pn <= |pl|
    requires !config.isPeriodSimilarity
    ensures ServePeriodsGuarded(w, env, config, pl, pn) == ServePeriodsFrom(w, env, config, pl, pn)
    decreases |pl| - pn
  {
    if pn < |pl| && Prefix(pl[pn].popularFiles, config.filesLimit).Success? {
      var step := ServeAndClose(w, env, config, pl, pn, Nil);
      if step.Success? {
        var (w', pl') := step.value;
        ServePeriodsGuardedAgrees(w', env, config, pl', pn + 1);
        assert ServePeriodsGuarded(w, env, config, pl, pn) == ServePeriodsGuarded(w', env, config, pl', pn + 1);
        assert ServePeriodsFrom(w, env, config, pl, pn) == ServePeriodsFrom(w', env, config, pl', pn + 1);
      } else {
        assert ServePeriodsGuarded(w, env, config, pl, pn) == Failure(step.error);
        assert ServePeriodsFrom(w, env, config, pl, pn) == Failure(step.error);
      }
    }
  }

  /** A one-period list with no requests and no popular files: the loop as written
      panics on `pl[1]`, the guarded loop closes the period. */
  lemma LastPeriodOverrun(w: World, env: Environment, config: Config, p: Period)
    requires Valid(w) && HoldersValid(env, |w.cells|)
    requires p.requests == [] && p.newClients == [] && p.popularFiles == Nil
    requires config.isPeriodSimilarity && config.filesLimit == 0
    ensures ServePeriods(w, env, config, [p]) == Failure(IndexOutOfRange)
    ensures ServePeriodsGuarded(w, env, config, [p], 0).Success?
  {
    assert PeriodsKnown(w, [p]) by {
      assert PeriodKnown(w, [p][0]);
    }
  }

  // ---------------------------------------------------------------- preProcess

  /** The storage arena after `preProcess`'s second loop: every storage of the
      current `cacheStorages` gets the configured size and as much free space. */
  function SizeStorages(ss: seq<CacheStorage>, from: nat, size: int): (r: seq<CacheStorage>)
    ensures |r| == |ss|
    ensures forall x :: 0 <= x < |ss| && x < from ==> r[x] == ss[x]
    ensures forall x :: from <= x < |ss| ==> r[x] == ss[x].(size := size, space := size)
  {
    seq(|ss|, x requires 0 <= x < |ss| => if x < from then ss[x] else ss[x].(size := size, space := size))
  }

  /** `preProcess`: cooperation is arranged over the view, then every file gets the
      configured size and every current cache storage the configured size and space. */
  function PreProcess(w: World, config: Config, view: View): (r: Result<World>)
    requires Valid(w)
    ensures r.Failure? <==> ArrangeCooperation(w, config.cooperationThreshold, config.similarityFormula, view).Failure?
    ensures r.Success? ==> Valid(r.value)
    ensures r.Success? ==> var a := ArrangeCooperation(w, config.cooperationThreshold, config.similarityFormula, view).value;
      && r.value == a.(files := r.value.files, storages := r.value.storages)
      && r.value.files.Keys == w.files.Keys
      && (forall f :: f in w.files ==> r.value.files[f] == w.files[f].(size := config.fileSize))
      && |r.value.storages| == |a.storages|
      && (forall x :: 0 <= x < |a.storages| && x < a.activeFrom ==> r.value.storages[x] == a.storages[x])
      && (forall x :: a.activeFrom <= x < |a.storages| ==>
            r.value.storages[x] == a.storages[x].(size := config.cacheStorageSize, space := config.cacheStorageSize))
  {
    var a := ArrangeCooperation(w, config.cooperationThreshold, config.similarityFormula, view);
    if a.Failure? then Failure(a.error)
    else
      ArrangeCooperationValid(w, config.cooperationThreshold, config.similarityFormula, view);
      var files := map f | f in a.value.files :: a.value.files[f].(size := config.fileSize);
      Success(a.value.(files := files, storages := SizeStorages(a.value.storages, a.value.activeFrom, config.cacheStorageSize)))
  }
}

=== FILE: similarity.dfy ===
/** The similarity engine: `popularities.calSimilarity` over the files two demand
    maps (and an optional filter) have in common, the small-cell similarity matrix,
    and a client's scores against every cache storage.  The formula itself is a
    parameter. */
module Similarity {
  import opened Results
  import opened Collections
  import opened Popularity
  import opened Files
  import opened State

  /** The files a similarity compares: keys of both maps, further restricted to the
      filter unless it is nil. */
  function CommonFiles(p: Popularities, q: Popularities, filter: FileList): set<FileId> {
    if filter.Nil? then p.Keys * q.Keys else p.Keys * q.Keys * (set f | f in filter.elems)
  }

  /** `p` cut down to the files of `ifl` (`ifp[f] = p[f]` in the simulator). */
  function Restrict(p: Popularities, ifl: seq<FileId>): (r: Popularities)
    requires forall f :: f in ifl ==> f in p
  {
    map f | f in ifl :: p[f]
  }

  /** The intersected file list `p.getFileList().intersect(filter).intersect(fp2.getFileList())`. */
  function SharedFileList(p: Popularities, fp2: Popularities, filter: FileList): seq<FileId> {
    Intersect(Intersect(List(KeyList(p)), filter), List(KeyList(fp2))).elems
  }

  lemma SharedFileListContents(p: Popularities, fp2: Popularities, filter: FileList)
    ensures forall f :: f in SharedFileList(p, fp2, filter) <==> f in CommonFiles(p, fp2, filter)
  {
    var first := Intersect(List(KeyList(p)), filter);
    IntersectContents(List(KeyList(p)), filter);
    IntersectContents(first, List(KeyList(fp2)));
  }

  /** `popularities.calSimilarity`. */
  function PairSimilarity(p: Popularities, fp2: Popularities, filter: FileList, formula: Formula): real {
    var ifl := SharedFileList(p, fp2, filter);
    SharedFileListContents(p, fp2, filter);
    if |ifl| == 0 then 0.0
    else formula(Normalize(Restrict(p, ifl)), Normalize(Restrict(fp2, ifl)))
  }

  /** `p` cut down to the files of a set. */
  function RestrictTo(p: Popularities, s: set<FileId>): Popularities {
    map f | f in s && f in p :: p[f]
  }

  lemma RestrictSameFiles(p: Popularities, ifl: seq<FileId>, s: set<FileId>)
    requires forall f :: f in ifl <==> f in s
    requires forall f :: f in s ==> f in p
    ensures Restrict(p, ifl) == RestrictTo(p, s)
  {
  }

  /** With no admitted file in common there is nothing to compare. */
  lemma PairSimilarityNone(p: Popularities, fp2: Popularities, filter: FileList, formula: Formula)
    requires CommonFiles(p, fp2, filter) == {}
    ensures PairSimilarity(p, fp2, filter, formula) == 0.0
  {
    var ifl := SharedFileList(p, fp2, filter);
    SharedFileListContents(p, fp2, filter);
    EmptyWithoutElements(ifl);
  }

  /** With admitted files in common the formula compares both maps cut down to them. */
  lemma PairSimilarityCommon(p: Popularities, fp2: Popularities, filter: FileList, formula: Formula)
    requires CommonFiles(p, fp2, filter) != {}
    ensures PairSimilarity(p, fp2, filter, formula) ==
      formula(Normalize(RestrictTo(p, CommonFiles(p, fp2, filter))), Normalize(RestrictTo(fp2, CommonFiles(p, fp2, filter))))
  {
    var ifl := SharedFileList(p, fp2, filter);
    var s := CommonFiles(p, fp2, filter);
    SharedFileListContents(p, fp2, filter);
    var x :| x in s;
    assert x in ifl;
    RestrictSameFiles(p, ifl, s);
    RestrictSameFiles(fp2, ifl, s);
  }

  /** Similarity is 0 exactly when there is nothing in common to compare; otherwise
      the formula sees both maps cut down to the same common file set, each
      normalised on its own. */
  lemma PairSimilarityMeaning(p: Popularities, fp2: Popularities, filter: FileList, formula: Formula)
    ensures CommonFiles(p, fp2, filter) == {} ==> PairSimilarity(p, fp2, filter, formula) == 0.0
    ensures CommonFiles(p, fp2, filter) != {} ==>
      PairSimilarity(p, fp2, filter, formula) ==
        formula(Normalize(RestrictTo(p, CommonFiles(p, fp2, filter))), Normalize(RestrictTo(fp2, CommonFiles(p, fp2, filter))))
  {
    if CommonFiles(p, fp2, filter) == {} {
      PairSimilarityNone(p, fp2, filter, formula);
    } else {
      PairSimilarityCommon(p, fp2, filter, formula);
    }
  }

  /** With a symmetric formula the pairwise similarity is symmetric. */
  lemma PairSimilaritySymmetric(p: Popularities, q: Popularities, filter: FileList, formula: Formula)
    requires forall a, b :: formula(a, b) == formula(b, a)
    ensures PairSimilarity(p, q, filter, formula) == PairSimilarity(q, p, filter, formula)
  {
    assert CommonFiles(p, q, filter) == CommonFiles(q, p, filter);
    if CommonFiles(p, q, filter) == {} {
      PairSimilarityNone(p, q, filter, formula);
      PairSimilarityNone(q, p, filter, formula);
    } else {
      PairSimilarityCommon(p, q, filter, formula);
      PairSimilarityCommon(q, p, filter, formula);
    }
  }

  // ---------------------------------------------------------------- small-cell matrix

  /** The table a view selects from a small cell, read at the view's period. */
  function CellPopularities(w: World, k: CellRef, v: View): Result<Popularities>
    requires k < |w.cells|
  {
    At(if v.isAccumulated then w.cells[k].popularitiesAccumulated else w.cells[k].popularitiesPeriod, v.periodId)
  }

  /** Entry `(i, j)` of the matrix over tables `tabs`: the pair similarity for `i < j`,
      mirrored for `j < i`, and the untouched 0 on the diagonal. */
  function Entry(tabs: seq<Popularities>, i: nat, j: nat, filter: FileList, formula: Formula): real
    requires i < |tabs| && j < |tabs|
  {
    if i < j then PairSimilarity(tabs[i], tabs[j], filter, formula)
    else if j < i then PairSimilarity(tabs[j], tabs[i], filter, formula)
    else 0.0
  }

  /** The tables a matrix compares, one per listed cell (an empty map stands in for a
      table that is never read). */
  function ViewTables(w: World, scl: seq<CellRef>, v: View): (r: seq<Popularities>)
    requires forall i :: 0 <= i < |scl| ==> scl[i] < |w.cells|
    ensures |r| == |scl|
    ensures forall i :: 0 <= i < |scl| && CellPopularities(w, scl[i], v).Success? ==> r[i] == CellPopularities(w, scl[i], v).value
  {
    seq(|scl|, i requires 0 <= i < |scl| =>
      var t := CellPopularities(w, scl[i], v);
      if t.Success? then t.value else map[])
  }

  /** `smallCellList.calSimilarity`: only pairs `i < j` are computed, each mirrored
      into `[j][i]`; the diagonal keeps its initial 0.  Every cell's table is read
      only when there is at least one pair, so a missing period panics only then. */
  function CellSimilarity(w: World, scl: seq<CellRef>, v: View, filter: FileList, formula: Formula): (r: Result<Matrix>)
    requires forall i :: 0 <= i < |scl| ==> scl[i] < |w.cells|
    ensures r.Failure? <==> |scl| >= 2 && exists i :: 0 <= i < |scl| && CellPopularities(w, scl[i], v).Failure?
    ensures r.Success? ==> IsSquare(r.value, |scl|)
    ensures r.Success? ==> forall i :: 0 <= i < |scl| ==> r.value[i][i] == 0.0
    ensures r.Success? ==> forall i, j :: 0 <= i < |scl| && 0 <= j < |scl| ==> r.value[i][j] == r.value[j][i]
    ensures r.Success? ==> forall i, j :: 0 <= i < j < |scl| ==>
      CellPopularities(w, scl[i], v).Success? && CellPopularities(w, scl[j], v).Success? &&
      r.value[i][j] == PairSimilarity(CellPopularities(w, scl[i], v).value, CellPopularities(w, scl[j], v).value, filter, formula)
  {
    var n := |scl|;
    if n >= 2 && exists i :: 0 <= i < n && CellPopularities(w, scl[i], v).Failure? then
      Failure(IndexOutOfRange)
    else
      var tabs := ViewTables(w, scl, v);
      var m := seq(n, i requires 0 <= i < n => seq(n, j requires 0 <= j < n => Entry(tabs, i, j, filter, formula)));
      assert forall i, j :: 0 <= i < n && 0 <= j < n ==> m[i][j] == Entry(tabs, i, j, filter, formula);
      Success(m)
  }

  // ---------------------------------------------------------------- client scores

  /** The scores of client table `cp` against each storage of a list, in list order. */
  function ScoresOver(cp: Table, storages: seq<CacheStorage>, periodNo: int, filter: FileList, formula: Formula): (r: Result<seq<real>>)
    ensures r.Failure? <==>
      (|storages| > 0 && (!(0 <= periodNo < |cp|) ||
                          exists k :: 0 <= k < |storages| && !(0 <= periodNo < |storages[k].popularitiesAccumulated|)))
    ensures r.Success? ==> |r.value| == |storages|
    ensures r.Success? ==> forall k :: 0 <= k < |storages| ==> ScoreMatches(cp, storages[k], periodNo, filter, formula, r.value[k])
  {
    if |storages| == 0 then Success([])
    else
      var a :- At(cp, periodNo);
      var b :- At(storages[0].popularitiesAccumulated, periodNo);
      var rest :- ScoresOver(cp, storages[1..], periodNo, filter, formula);
      Success([PairSimilarity(a, b, filter, formula)] + rest)
  }

  /** `score` is the similarity of the client table `cp` to storage `cs`, both read at
      period `periodNo`. */
  ghost predicate ScoreMatches(cp: Table, cs: CacheStorage, periodNo: int, filter: FileList, formula: Formula, score: real) {
    && 0 <= periodNo < |cp|
    && 0 <= periodNo < |cs.popularitiesAccumulated|
    && score == PairSimilarity(cp[periodNo], cs.popularitiesAccumulated[periodNo], filter, formula)
  }

  /** `client.calSimilarity`: one score per entry of `cacheStorages`, index-aligned
      with it, comparing the client's and the storage's accumulated demand in the
      current period. */
  function ClientScores(w: World, c: ClientId, filter: FileList, formula: Formula): (r: Result<seq<real>>)
    requires c in w.clients && w.activeFrom <= |w.storages|
    ensures r.Failure? <==>
      (w.activeFrom < |w.storages| && (!(0 <= w.periodNo < |w.clients[c].popularityAccumulated|) ||
                                       exists k :: w.activeFrom <= k < |w.storages| && !(0 <= w.periodNo < |w.storages[k].popularitiesAccumulated|)))
    ensures r.Success? ==> |r.value| == |w.storages| - w.activeFrom
    ensures r.Success? ==> forall k :: 0 <= k < |r.value| ==>
      ScoreMatches(w.clients[c].popularityAccumulated, w.storages[w.activeFrom + k], w.periodNo, filter, formula, r.value[k])
  {
    var active := w.storages[w.activeFrom..];
    assert forall k :: 0 <= k < |active| ==> active[k] == w.storages[w.activeFrom + k];
    ScoresOver(w.clients[c].popularityAccumulated, active, w.periodNo, filter, formula)
  }
}

=== FILE: state.dfy ===
/** The simulation state, threaded explicitly through every operation instead of
    the simulator's process-wide variables.  Small cells and cache storages live in
    arenas (`cells`, `storages`) and refer to each other by arena index, which plays
    the role of a Go pointer. */
module State {
  import opened Results
  import opened Collections
  import opened Popularity
  import opened Files

  type ClientId = nat
  type CellRef = nat
  type StorageRef = nat

  /** A similarity formula (`cosine` or `exponential`), left uninterpreted. */
  type Formula = (NormalizedPopularities, NormalizedPopularities) -> real

  datatype Client = Client(
    smallCell: Option<CellRef>,
    popularityPeriod: Table,
    popularityAccumulated: Table)

  datatype SmallCell = SmallCell(
    id: nat,
    clients: set<ClientId>,
    popularitiesPeriod: Table,
    popularitiesAccumulated: Table,
    cacheStorage: Option<StorageRef>)

  datatype CacheStorage = CacheStorage(
    smallCells: seq<CellRef>,
    popularitiesAccumulated: Table,
    size: int,
    space: int,
    served: int,
    downloaded: int,
    popularFiles: map<nat, seq<FileId>>)

  /** A freshly allocated `cacheStorage` with no members. */
  function EmptyStorage(): CacheStorage {
    CacheStorage([], [], 0, 0, 0, 0, map[])
  }

  /** `cells` holds every small cell ever created and `smallCells` is the global
      `smallCells` slice (positions to cells); `storages` holds every cache storage
      ever created and the global `cacheStorages` slice is `storages[activeFrom..]`. */
  datatype World = World(
    cells: seq<SmallCell>,
    smallCells: seq<CellRef>,
    storages: seq<CacheStorage>,
    activeFrom: nat,
    clients: map<ClientId, Client>,
    files: map<FileId, File>,
    filesList: seq<FileId>,
    periodNo: int)

  /** Every reference points into its arena, and the global cell list has no repeats. */
  ghost predicate Valid(w: World) {
    && (forall i :: 0 <= i < |w.smallCells| ==> w.smallCells[i] < |w.cells|)
    && NoDup(w.smallCells)
    && (forall s, i :: 0 <= s < |w.storages| && 0 <= i < |w.storages[s].smallCells| ==> w.storages[s].smallCells[i] < |w.cells|)
    && RefsValid(w)
    && (forall c :: c in w.clients && w.clients[c].smallCell.Some? ==> w.clients[c].smallCell.value < |w.cells|)
    && w.activeFrom <= |w.storages|
  }

  /** Every small cell's storage reference points into the storage arena. */
  ghost predicate RefsValid(w: World) {
    forall k :: 0 <= k < |w.cells| && w.cells[k].cacheStorage.Some? ==> w.cells[k].cacheStorage.value < |w.storages|
  }

  /** No cell of the global list belongs to a storage yet. */
  ghost predicate Unattached(w: World) {
    forall i :: 0 <= i < |w.smallCells| && w.smallCells[i] < |w.cells| ==> w.cells[w.smallCells[i]].cacheStorage.None?
  }

  /** Every listed cell exists. */
  ghost predicate CellsExist(w: World, ms: seq<CellRef>) {
    forall i :: 0 <= i < |ms| ==> ms[i] < |w.cells|
  }

  /** What an assignment step never changes: arena sizes, the client and file
      registries, and the active storage range. */
  ghost predicate SameShape(w: World, w': World) {
    && |w'.cells| == |w.cells|
    && |w'.storages| == |w.storages|
    && w'.activeFrom == w.activeFrom
    && w'.clients.Keys == w.clients.Keys
    && w'.files == w.files
    && w'.filesList == w.filesList
    && w'.periodNo == w.periodNo
  }

  /** The storages differ at most in their member lists. */
  ghost predicate StoragesKeep(w: World, w': World) {
    && |w'.storages| == |w.storages|
    && forall x :: 0 <= x < |w.storages| ==> w'.storages[x] == w.storages[x].(smallCells := w'.storages[x].smallCells)
  }

  /** The number of clients of a small cell: the key `leastClients` sorts on
      (zero for a reference outside the arena, which no valid list holds). */
  function Load(w: World, k: CellRef): nat {
    if k < |w.cells| then |w.cells[k].clients| else 0
  }

  /** `client.assignTo`, which is not part of this model beyond the relation it
      maintains: the client leaves its previous cell's client set, joins cell `k`'s,
      and records `k` as its small cell. */
  function AssignClient(w: World, c: ClientId, k: CellRef): (w': World)
    requires Valid(w) && c in w.clients && k < |w.cells|
    ensures Valid(w') && SameShape(w, w')
    ensures w'.clients[c].smallCell == Some(k) && c in w'.cells[k].clients
    ensures forall c' :: c' in w.clients && c' != c ==> w'.clients[c'] == w.clients[c']
    ensures w'.smallCells == w.smallCells && w'.storages == w.storages
    ensures forall i :: 0 <= i < |w.cells| ==>
      w'.cells[i] == w.cells[i].(clients := w'.cells[i].clients)
    ensures w'.cells[k].clients == w.cells[k].clients + {c}
    ensures forall i :: 0 <= i < |w.cells| && i != k ==>
      w'.cells[i].clients == if w.clients[c].smallCell == Some(i) then w.cells[i].clients - {c} else w.cells[i].clients
  {
    var prev := w.clients[c].smallCell;
    var cells1 := if prev.Some? then w.cells[prev.value := w.cells[prev.value].(clients := w.cells[prev.value].clients - {c})] else w.cells;
    var cells2 := cells1[k := cells1[k].(clients := cells1[k].clients + {c})];
    w.(cells := cells2, clients := w.clients[c := w.clients[c].(smallCell := Some(k))])
  }

  datatype Request = Request(time: int, file: FileId, client: ClientId)

  datatype Period = Period(
    id: int,
    requests: seq<Request>,
    clients: set<ClientId>,
    newClients: seq<ClientId>,
    served: int,
    downloaded: int,
    dlRate: Quotient,
    popularFiles: FileList,
    popularFilesAccumulated: FileList)

  /** The configuration values the core reads. */
  datatype Config = Config(
    cooperationThreshold: real,
    similarityFormula: Formula,
    fileSize: int,
    cacheStorageSize: int,
    filesLimit: int,
    isAssignClustering: bool,
    isPeriodSimilarity: bool)

  /** Which table of a small cell a similarity matrix compares, and at which period. */
  datatype View = View(isAccumulated: bool, periodId: int)

  /** Identifies one request: the period it belongs to and its position there. */
  datatype RequestRef = RequestRef(period: int, index: nat)

  /** The collaborators the core only calls: the cache-content policy (`cacheFile`
      reports how many bytes of the file are already resident; `smallCellsHasFile`
      lists the small cells whose storage holds the file), and the trained clustering
      model's `Predict`.  The `RequestRef` stands for the moment of the call. */
  datatype Environment = Environment(
    cacheFile: (StorageRef, FileId, RequestRef) -> int,
    smallCellsHasFile: (FileId, RequestRef) -> seq<CellRef>,
    predict: seq<int> -> Option<int>)

  /** `smallCellsHasFile` only ever returns existing small cells. */
  ghost predicate HoldersValid(env: Environment, cellCount: nat) {
    forall f, ref, i :: 0 <= i < |env.smallCellsHasFile(f, ref)| ==> env.smallCellsHasFile(f, ref)[i] < cellCount
  }
}

=== FILE: transfer.dfy ===
/** `smallCell.assignTo`: a small cell moves to a cache storage, is appended to its
    member list, and its accumulated demand moves with it — subtracted from the
    storage it leaves and added to the one it joins.  The loops are written out in
    the order the simulator runs them, because its panics depend on that order. */
module Transfer {
  import opened Results
  import opened Collections
  import opened Popularity
  import opened State

  // ---------------------------------------------------------------- leaving the old member list

  /** The removal loop over the previous storage's member list.  It ranges over the
      original length `n` while deleting from a local copy, so a deletion before the
      last position leaves it indexing past the shortened copy.  The copy is never
      written back, so on success the storage's list is as it was. */
  function RemovalLoop(scl: seq<CellRef>, sc: CellRef, i: nat, n: nat): (r: Result<seq<CellRef>>)
    requires i <= n && |scl| <= n
    ensures |scl| == n ==> (r.Failure? <==> exists j :: i <= j < n - 1 && scl[j] == sc)
    ensures |scl| < n ==> (r.Failure? <==> i < n)
    decreases n - i
  {
    if i == n then Success(scl)
    else if i >= |scl| then Failure(IndexOutOfRange)
    else if scl[i] == sc then RemovalLoop(scl[..i] + scl[i + 1..], sc, i + 1, n)
    else RemovalLoop(scl, sc, i + 1, n)
  }

  // ---------------------------------------------------------------- moving the demand

  /** Where the moving cell comes from: no storage, the storage it is joining again,
      or another storage.  Only in the last case are two tables written. */
  datatype Mode = Fresh | Same | Other

  /** How many times the moved counts are added to the joined table, net. */
  function Gain(mode: Mode): int {
    if mode == Same then 0 else 1
  }

  /** `t[pn][k] += delta`, or the panic of indexing a period `t` does not have. */
  function Bump(t: Table, pn: nat, k: FileId, delta: int): (r: Result<Table>)
    ensures r.Success? <==> pn < |t|
    ensures r.Success? ==> |r.value| == |t|
  {
    if pn < |t| then
      var bumped: Popularities := t[pn][k := Get(t[pn], k) + delta];
      Success(t[pn := bumped])
    else
      Failure(IndexOutOfRange)
  }

  /** A bump adds `delta` to one count of one period and changes nothing else. */
  lemma BumpEffect(t: Table, pn: nat, k: FileId, delta: int)
    requires pn < |t|
    ensures var r := Bump(t, pn, k, delta).value;
      && (forall p: nat, k2: FileId :: Count(r, p, k2) == Count(t, p, k2) + (if p == pn && k2 == k then delta else 0))
      && (forall p :: 0 <= p < |t| && p != pn ==> r[p] == t[p])
      && r[pn].Keys == t[pn].Keys + {k}
  {
  }

  /** One key `k` with count `v` of period `pn`: the count is first subtracted from
      the previous storage's table `prev`, then added to the joined table `next`. */
  function KeyStep(prev: Table, next: Table, mode: Mode, pn: nat, k: FileId, v: int): (r: Result<(Table, Table)>)
    requires pn < |next|
    ensures r.Failure? <==> mode == Other && pn >= |prev|
    ensures r.Success? ==> |r.value.0| == |prev| && |r.value.1| == |next|
  {
    match mode
    case Fresh =>
      Success((prev, Bump(next, pn, k, v).value))
    case Same =>
      var n0 := Bump(next, pn, k, -v).value;
      Success((prev, Bump(n0, pn, k, v).value))
    case Other =>
      var p1 :- Bump(prev, pn, k, -v);
      Success((p1, Bump(next, pn, k, v).value))
  }

  /** One key step moves the key's count at period `pn` from `prev` to `next`
      (twice into `next`, net zero, for the storage the cell rejoins), writes no
      other period and creates the key where it writes. */
  lemma KeyStepEffect(prev: Table, next: Table, mode: Mode, pn: nat, k: FileId, v: int)
    requires pn < |next|
    requires KeyStep(prev, next, mode, pn, k, v).Success?
    ensures var r := KeyStep(prev, next, mode, pn, k, v).value;
      && (forall p: nat, k2: FileId ::
           && Count(r.1, p, k2) == Count(next, p, k2) + (if p == pn && k2 == k then Gain(mode) * v else 0)
           && Count(r.0, p, k2) == Count(prev, p, k2) - (if p == pn && k2 == k && mode == Other then v else 0))
      && (forall p :: 0 <= p < |next| && p != pn ==> r.1[p] == next[p])
      && r.1[pn].Keys == next[pn].Keys + {k}
      && (forall p :: 0 <= p < |prev| && (p != pn || mode != Other) ==> r.0[p] == prev[p])
      && (mode == Other ==> r.0[pn].Keys == prev[pn].Keys + {k})
  {
    match mode
    case Fresh =>
      BumpEffect(next, pn, k, v);
    case Same =>
      var n0 := Bump(next, pn, k, -v).value;
      BumpEffect(next, pn, k, -v);
      BumpEffect(n0, pn, k, v);
    case Other =>
      BumpEffect(prev, pn, k, -v);
      BumpEffect(next, pn, k, v);
  }

  /** The inner loop over the keys `ks` of period `pn`'s map `m`. */
  function KeyLoop(prev: Table, next: Table, mode: Mode, pn: nat, m: Popularities, ks: seq<FileId>): (r: Result<(Table, Table)>)
    requires pn < |next|
    ensures r.Success? ==> |r.value.0| == |prev| && |r.value.1| == |next|
    decreases |ks|
  {
    if |ks| == 0 then Success((prev, next))
    else
      var s :- KeyStep(prev, next, mode, pn, ks[0], Get(m, ks[0]));
      KeyLoop(s.0, s.1, mode, pn, m, ks[1..])
  }

  /** The key loop panics exactly when there is a key to move and the other
      storage lacks the period. */
  lemma {:induction false} KeyLoopFailure(prev: Table, next: Table, mode: Mode, pn: nat, m: Popularities, ks: seq<FileId>)
    requires pn < |next|
    ensures KeyLoop(prev, next, mode, pn, m, ks).Failure? <==> |ks| > 0 && mode == Other && pn >= |prev|
    decreases |ks|
  {
    if |ks| > 0 {
      var s := KeyStep(prev, next, mode, pn, ks[0], Get(m, ks[0]));
      if s.Success? {
        KeyLoopFailure(s.value.0, s.value.1, mode, pn, m, ks[1..]);
      }
    }
  }

  /** What the key loop does to the counts of both tables. */
  lemma {:induction false} KeyLoopCounts(prev: Table, next: Table, mode: Mode, pn: nat, m: Popularities, ks: seq<FileId>)
    requires pn < |next| && NoDup(ks)
    requires KeyLoop(prev, next, mode, pn, m, ks).Success?
    ensures var r := KeyLoop(prev, next, mode, pn, m, ks).value;
      forall p: nat, k: FileId ::
        && Count(r.1, p, k) == Count(next, p, k) + (if p == pn && k in ks then Gain(mode) * Get(m, k) else 0)
        && Count(r.0, p, k) == Count(prev, p, k) - (if p == pn && k in ks && mode == Other then Get(m, k) else 0)
    decreases |ks|
  {
    if |ks| > 0 {
      var s := KeyStep(prev, next, mode, pn, ks[0], Get(m, ks[0])).value;
      KeyStepEffect(prev, next, mode, pn, ks[0], Get(m, ks[0]));
      assert NoDup(ks[1..]);
      KeyLoopCounts(s.0, s.1, mode, pn, m, ks[1..]);
      var r := KeyLoop(prev, next, mode, pn, m, ks).value;
      forall p: nat, k: FileId
        ensures Count(r.1, p, k) == Count(next, p, k) + (if p == pn && k in ks then Gain(mode) * Get(m, k) else 0)
        ensures Count(r.0, p, k) == Count(prev, p, k) - (if p == pn && k in ks && mode == Other then Get(m, k) else 0)
      {
        assert k in ks <==> k == ks[0] || k in ks[1..];
        assert ks[0] !in ks[1..];
      }
    }
  }

  /** The key loop writes only period `pn`, and creates every moved key there in
      each table it writes to. */
  lemma {:induction false} KeyLoopKeys(prev: Table, next: Table, mode: Mode, pn: nat, m: Popularities, ks: seq<FileId>)
    requires pn < |next|
    requires KeyLoop(prev, next, mode, pn, m, ks).Success?
    ensures var r := KeyLoop(prev, next, mode, pn, m, ks).value;
      && (forall p :: 0 <= p < |next| && p != pn ==> r.1[p] == next[p])
      && (forall k: FileId :: k in r.1[pn] <==> k in next[pn] || k in ks)
      && (forall p :: 0 <= p < |prev| && (p != pn || mode != Other) ==> r.0[p] == prev[p])
      && (mode == Other && pn < |prev| ==> forall k: FileId :: k in r.0[pn] <==> k in prev[pn] || k in ks)
    decreases |ks|
  {
    if |ks| > 0 {
      var s := KeyStep(prev, next, mode, pn, ks[0], Get(m, ks[0])).value;
      KeyStepEffect(prev, next, mode, pn, ks[0], Get(m, ks[0]));
      KeyLoopKeys(s.0, s.1, mode, pn, m, ks[1..]);
      assert forall k :: k in ks <==> k == ks[0] || k in ks[1..];
    }
  }

  /** The order in which the outer loop visits the keys of each period of the
      moving cell's table: for every period, each key of that period exactly once.
      Go leaves the iteration order of a map unspecified, so the lemmas about the
      loop hold for every such order. */
  type KeyOrder = seq<seq<FileId>>

  ghost predicate OrdersKeys(order: KeyOrder, d: Table) {
    && |order| == |d|
    && forall p :: 0 <= p < |d| ==> NoDup(order[p]) && forall k :: k in order[p] <==> k in d[p]
  }

  /** The order the model runs the loop in: each period's keys ascending. */
  function AscendingOrder(d: Table): (r: KeyOrder)
    ensures OrdersKeys(r, d)
  {
    var r := seq(|d|, p requires 0 <= p < |d| => SortedKeys(d[p].Keys));
    AscendingOrdersKeys(d, r);
    r
  }

  lemma AscendingOrdersKeys(d: Table, r: KeyOrder)
    requires |r| == |d| && forall p :: 0 <= p < |d| ==> r[p] == SortedKeys(d[p].Keys)
    ensures OrdersKeys(r, d)
  {
    forall p | 0 <= p < |d| ensures NoDup(r[p]) {
      IncreasingNoDup(r[p]);
    }
  }

  /** One period `pn` of the outer loop: the joined table gains an empty period map
      when it is one period short, then the period's keys are moved in the order
      `order[pn]`. */
  function PeriodStep(prev: Table, next: Table, mode: Mode, d: Table, order: KeyOrder, pn: nat): (r: Result<(Table, Table)>)
    requires pn < |d| && pn <= |next| && |order| == |d|
    ensures r.Success? ==> |r.value.0| == |prev| && |r.value.1| == if |next| == pn then pn + 1 else |next|
  {
    KeyLoop(prev, Grow(next, pn + 1), mode, pn, d[pn], order[pn])
  }

  /** A key list holding exactly the keys of a map is empty exactly when the map is. */
  lemma KeyListEmpty(ks: seq<FileId>, m: Popularities)
    requires forall k :: k in ks <==> k in m
    ensures |ks| > 0 <==> m != map[]
  {
    if m != map[] {
      var k :| k in m;
      assert k in ks;
    }
    if |ks| > 0 {
      assert ks[0] in ks;
    }
  }

  /** One period panics exactly when the cell comes from another storage that lacks
      the period while the cell has demand in it. */
  lemma PeriodStepFailure(prev: Table, next: Table, mode: Mode, d: Table, order: KeyOrder, pn: nat)
    requires pn < |d| && pn <= |next| && OrdersKeys(order, d)
    ensures PeriodStep(prev, next, mode, d, order, pn).Failure? <==> mode == Other && |prev| <= pn && d[pn] != map[]
  {
    KeyLoopFailure(prev, Grow(next, pn + 1), mode, pn, d[pn], order[pn]);
    KeyListEmpty(order[pn], d[pn]);
  }

  /** One period moves that period's counts. */
  lemma PeriodStepCounts(prev: Table, next: Table, mode: Mode, d: Table, order: KeyOrder, pn: nat, p: nat, k: FileId)
    requires pn < |d| && pn <= |next| && OrdersKeys(order, d)
    requires PeriodStep(prev, next, mode, d, order, pn).Success?
    ensures var r := PeriodStep(prev, next, mode, d, order, pn).value;
      && Count(r.1, p, k) == Count(next, p, k) + (if p == pn then Gain(mode) * Count(d, p, k) else 0)
      && Count(r.0, p, k) == Count(prev, p, k) - (if p == pn && mode == Other then Count(d, p, k) else 0)
  {
    var ks := order[pn];
    var g := Grow(next, pn + 1);
    KeyLoopCounts(prev, g, mode, pn, d[pn], ks);
    GrowCount(next, pn + 1, p, k);
    assert (k in ks) == (k in d[pn]);
  }

  /** One period creates that period's keys in each table it writes to. */
  lemma PeriodStepKeys(prev: Table, next: Table, mode: Mode, d: Table, order: KeyOrder, pn: nat, p: nat, k: FileId)
    requires pn < |d| && pn <= |next| && OrdersKeys(order, d)
    requires PeriodStep(prev, next, mode, d, order, pn).Success?
    ensures var r := PeriodStep(prev, next, mode, d, order, pn).value;
      p < |r.1| ==> (k in r.1[p] <==> (p < |next| && k in next[p]) || (p == pn && k in d[pn]))
    ensures var r := PeriodStep(prev, next, mode, d, order, pn).value;
      p < |prev| ==> (k in r.0[p] <==> k in prev[p] || (p == pn && mode == Other && k in d[pn]))
  {
    var ks := order[pn];
    var g := Grow(next, pn + 1);
    PeriodStepFailure(prev, next, mode, d, order, pn);
    KeyLoopKeys(prev, g, mode, pn, d[pn], ks);
    if p < |g| {
      GrowKeys(next, pn + 1, p, k);
    }
  }

  /** The outer loop over the periods of the moving cell's table `d`. */
  function PeriodLoop(prev: Table, next: Table, mode: Mode, d: Table, order: KeyOrder, pn: nat): (r: Result<(Table, Table)>)
    requires pn <= |d| && pn <= |next| && |order| == |d|
    ensures r.Success? ==> |r.value.0| == |prev| && |r.value.1| == if |next| < |d| then |d| else |next|
    decreases |d| - pn
  {
    if pn == |d| then Success((prev, next))
    else
      var s :- PeriodStep(prev, next, mode, d, order, pn);
      PeriodLoop(s.0, s.1, mode, d, order, pn + 1)
  }

  /** A successful loop from `pn` is a successful step at `pn` followed by a
      successful loop from `pn + 1` with the same result. */
  lemma PeriodLoopUnfold(prev: Table, next: Table, mode: Mode, d: Table, order: KeyOrder, pn: nat)
    requires pn < |d| && pn <= |next| && OrdersKeys(order, d)
    requires PeriodLoop(prev, next, mode, d, order, pn).Success?
    ensures PeriodStep(prev, next, mode, d, order, pn).Success?
    ensures var s := PeriodStep(prev, next, mode, d, order, pn).value;
      && PeriodLoop(s.0, s.1, mode, d, order, pn + 1).Success?
      && PeriodLoop(s.0, s.1, mode, d, order, pn + 1).value == PeriodLoop(prev, next, mode, d, order, pn).value
  {
  }

  /** Some period from `from` on in which `d` has demand lies beyond the first
      `held` periods. */
  ghost predicate LacksPeriod(held: nat, d: Table, from: nat) {
    exists p :: from <= p < |d| && held <= p && d[p] != map[]
  }

  lemma LacksPeriodStep(held: nat, d: Table, from: nat)
    requires from < |d|
    ensures LacksPeriod(held, d, from) <==> (held <= from && d[from] != map[]) || LacksPeriod(held, d, from + 1)
  {
    if LacksPeriod(held, d, from) {
      var p :| from <= p < |d| && held <= p && d[p] != map[];
      if p > from {
        assert from + 1 <= p;
      }
    }
  }

  /** The period loop panics exactly when the cell comes from another storage that
      lacks some period in which the cell has demand. */
  lemma {:induction false} PeriodLoopFailure(prev: Table, next: Table, mode: Mode, d: Table, order: KeyOrder, pn: nat)
    requires pn <= |d| && pn <= |next| && OrdersKeys(order, d)
    ensures PeriodLoop(prev, next, mode, d, order, pn).Failure? <==> mode == Other && LacksPeriod(|prev|, d, pn)
    decreases |d| - pn
  {
    if pn < |d| {
      PeriodStepFailure(prev, next, mode, d, order, pn);
      LacksPeriodStep(|prev|, d, pn);
      var s := PeriodStep(prev, next, mode, d, order, pn);
      if s.Success? {
        PeriodLoopFailure(s.value.0, s.value.1, mode, d, order, pn + 1);
      }
    }
  }

  /** Growing a table by empty periods changes no count. */
  lemma GrowCount(t: Table, n: nat, p: nat, k: FileId)
    ensures Count(Grow(t, n), p, k) == Count(t, p, k)
  {
    var g := Grow(t, n);
    if p < |t| {
      assert g[p] == g[..|t|][p];
    }
  }

  /** Growing a table by empty periods adds no key to any period. */
  lemma GrowKeys(t: Table, n: nat, p: nat, k: FileId)
    requires p < |Grow(t, n)|
    ensures k in Grow(t, n)[p] <==> p < |t| && k in t[p]
  {
    var g := Grow(t, n);
    if p < |t| {
      assert g[p] == g[..|t|][p];
    }
  }

  /** The period loop moves the counts of every period from `pn` on. */
  lemma {:induction false} PeriodLoopCounts(prev: Table, next: Table, mode: Mode, d: Table, order: KeyOrder, pn: nat, p: nat, k: FileId)
    requires pn <= |d| && pn <= |next| && OrdersKeys(order, d)
    requires PeriodLoop(prev, next, mode, d, order, pn).Success?
    ensures var r := PeriodLoop(prev, next, mode, d, order, pn).value;
      && Count(r.1, p, k) == Count(next, p, k) + (if pn <= p then Gain(mode) * Count(d, p, k) else 0)
      && Count(r.0, p, k) == Count(prev, p, k) - (if pn <= p && mode == Other then Count(d, p, k) else 0)
    decreases |d| - pn
  {
    if pn < |d| {
      PeriodLoopUnfold(prev, next, mode, d, order, pn);
      var s := PeriodStep(prev, next, mode, d, order, pn).value;
      PeriodStepCounts(prev, next, mode, d, order, pn, p, k);
      PeriodLoopCounts(s.0, s.1, mode, d, order, pn + 1, p, k);
    }
  }

  /** The period loop creates in the joined table every key of the moving cell's
      periods from `pn` on, and no other. */
  lemma {:induction false} PeriodLoopJoinedKeys(prev: Table, next: Table, mode: Mode, d: Table, order: KeyOrder, pn: nat, p: nat, k: FileId)
    requires pn <= |d| && pn <= |next| && OrdersKeys(order, d)
    requires PeriodLoop(prev, next, mode, d, order, pn).Success?
    ensures var r := PeriodLoop(prev, next, mode, d, order, pn).value;
      p < |r.1| ==> (k in r.1[p] <==> (p < |next| && k in next[p]) || (pn <= p < |d| && k in d[p]))
    decreases |d| - pn
  {
    if pn < |d| {
      PeriodLoopUnfold(prev, next, mode, d, order, pn);
      var s := PeriodStep(prev, next, mode, d, order, pn).value;
      var r := PeriodLoop(s.0, s.1, mode, d, order, pn + 1).value;
      PeriodStepKeys(prev, next, mode, d, order, pn, p, k);
      PeriodLoopJoinedKeys(s.0, s.1, mode, d, order, pn + 1, p, k);
      assert |s.1| == if |next| == pn then pn + 1 else |next|;
      if p < |r.1| {
        var inStep := p < |s.1| && k in s.1[p];
        assert inStep <==> (p < |next| && k in next[p]) || (p == pn && k in d[pn]);
        assert k in r.1[p] <==> inStep || (pn + 1 <= p < |d| && k in d[p]);
      }
    }
  }

  /** In the table of a storage the cell leaves, the period loop creates every key
      of the cell's periods from `pn` on, and no other. */
  lemma {:induction false} PeriodLoopLeftKeys(prev: Table, next: Table, mode: Mode, d: Table, order: KeyOrder, pn: nat, p: nat, k: FileId)
    requires pn <= |d| && pn <= |next| && OrdersKeys(order, d)
    requires PeriodLoop(prev, next, mode, d, order, pn).Success?
    ensures var r := PeriodLoop(prev, next, mode, d, order, pn).value;
      p < |prev| ==> (k in r.0[p] <==> k in prev[p] || (pn <= p < |d| && mode == Other && k in d[p]))
    decreases |d| - pn
  {
    if pn < |d| {
      PeriodLoopUnfold(prev, next, mode, d, order, pn);
      var s := PeriodStep(prev, next, mode, d, order, pn).value;
      var r := PeriodLoop(s.0, s.1, mode, d, order, pn + 1).value;
      if p < |prev| {
        assert k in s.0[p] <==> k in prev[p] || (p == pn && mode == Other && k in d[pn]) by {
          PeriodStepKeys(prev, next, mode, d, order, pn, p, k);
        }
        assert k in r.0[p] <==> k in s.0[p] || (pn + 1 <= p < |d| && mode == Other && k in d[p]) by {
          PeriodLoopLeftKeys(s.0, s.1, mode, d, order, pn + 1, p, k);
        }
        if p == pn {
          assert k in r.0[p] <==> k in prev[p] || (mode == Other && k in d[p]);
        } else {
          assert k in r.0[p] <==> k in prev[p] || (pn + 1 <= p < |d| && mode == Other && k in d[p]);
        }
      }
    }
  }

  /** The joined table's reference definition: `d` added period by period, and for
      a cell rejoining its own storage also subtracted again. */
  function JoinedTable(next: Table, mode: Mode, d: Table): Table {
    if mode == Same then SubTable(AddTable(next, d), d) else AddTable(next, d)
  }

  /** The left table's reference definition: `d` subtracted when the cell comes
      from another storage, untouched otherwise. */
  function LeftTable(prev: Table, mode: Mode, d: Table): Table {
    if mode == Other then SubTable(prev, d) else prev
  }

  /** The period loop computes the joined table's reference definition. */
  lemma PeriodLoopJoinedTable(prev: Table, next: Table, mode: Mode, d: Table, order: KeyOrder)
    requires OrdersKeys(order, d)
    requires PeriodLoop(prev, next, mode, d, order, 0).Success?
    ensures PeriodLoop(prev, next, mode, d, order, 0).value.1 == JoinedTable(next, mode, d)
  {
    var r := PeriodLoop(prev, next, mode, d, order, 0).value.1;
    var a := JoinedTable(next, mode, d);
    forall p: nat, k: FileId
      ensures Count(r, p, k) == Count(a, p, k)
    {
      PeriodLoopCounts(prev, next, mode, d, order, 0, p, k);
    }
    forall p | 0 <= p < |r|
      ensures r[p].Keys == a[p].Keys
    {
      forall k: FileId
        ensures k in r[p] <==> k in a[p]
      {
        PeriodLoopJoinedKeys(prev, next, mode, d, order, 0, p, k);
      }
    }
    TableEquality(r, a);
  }

  /** The period loop computes the left table's reference definition. */
  lemma PeriodLoopLeftTable(prev: Table, next: Table, mode: Mode, d: Table, order: KeyOrder)
    requires OrdersKeys(order, d)
    requires PeriodLoop(prev, next, mode, d, order, 0).Success?
    ensures PeriodLoop(prev, next, mode, d, order, 0).value.0 == LeftTable(prev, mode, d)
  {
    var r := PeriodLoop(prev, next, mode, d, order, 0).value.0;
    var a := LeftTable(prev, mode, d);
    PeriodLoopFailure(prev, next, mode, d, order, 0);
    forall p: nat, k: FileId
      ensures Count(r, p, k) == Count(a, p, k)
    {
      PeriodLoopCounts(prev, next, mode, d, order, 0, p, k);
      if mode == Other && |prev| <= p < |d| {
        assert !LacksPeriod(|prev|, d, 0);
        assert d[p] == map[];
      }
    }
    forall p | 0 <= p < |r|
      ensures r[p].Keys == a[p].Keys
    {
      forall k: FileId
        ensures k in r[p] <==> k in a[p]
      {
        PeriodLoopLeftKeys(prev, next, mode, d, order, 0, p, k);
      }
    }
    TableEquality(r, a);
  }

  // ---------------------------------------------------------------- the whole step

  /** Where cell `sc` comes from relative to storage `cs`. */
  function ModeOf(w: World, sc: CellRef, cs: StorageRef): Mode
    requires sc < |w.cells|
  {
    var ocs := w.cells[sc].cacheStorage;
    if ocs.None? then Fresh else if ocs.value == cs then Same else Other
  }

  /** `sc.assignTo(cs)` on the world. */
  function CellAssignTo(w: World, sc: CellRef, cs: StorageRef): (r: Result<World>)
    requires RefsValid(w) && sc < |w.cells| && cs < |w.storages|
    ensures r.Success? ==> RefsValid(r.value) && SameShape(w, r.value)
    ensures r.Success? ==> r.value.smallCells == w.smallCells && r.value.clients == w.clients
  {
    var ocs := w.cells[sc].cacheStorage;
    var mode := ModeOf(w, sc, cs);
    var prev := if ocs.Some? then w.storages[ocs.value].popularitiesAccumulated else [];
    var kept :- if ocs.Some? then RemovalLoop(w.storages[ocs.value].smallCells, sc, 0, |w.storages[ocs.value].smallCells|) else Success([]);
    var d := w.cells[sc].popularitiesAccumulated;
    var moved :- PeriodLoop(prev, w.storages[cs].popularitiesAccumulated, mode, d, AscendingOrder(d), 0);
    var joined := w.storages[cs := w.storages[cs].(smallCells := w.storages[cs].smallCells + [sc], popularitiesAccumulated := moved.1)];
    var storages := if mode == Other then joined[ocs.value := joined[ocs.value].(popularitiesAccumulated := moved.0)] else joined;
    Success(w.(cells := w.cells[sc := w.cells[sc].(cacheStorage := Some(cs))], storages := storages))
  }

  /** `assignTo` keeps the world well formed. */
  lemma CellAssignToValid(w: World, sc: CellRef, cs: StorageRef)
    requires Valid(w) && sc < |w.cells| && cs < |w.storages|
    requires CellAssignTo(w, sc, cs).Success?
    ensures Valid(CellAssignTo(w, sc, cs).value)
  {
    var w' := CellAssignTo(w, sc, cs).value;
    CellAssignToEffect(w, sc, cs);
    forall s, i | 0 <= s < |w'.storages| && 0 <= i < |w'.storages[s].smallCells|
      ensures w'.storages[s].smallCells[i] < |w'.cells|
    {
      if s == cs && i == |w.storages[cs].smallCells| {
        assert w'.storages[s].smallCells[i] == sc;
      } else if s == cs {
        assert w'.storages[s].smallCells[i] == w.storages[s].smallCells[i];
      }
    }
  }

  /** `assignTo` panics exactly when the cell's previous storage lists it before its
      last position, or is another storage lacking a period in which the cell has
      demand.  A cell with no storage never panics. */
  lemma CellAssignToFailure(w: World, sc: CellRef, cs: StorageRef)
    requires RefsValid(w) && sc < |w.cells| && cs < |w.storages|
    ensures var ocs := w.cells[sc].cacheStorage;
      var d := w.cells[sc].popularitiesAccumulated;
      CellAssignTo(w, sc, cs).Failure? <==> (ocs.Some? && (
        || (exists i :: 0 <= i < |w.storages[ocs.value].smallCells| - 1 && w.storages[ocs.value].smallCells[i] == sc)
        || (ocs.value != cs && exists p :: |w.storages[ocs.value].popularitiesAccumulated| <= p < |d| && d[p] != map[])))
  {
    var ocs := w.cells[sc].cacheStorage;
    var prev := if ocs.Some? then w.storages[ocs.value].popularitiesAccumulated else [];
    var d := w.cells[sc].popularitiesAccumulated;
    PeriodLoopFailure(prev, w.storages[cs].popularitiesAccumulated, ModeOf(w, sc, cs), d, AscendingOrder(d), 0);
  }

  /** On success the cell records `cs` as its storage and is appended to `cs`'s
      member list; no other member list changes, and only the joined storage and the
      storage the cell leaves have their demand changed. */
  lemma CellAssignToEffect(w: World, sc: CellRef, cs: StorageRef)
    requires RefsValid(w) && sc < |w.cells| && cs < |w.storages|
    requires CellAssignTo(w, sc, cs).Success?
    ensures var w' := CellAssignTo(w, sc, cs).value;
      w'.cells == w.cells[sc := w.cells[sc].(cacheStorage := Some(cs))]
    ensures var w' := CellAssignTo(w, sc, cs).value;
      w'.storages[cs].smallCells == w.storages[cs].smallCells + [sc]
    ensures var w' := CellAssignTo(w, sc, cs).value;
      forall x :: 0 <= x < |w.storages| && x != cs ==> w'.storages[x].smallCells == w.storages[x].smallCells
    ensures var w' := CellAssignTo(w, sc, cs).value;
      forall x :: 0 <= x < |w.storages| ==>
        w'.storages[x] == w.storages[x].(smallCells := w'.storages[x].smallCells,
                                         popularitiesAccumulated := w'.storages[x].popularitiesAccumulated)
    ensures var w' := CellAssignTo(w, sc, cs).value;
      forall x :: 0 <= x < |w.storages| && x != cs && Some(x) != w.cells[sc].cacheStorage ==> w'.storages[x] == w.storages[x]
  {
  }

  /** On success the joined storage's demand is its reference definition, and a
      storage the cell leaves loses exactly the cell's demand. */
  lemma CellAssignToDemand(w: World, sc: CellRef, cs: StorageRef)
    requires RefsValid(w) && sc < |w.cells| && cs < |w.storages|
    requires CellAssignTo(w, sc, cs).Success?
    ensures var w' := CellAssignTo(w, sc, cs).value;
      w'.storages[cs].popularitiesAccumulated
        == JoinedTable(w.storages[cs].popularitiesAccumulated, ModeOf(w, sc, cs), w.cells[sc].popularitiesAccumulated)
    ensures var w' := CellAssignTo(w, sc, cs).value;
      var ocs := w.cells[sc].cacheStorage;
      ocs.Some? && ocs.value != cs ==>
        w'.storages[ocs.value].popularitiesAccumulated
          == SubTable(w.storages[ocs.value].popularitiesAccumulated, w.cells[sc].popularitiesAccumulated)
  {
    var ocs := w.cells[sc].cacheStorage;
    var mode := ModeOf(w, sc, cs);
    var prev := if ocs.Some? then w.storages[ocs.value].popularitiesAccumulated else [];
    var d := w.cells[sc].popularitiesAccumulated;
    PeriodLoopJoinedTable(prev, w.storages[cs].popularitiesAccumulated, mode, d, AscendingOrder(d));
    PeriodLoopLeftTable(prev, w.storages[cs].popularitiesAccumulated, mode, d, AscendingOrder(d));
  }

  /** A cell joining a storage it does not already belong to adds its demand to it. */
  lemma CellAssignToJoinCounts(w: World, sc: CellRef, cs: StorageRef, p: nat, k: FileId)
    requires RefsValid(w) && sc < |w.cells| && cs < |w.storages|
    requires w.cells[sc].cacheStorage != Some(cs)
    requires CellAssignTo(w, sc, cs).Success?
    ensures Count(CellAssignTo(w, sc, cs).value.storages[cs].popularitiesAccumulated, p, k)
      == Count(w.storages[cs].popularitiesAccumulated, p, k) + Count(w.cells[sc].popularitiesAccumulated, p, k)
  {
    CellAssignToDemand(w, sc, cs);
  }

  /** A cell rejoining its own storage leaves every count of it as it was. */
  lemma CellAssignToSameCounts(w: World, sc: CellRef, cs: StorageRef, p: nat, k: FileId)
    requires RefsValid(w) && sc < |w.cells| && cs < |w.storages|
    requires w.cells[sc].cacheStorage == Some(cs)
    requires CellAssignTo(w, sc, cs).Success?
    ensures Count(CellAssignTo(w, sc, cs).value.storages[cs].popularitiesAccumulated, p, k)
      == Count(w.storages[cs].popularitiesAccumulated, p, k)
  {
    CellAssignToDemand(w, sc, cs);
  }

  /** Moving a cell between two storages conserves their combined demand. */
  lemma CellAssignToConserves(w: World, sc: CellRef, cs: StorageRef, p: nat, k: FileId)
    requires RefsValid(w) && sc < |w.cells| && cs < |w.storages|
    requires w.cells[sc].cacheStorage.Some? && w.cells[sc].cacheStorage.value != cs
    requires CellAssignTo(w, sc, cs).Success?
    ensures var o := w.cells[sc].cacheStorage.value;
      var w' := CellAssignTo(w, sc, cs).value;
      Count(w'.storages[o].popularitiesAccumulated, p, k) + Count(w'.storages[cs].popularitiesAccumulated, p, k)
        == Count(w.storages[o].popularitiesAccumulated, p, k) + Count(w.storages[cs].popularitiesAccumulated, p, k)
  {
    var o := w.cells[sc].cacheStorage.value;
    var d := w.cells[sc].popularitiesAccumulated;
    var w' := CellAssignTo(w, sc, cs).value;
    CellAssignToDemand(w, sc, cs);
    var before := w.storages[o].popularitiesAccumulated;
    assert Count(w'.storages[o].popularitiesAccumulated, p, k) == Count(before, p, k) - (if p < |before| then Count(d, p, k) else 0);
    if |before| <= p < |d| {
      CellAssignToFailure(w, sc, cs);
      assert d[p] == map[];
    }
  }
}
